=== FILE: README.md ===
# tony.js core, modelled in Dafny

tony.js wraps a Web Audio context in a proxy. Every node factory call goes through
the same path:

- it splits a settings object off the call's arguments;
- it applies each setting to the new node (a direct AudioParam value, an envelope,
  a welded gain node or a plain member);
- it wraps the node's `connect`, `start` and `stop` so that they chain, and adds `play`.

A composite node groups the children an initializer creates. It keeps start and
stop queues, the list of outbound connections, its start time, a count of children
still playing, and a shared constant source that drives the parameters it exposes.
An instrument merges its defaults with the performance arguments of one note. Two
extensions add a note-name table and a pulse-width-modulation oscillator built
around a square wave-shaper curve.

The model has seven modules:

- `Envelope`: applyEnvelope's step list, as the ordered automation operations it issues.
- `Host`: the audio context as the library sees it. It holds a clock, the value of
  every AudioParam and the ordered log of every call made on host objects. Its
  `ApplyEnvelope` method walks the steps with a time cursor.
- `Settings`: settings objects as distinct-keyed, insertion-ordered entry lists.
- `Core`: setValue, createObjectFromFactoryFunction, enhanceNode and the composite
  node.
  - Run-time replaced members (`start`, `stop`, `connect`, `disconnect`) are values
    describing their wrapper chain.
  - Invoking a member appends to the host log a function of that chain.
  - The composite is a class over its closure state.
- `Instrument`: createSettings, and the instrument's play and start.
- `ChromaticScale`: the note table loops and the `noteMap[id] || id` lookup.
- `Pwm`: createPwmOscillator1, including the in-place fill of the 256-point curve.

The note table follows the code: "A4" is 69, because the octave digit `oct` gives
`(oct + 1) * 12 + n`.

## Model

| member | source | states |
|---|---|---|
| Envelope.StepOps | src/tony-core.js:236-249 | Defines the operations one step issues at a cursor: nothing for a bare value; for a pair, a linear ramp to a negative target, an exponential ramp to a positive one, or an exponential ramp to 0.0001 for zero, followed on the last step by a linear ramp to 0 just after. Its properties are the lemmas below |
| Envelope.Ramps | src/tony-core.js:235-250 | Defines the operations of the first k steps, each step at the cursor the earlier steps reached. Its properties are the lemmas below |
| Envelope.EnvelopeOps | src/tony-core.js:225-251 | Defines the whole envelope: the cancellation at the anchor, the initial value when the first step is bare, then the ramps of every step. Its properties are the lemmas below |
| Envelope.Advance | src/tony-core.js:242-247 | A bare value does not move the cursor. A pair with a non-zero duration moves it by that duration, and a pair with a non-negative duration (the falsy 0 takes the default) always moves it strictly forward |
| Envelope.StepOpsAreRamps | src/tony-core.js:237-249 | One step issues only linear or exponential ramps, and no exponential ramp aims at a value that is not positive |
| Envelope.RampsAreSafe | src/tony-core.js:235-250 | Over the first k steps, every operation of the loop is a ramp and every exponential ramp has a positive target |
| Envelope.EnvelopeHead | src/tony-core.js:226-232 | The envelope opens with cancelScheduledValues(anchor) and nothing else cancels. A setValueAtTime(steps[0], anchor) follows if and only if the first step is bare, and no other operation is a setValueAtTime |
| Envelope.NoExponentialToNonPositive | src/tony-core.js:240-248 | No exponential ramp of a whole envelope targets a value of zero or less |
| Envelope.RampEndsAtElapsed | src/tony-core.js:235-249 | The ramp of the k-th pair ends at the anchor plus the effective durations of steps 0..k. It targets the pair's value, or 0.0001 for zero. It is linear exactly when the target is negative |
| Envelope.RampCount | src/tony-core.js:235-250 | One ramp per pair, plus one closing linear ramp when the last step is a pair aiming at zero; bare values after the first issue nothing |
| Envelope.StepOpsInOrder | src/tony-core.js:240-248 | With a non-negative duration, one step's ramps lie strictly after the cursor in strictly increasing time. Unless it is the last step, they end by the advanced cursor |
| Envelope.RampsIncrease | src/tony-core.js:235-250 | With no negative duration, the ramp times strictly increase and all lie after the anchor. Before the last step they lie within the elapsed time |
| Envelope.EnvelopeInTimeOrder | src/tony-core.js:225-251 | With no negative duration, no operation is earlier than the anchor, and everything after the cancellation is in strictly increasing time |
| Envelope.ElapsedNonNegative | src/tony-core.js:242-247 | With no negative duration the cursor never moves back |
| Envelope.RampsPrefix | src/tony-core.js:235-250 | The operations of the first j steps are a prefix of those of the first k steps, for j <= k: a later step never rewrites an earlier one |
| Envelope.ExampleDecayToSilence | src/tony-core.js:243-245 | [1, [0, 0.5]] gives cancel, set 1, an exponential ramp to 0.0001 at 0.5 and a linear ramp to 0 at 0.5001 |
| Envelope.ExampleNegativeIsLinear | src/tony-core.js:241-242 | A negative target is reached by a linear ramp |
| Host.Host.ApplyEnvelope | src/tony-core.js:225-251 | The loop appends to the log exactly the envelope's operations on that parameter, in order |
| Host.Host.IssueStep | src/tony-core.js:236-249 | One pass advances the cursor by the step's effective duration and logs exactly that step's ramps |
| Host.Host.Create | src/tony-core.js:123 | A factory call hands out the next identity, logs the creation and changes no parameter value or clock |
| Host.ScheduleOfTagged | src/tony-core.js:225-251 | Issuing an envelope on one parameter extends that parameter's schedule by exactly the envelope and leaves every other parameter's schedule unchanged |
| Host.ScheduleOfOther | src/tony-core.js:225-251 | Calls that are not automation leave every parameter's schedule unchanged |
| Settings.Put | src/tony-core.js:494-495 | Assigning a key: the key set gains the key. Existing keys keep their positions and a new key goes last. The key reads the new value and every other key reads as before |
| Settings.Get | src/tony-core.js:494-495 | A key reads a value if and only if it is a key, and the value is the one stored with it |
| Settings.IndexUnique | src/tony-core.js:494-495 | With distinct keys, a key's position is the only one holding it |
| Core.StartCalls | src/tony-core.js:151-155 | Defines the calls a start chain makes: an envelope wrapper's envelope at the given time and then the start it replaced; a fluent wrapper's original and then the onStart hook. Its properties are RunStart and StartCallsShape |
| Core.StopCalls | src/tony-core.js:158-162 | Defines the calls a stop chain makes: the original stop, then the onStop hook. Its properties are RunStop and StopCallsShape |
| Core.ConnectCalls | src/tony-core.js:145-148 | A connect chain makes at most one call, and nothing but a connection to the endpoint given |
| Core.RunStart | src/tony-core.js:151-155 | Running a start chain logs exactly the calls its wrappers make: an envelope wrapper's envelope, then the start it replaced; a fluent wrapper's original, then the onStart hook |
| Core.RunStop | src/tony-core.js:158-162 | Running a stop chain logs the original stop, then the onStop hook, at the same time |
| Core.InvokeStart | src/tony-core.js:151-155 | `node.start(when)` logs the chain's calls and returns the node exactly when enhanced |
| Core.InvokeStop | src/tony-core.js:158-162 | `node.stop(when)` logs the chain's calls and returns the node exactly when enhanced |
| Core.InvokeConnect | src/tony-core.js:145-148 | `node.connect(dst)` connects the node, or the gain node welded onto it, once, and returns the node exactly when enhanced |
| Core.InvokePlay | src/tony-core.js:167-171 | play starts at `when`, or now when it is 0, and stops `duration` later, 0.25 when it is 0; start calls come before stop calls |
| Core.StartCallsShape | src/tony-core.js:151-155 | A start chain makes only automation, its own node's start and its own hook, all at the time it was given |
| Core.StopCallsShape | src/tony-core.js:158-162 | A stop chain makes only its own node's stop and hook, at the time given |
| Core.SplitArgsAsWritten | src/tony-core.js:117-120 | As written, the last argument is split off if and only if its typeof is "object"; otherwise the arguments are left whole |
| Core.PeriodicWaveLosesImag | src/tony-core.js:117-123 | As written, createPeriodicWave(real, imag) loses imag to the settings |
| Core.SplitArgs | src/tony-core.js:116-120 | Settings are split off if and only if the last argument is a plain object; every other argument reaches the factory |
| Core.PeriodicWaveKeepsImag | src/tony-core.js:116-123 | With the intended split, both typed arrays reach the factory |
| Core.DirectValue | src/tony-core.js:190-192 | A number is assigned as it is and text never is |
| Core.EnvelopeOf | src/tony-core.js:193-203 | An envelope is read from a non-empty step array as it is, or from a non-empty typed array as bare values, and from nothing else |
| Core.SetParamOutcomes | src/tony-core.js:188-204 | The three outcomes of setting an AudioParam. A direct value is assigned and nothing is scheduled. Inside a composite, an envelope shows its first value and the new start applies it at start's `when`, before the start it replaced. Elsewhere the envelope is scheduled now |
| Core.SetParam | src/tony-core.js:188-204 | The parameter value, the log and the node's start are exactly those outcomes |
| Core.Weld | src/tony-core.js:205-211 | Exactly one gain node is created, with the value set on its gain. The node is connected to it, its gain member becomes that gain, and connect and disconnect are redirected to it |
| Core.GainOnOutputless | src/tony-core.js:205-214 | `{gain: false}` is accepted on a kind with no output, where "gain" is a plain member, and refused on a node that can connect, where it would reach a welded gain |
| Core.SetValueOutcomes | src/tony-core.js:186-216 | The three outcomes of setValue on a node's state. An AudioParam member changes only the parameter value, the start and the log, as SetParamOutcomes says. "gain" on a connectable node with no gain creates the next gain node, sets the value on its gain, connects the node into it, makes it the node's gain and redirects connect and disconnect to it. Any other member is assigned and nothing else changes. The log only grows, and a start or a connect is never taken away |
| Core.SetValue | src/tony-core.js:186-216 | The node and the host end exactly in the state SetValueOutcomes describes. A gain node is welded on if and only if the member is "gain" and the node can connect and has no gain, and the welded node is a fresh gain node with the next identity |
| Core.NewNode | src/tony-core.js:123 | The factory makes one fresh host object, logged, with the members its kind carries |
| Core.Enhance | src/tony-core.js:140-178 | connect, start and stop are wrapped when present (start and stop also when a hook is set), and play is added only when start and stop exist and play does not. The enclosing composite then registers the node |
| Core.SettingsState | src/tony-core.js:126-130 | The node's state after its first i settings, each through setValue in order. The only AudioParam it can gain is a welded "gain" on a node that could connect, and a node could connect afterwards if and only if it could before |
| Core.RunSettings | src/tony-core.js:126-130 | The loop leaves the node and the host exactly in SettingsState's state, with the clock unchanged |
| Core.ApplySettings | src/tony-core.js:126-130 | The node and the host end in SettingsState's state. A direct value given for an AudioParam ends as its value, and a plain key ends as a member. Settings that name no AudioParam and not "gain" change no parameter. Each of the node's AudioParams that no setting names keeps its value. Values of other objects are kept, and so is connect when no key is "gain" |
| Core.SettingsRead | src/tony-core.js:126-130 | After any number of settings, the readings SettingsLeave names hold: direct values, plain members, the AudioParams, kept values and connect, start, the log and identities |
| Core.SettingsLeaveStep | src/tony-core.js:127-129 | One more setting keeps every earlier reading |
| Core.GrownStep | src/tony-core.js:127-129 | After one more setting, the node's AudioParams are those it had, plus "gain" once it has been set, and identities do not go back |
| Core.DeferredStep | src/tony-core.js:193-200 | Inside a composite, one more setting puts its envelope, if it sets one on an AudioParam, in front of the start chain |
| Core.DeferredEnvelopes | src/tony-core.js:193-200 | Inside a composite, the start a node has after its settings applies each envelope they set on an AudioParam, at start's time, latest setting first, and then does what the node's start did before |
| Core.ScheduleStep | src/tony-core.js:188-211 | One more setting extends a parameter's schedule by exactly the envelope it schedules at once on that parameter, and changes no other parameter's schedule. Outside a composite it leaves start as it was |
| Core.SettingsSchedule | src/tony-core.js:203 | Outside a composite, every parameter's schedule after the settings is its schedule before them plus the envelopes the settings set on it, in settings order. Start is left as it was, and inside a composite no envelope is scheduled at once |
| Core.GainStep | src/tony-core.js:205-211 | One more setting keeps the gain weld's reading |
| Core.GainWelded | src/tony-core.js:205-211 | On a connectable node with no gain, a "gain" setting welds a gain node on. The node's gain is that node's gain and holds the value given when it is a number, and connect and disconnect go to it. Without a "gain" key, nothing is welded and connect is unchanged |
| Core.SettingStep | src/tony-core.js:127-129 | After one more setting, the node's AudioParams are those it had, plus "gain" once it has been set |
| Core.SettingValueStep | src/tony-core.js:127-129 | After one more setting, earlier parameter readings stand and unrelated parameters are untouched |
| Core.SettingMemberStep | src/tony-core.js:127-129 | After one more setting, earlier plain-member readings stand |
| Core.UnnamedStep | src/tony-core.js:186-211 | One more setting writes only the AudioParam it names or a newly welded gain, so a parameter no setting has named keeps its value |
| Core.UnnamedStateStep | src/tony-core.js:127-129 | On the node-and-host state, one more setting keeps every parameter no setting has named at the value it had |
| Core.SettingsKeepUnnamed | src/tony-core.js:126-130 | After any number of settings, each of the node's AudioParams that none of them names holds the value it had before |
| Core.CreateObject | src/tony-core.js:115-133 | The factory of the kind makes a fresh object with the next identity. The settings the corrected split takes off the last argument are then applied to it, before any enhancement: the object and the host end in the fresh object's state carried through those settings. Older objects' parameter values are unchanged |
| Core.CreateNode | src/tony-core.js:94-96 | A factory of the proxy creates the object with its settings applied, as CreateObject says, then enhances it: its AudioParams, members, parameter values and log are those of that state, and its start and connect are that state's, wrapped. Inside a composite it is queued for start and stop and counted when it has onended |
| Core.StartQueue | src/tony-core.js:417 | Every queued child is started at the same time, in queue order |
| Core.StopQueue | src/tony-core.js:421 | Every queued child is stopped at the same time, in queue order |
| Core.StartAllOnlyQueued | src/tony-core.js:415-419 | Starting a queue makes only automation and the starts and start hooks of queued children, all at the start time. A child not in the queue is untouched |
| Core.StopAllOnlyQueued | src/tony-core.js:420-423 | Stopping a queue stops only queued children, all at the stop time |
| Core.PopAllReverses | src/tony-core.js:386 | Popping every recorded connection disconnects each exactly once, most recent first |
| Core.Composite.Register | src/tony-core.js:399-412 | postFn appends a child with start to the start queue and one with stop to the stop queue, and counts a child with onended. The invariant incompleteCount = registered - ended is kept |
| Core.Composite.ChildEnded | src/tony-core.js:408-410 | Each onended lowers the count by one. disconnectAll runs exactly when it reaches 0, so, as no child is created after the initializer returns, it runs once over the composite's life |
| Core.Composite.DisconnectAll | src/tony-core.js:385-388 | Every recorded connection is disconnected, most recent first, and the record is left empty, so a second call disconnects nothing |
| Core.Composite.Connect | src/tony-core.js:376-380 | The destination gain is connected and the endpoint is recorded |
| Core.Composite.Disconnect | src/tony-core.js:381-384 | The destination gain is disconnected and the record stays as it was |
| Core.Composite.Cancel | src/tony-core.js:391-396 | Connections are torn down only when a start time exists and lies in the future: cancel before start does nothing |
| Core.Composite.Start | src/tony-core.js:415-419 | startTime becomes `when`, or now when it is 0, and every queued child starts at it in queue order |
| Core.Composite.Stop | src/tony-core.js:420-423 | Every queued child stops at `when`, or now when it is 0 |
| Core.Composite.Play | src/tony-core.js:166-171 | The composite's play starts its children, then stops them `duration` later (0.25 when it is 0) |
| Core.Composite.CreateSingleValueSource | src/tony-core.js:258-263 | A looping buffer source over the two-sample buffer [value, value], created and registered like any child; no parameter value changes |
| Core.Composite.CreateOne | src/tony-core.js:431-433 | The shared constant source is made on the first call only; later calls return it and log nothing |
| Core.Composite.CreateParam | src/tony-core.js:436-449 | A fresh gain node whose gain holds the default value, with the shared source connected into it last. The parameter is that gain. Older parameter values are unchanged |
| Core.Composite.ConnectParam | src/tony-core.js:443-446 | A parameter connects through its gain node and returns itself |
| Core.Composite.Expose | src/tony-ext-pwm1.js:32-34 | Assigning a parameter to the composite makes it the member of that name |
| Core.Composite.Finish | src/tony-core.js:452-457 | After the initializer, the settings are applied to the composite node, which ends in SettingsState's state and reads like any settings; an AudioParam no setting names keeps its value. The queues, connections and start time are untouched |
| Core.NewComposite | src/tony-core.js:368-375 | A fresh composite with empty queues, no connections, no start time, a zero count and no shared source. Its gain member is the destination gain's |
| Instrument.PerfObject | src/tony-core.js:483-488 | Defines the object the performance arguments give in the corrected reading: the object itself, `{note: value}` for a truthy bare value, and nothing for a falsy or missing one. Its properties are BareNote and MissingArgumentsGiveDefaults |
| Instrument.PerfObjectAsWritten | src/tony-core.js:483-488 | As written, missing performance arguments give no object to merge (the read of `note` throws), and any other argument gives the object below |
| Instrument.MissingArgumentsThrow | src/tony-core.js:488 | play() with no arguments fails as written, whereas play(0) merges an empty object |
| Instrument.WithFrequency | src/tony-core.js:488-490 | The note defaulting adds at most the frequency key and changes no other key. A truthy frequency, or no truthy note, leaves the arguments unchanged |
| Instrument.NoteHasFrequency | src/tony-core.js:488-490 | A note always ends with a truthy frequency: the one given, else the converted one, else 440 |
| Instrument.BareNote | src/tony-core.js:483-490 | A truthy bare value becomes the note, and brings its converted frequency, or 440 |
| Instrument.Merge | src/tony-core.js:494-495 | Defines the `for..in` copy as a value: each key of the source in turn assigned into the accumulator. Its properties are the Merge lemmas below |
| Instrument.MergeKeys | src/tony-core.js:494-495 | The merge holds exactly the keys of both sides |
| Instrument.MergeGet | src/tony-core.js:494-495 | A key reads from the copied object when it has it, and as before otherwise |
| Instrument.MergeKeepsOrder | src/tony-core.js:494-495 | Keys already present keep their positions |
| Instrument.MergeGetAll | src/tony-core.js:494-495 | Every key reads from the last source that defines it |
| Instrument.CopyInto | src/tony-core.js:494-495 | The `for..in` copy loop computes the merge |
| Instrument.CreateSettings | src/tony-core.js:481-498 | The result is `startTime` (when, or now), then the defaults, then the arguments. It holds exactly those keys, each valued by the last source that defines it, with `startTime` first |
| Instrument.StartTimeOverride | src/tony-core.js:493-495 | A startTime among the defaults overrides `when` |
| Instrument.MissingArgumentsGiveDefaults | src/tony-core.js:483-497 | With the corrected reading, no arguments give the start time and the defaults |
| Instrument.Duration | src/tony-core.js:474 | The play duration is never 0: the setting when it is a non-zero number, 0.25 otherwise |
| Instrument.Play | src/tony-core.js:472-475 | The composite is connected to the destination, started at the settings' start time and stopped after their duration |
| Instrument.Start | src/tony-core.js:476-480 | The composite is connected to the destination and started at the settings' start time |
| ChromaticScale.PitchClassOfRow | src/tony-ext-chromaticScale.js:22 | Every name in row n of the table spells pitch class n |
| ChromaticScale.KeyInjective | src/tony-ext-chromaticScale.js:22-26 | Different (pitch class, spelling, octave) triples give different keys |
| ChromaticScale.NamesInTable | src/tony-ext-chromaticScale.js:22 | The twelve rows hold 17 names |
| ChromaticScale.ListedBefore | src/tony-ext-chromaticScale.js:24-27 | A key added before a point of the loops belongs to a name and octave that come before it |
| ChromaticScale.NotYet | src/tony-ext-chromaticScale.js:26 | The key about to be written is not yet in the table, so no entry is overwritten |
| ChromaticScale.HasBeforeKept | src/tony-ext-chromaticScale.js:26 | Adding a new key keeps every entry already written |
| ChromaticScale.AddEntry | src/tony-ext-chromaticScale.js:26 | One write keeps the table exactly the entries so far, and adds a new key |
| ChromaticScale.HasEntry | src/tony-ext-chromaticScale.js:24-27 | Every entry before a point of the loops is in the table with its note number |
| ChromaticScale.TableDone | src/tony-ext-chromaticScale.js:24-28 | When the loops end, every name in every octave 0..8 maps to (octave + 1) * 12 + pitch class, and nothing else is a key |
| ChromaticScale.AddSpellings | src/tony-ext-chromaticScale.js:26 | The inner loop adds every spelling of the pitch class in the octave, one new key each |
| ChromaticScale.AddOctaves | src/tony-ext-chromaticScale.js:25-27 | The middle loop adds octaves 0..8 of the pitch class, 9 keys per spelling |
| ChromaticScale.BuildNoteMap | src/tony-ext-chromaticScale.js:22-28 | The table maps every name and octave to its note number, holds nothing else, and has 153 keys |
| ChromaticScale.NumbersInRange | src/tony-ext-chromaticScale.js:26 | Every number in the table lies in 12..119, so none is the falsy 0 |
| ChromaticScale.Lookup | src/tony-ext-chromaticScale.js:36 | Defines `noteMap[id] || id`: the table's number for a known name, the identifier itself otherwise. Its properties are LookupFallsBack and LookupName |
| ChromaticScale.LookupFallsBack | src/tony-ext-chromaticScale.js:36 | The lookup returns the identifier itself if and only if it is not a name in the table; a known name gives its number |
| ChromaticScale.LookupName | src/tony-ext-chromaticScale.js:26-36 | Every spelling in every octave looks up its note number |
| ChromaticScale.NoteNumberInjective | src/tony-ext-chromaticScale.js:26 | Distinct (pitch class, octave) pairs have distinct note numbers |
| ChromaticScale.KnownKeys | src/tony-ext-chromaticScale.js:22-26 | The keys "A4", "C4", "C0", "C#4", "Db4", "A#4" and "Bb4" are the table's spellings |
| ChromaticScale.KnownNotes | src/tony-ext-chromaticScale.js:26 | "A4" is 69, "C4" is 60, "C0" is 12, "C#4" and "Db4" are 61, and "A#4" and "Bb4" are 70 |
| ChromaticScale.Enharmonic | src/tony-ext-chromaticScale.js:22-26 | The two spellings of a black key look up the same number in every octave |
| Pwm.PulseCurve | src/tony-ext-pwm1.js:45-49 | Defines the pulse curve: 256 points, -1 in 0..127 and +1 in 128..255. Its properties are FillShape and PulseCurveShape |
| Pwm.FillShape | src/tony-ext-pwm1.js:45-49 | The filled buffer has 256 entries, -1 in 0..127 and +1 in 128..255 |
| Pwm.PulseCurveShape | src/tony-ext-pwm1.js:46-49 | The curve is antisymmetric, shape[255 - i] = -shape[i], and has no zero entry |
| Pwm.MakeParams | src/tony-ext-pwm1.js:29-34 | Three new parameters are exposed as frequency, detune and width, with defaults 440, 0 and 0 |
| Pwm.MakeOscillator | src/tony-ext-pwm1.js:37-39 | A triangle oscillator at frequency 0, with the frequency and detune parameters connected into its own |
| Pwm.MakeShaper | src/tony-ext-pwm1.js:45-58 | A wave shaper holding the pulse curve, fed by the oscillator and the width parameter, and connected to the composite's destination |
| Pwm.CreatePwmOscillator | src/tony-ext-pwm1.js:27-60 | The composite exposes gain, frequency, detune and width as four distinct AudioParams. A direct value a setting gives one of them ends as its value, and each of frequency, detune and width that no setting names keeps its default, 440, 0 or 0. Its triangle oscillator feeds the pulse-curve shaper that drives the output |
| Pwm.ExampleFrequencyAndWidth | src/tony-ext-pwm1.js:27-34 | With settings {frequency: 220, width: 0.5}, frequency is 220, width is 0.5 and detune keeps its default 0 |

## Left out

- Digital signal processing, the host's own behaviour, and rendering are not modelled. Host objects are identities whose calls are logged.
- The default-context singleton, the reflection over an offline context that generates the proxy factories, and compileOfflineAudioBuffer are not part of this model. The few factories used are the `Kind` values of `Host`.
- createScriptProcessor and createScriptSource run on the audio thread over sample buffers and are not part of this model.
- The `Math.pow` note-to-frequency formula is floating point. `CreateSettings` takes the conversion as a parameter, and only the name-to-number table and lookup are modelled.
- createSingleValueSource's buffer is recorded as the member value [value, value]; no sample data is modelled.
- src/tony-ext-supersaw1.js, playFunction and cancel's ignored `fadeTime` argument are not part of this model.
- Nested composites are not modelled. A composite's start chain would run through other composites, and `Composite.Start` handles only host children.
- Recipes (`initFn`) are caller code. `Instrument.Play` and `Instrument.Start` receive the composite a recipe built, and the PWM recipe is written out as `Pwm.CreatePwmOscillator`.
- NaN, and JavaScript's coercion of text or objects where numbers are expected, are not modelled.
- Core.SetValue, Core.ApplySettings: an AudioParam value must be a number or a non-empty numeric envelope that, inside a composite, opens with a bare value. Other values are excluded by a precondition, and what the library does with them is not modelled. Text is walked as an envelope of one-character steps, so "5" ramps to 5 and "440" ends in an exponential ramp to 0, which the host rejects with a RangeError. `false` fails in applyEnvelope at line 230, after the cancellation has been issued. Inside a composite, an envelope opening with a pair assigns that pair, an array, to `.value`.
- Core.CreateObject: the positional arguments that reach the factory are not recorded; a host object is an identity and a kind. The settings are those the corrected split takes off (Core.SplitArgs), not the as-written split.
- Instrument.CreateSettings: with no performance arguments it follows the corrected reading, the start time and the defaults. As written, that call throws at line 488; Instrument.PerfObjectAsWritten models that.
- Core.ApplySettings: the promises that a direct value ends as its parameter's value and that an unnamed parameter keeps its value assume distinct members name distinct AudioParams. That holds for host nodes and for the PWM composite (Pwm.CreatePwmOscillator states it).
- Core.Composite.Register: children register only while the initializer runs (`requires !sealed`). In the library the proxy keeps its postFn (line 399), so a factory call on the returned composite would still queue and count a child. After the count has reached 0 that would raise it again, and a later completion would run disconnectAll a second time. Every recipe in the repository creates its children inside the initializer, so the model seals the composite when the initializer returns; the same holds for CreateSingleValueSource, CreateOne and CreateParam.
- Core.Composite.ChildEnded: requires the host to fire onended at most once per child. The decrement is unguarded, so a second onended would drive the count below 0.
- Core.Composite.CreateParam: requires the shared source, when it exists, to connect through its own host connect. Every source `CreateOne` makes does.
- Instrument.CreateSettings: array-valued performance arguments are excluded (`Primitive`).
- Instrument.Play: requires a duration setting, when present, to be a number.
- Core.Composite.Finish: applies the settings after the initializer, because settings split off the composite's factory call are applied when the initializer has returned. Settings the initializer reads itself are the recipe's business.

## Findings

| source | as written | input that shows it | evidently intended | confidence | as-written member | corrected member |
|---|---|---|---|---|---|---|
| src/tony-core.js:116-120 | Any last argument whose typeof is "object" is taken as the settings object, including a typed array, null or an element | createPeriodicWave(real, imag) with two Float32Arrays: imag is popped as settings and the factory receives one array | Only a plain settings object in last position is split off, as the comment on line 116 says | not executed | Core.PeriodicWaveLosesImag | Core.PeriodicWaveKeepsImag |
| src/tony-core.js:483-488 | The guard on line 483 lets a missing performance argument through, and line 488 then reads `note` from undefined, which throws a TypeError | instrument.play() or instrument.start() with no arguments | Missing arguments mean no performance settings: the start time and the defaults | not executed | Instrument.MissingArgumentsThrow | Instrument.MissingArgumentsGiveDefaults |

=== FILE: ChromaticScale.dfy ===
/**
 * The chromatic-scale extension: a table from note names with an octave digit
 * ("C4", "C#4", "Db4", ...) to MIDI note numbers, and the lookup that turns a note
 * identifier into a note number. The frequency formula applied to that number is
 * not part of this model.
 */
module ChromaticScale {

  /** The names of the twelve pitch classes, the sharp spelling before the flat one
      (src/tony-ext-chromaticScale.js line 22). */
  const NoteNames: seq<seq<string>> :=
    [["C"], ["C#", "Db"], ["D"], ["D#", "Eb"], ["E"], ["F"], ["F#", "Gb"], ["G"], ["G#", "Ab"],
     ["A"], ["A#", "Bb"], ["B"]]

  /** Pitch class n, spelling m, octave oct. */
  predicate ValidName(n: nat, m: nat, oct: nat)
  {
    n < |NoteNames| && m < |NoteNames[n]| && oct < 9
  }

  /** The decimal digit of an octave. */
  function Digit(d: nat): char
    requires d < 10
  {
    ('0' as int + d) as char
  }

  /** The key the table gives spelling m of pitch class n in octave oct: the name
      followed by the octave. */
  function Key(n: nat, m: nat, oct: nat): string
    requires ValidName(n, m, oct)
  {
    NoteNames[n][m] + [Digit(oct)]
  }

  /** The MIDI note number of pitch class n in octave oct. */
  function NoteNumber(n: nat, oct: nat): int
  {
    (oct + 1) * 12 + n
  }

  /** The pitch class a note name spells. */
  function PitchClass(name: string): int
  {
    if name == "C" then 0
    else if name == "C#" || name == "Db" then 1
    else if name == "D" then 2
    else if name == "D#" || name == "Eb" then 3
    else if name == "E" then 4
    else if name == "F" then 5
    else if name == "F#" || name == "Gb" then 6
    else if name == "G" then 7
    else if name == "G#" || name == "Ab" then 8
    else if name == "A" then 9
    else if name == "A#" || name == "Bb" then 10
    else if name == "B" then 11
    else -1
  }

  /** Every name in row n of the table spells pitch class n. */
  lemma PitchClassOfRow(n: nat, m: nat)
    requires n < |NoteNames| && m < |NoteNames[n]|
    ensures PitchClass(NoteNames[n][m]) == n
  {
    if n == 0 {} else if n == 1 {} else if n == 2 {} else if n == 3 {}
    else if n == 4 {} else if n == 5 {} else if n == 6 {} else if n == 7 {}
    else if n == 8 {} else if n == 9 {} else if n == 10 {} else {}
  }

  /** Different (pitch class, spelling, octave) triples give different keys. */
  lemma KeyInjective(n: nat, m: nat, oct: nat, n': nat, m': nat, oct': nat)
    requires ValidName(n, m, oct) && ValidName(n', m', oct')
    requires Key(n, m, oct) == Key(n', m', oct')
    ensures n == n' && m == m' && oct == oct'
  {
    var a, b := NoteNames[n][m], NoteNames[n'][m'];
    var k := Key(n, m, oct);
    assert |a| == |b|;
    assert k[|a|] == Digit(oct) && k[|b|] == Digit(oct');
    assert a == k[..|a|] == b;
    PitchClassOfRow(n, m);
    PitchClassOfRow(n', m');
  }

  /** (n', oct', m') comes before (n, oct, m) in the order the table is built. */
  predicate Before(n': nat, oct': nat, m': nat, n: nat, oct: nat, m: nat)
  {
    n' < n || (n' == n && (oct' < oct || (oct' == oct && m' < m)))
  }

  /** The points the loops pass through: just before spelling m of pitch class n in
      octave oct, where octave 9 and pitch class 12 are the points past the end. */
  predicate Point(n: nat, oct: nat, m: nat)
  {
    if n < |NoteNames| then oct <= 9 && m <= |NoteNames[n]| && (oct == 9 ==> m == 0)
    else n == |NoteNames| && oct == 0 && m == 0
  }

  /** Every entry added before point (n, oct, m) is in the table with its note number. */
  ghost predicate HasBefore(r: map<string, int>, n: nat, oct: nat, m: nat)
    requires Point(n, oct, m)
    decreases n, oct, m
  {
    if m > 0 then
      && HasBefore(r, n, oct, m - 1)
      && Key(n, m - 1, oct) in r && r[Key(n, m - 1, oct)] == NoteNumber(n, oct)
    else if oct > 0 then HasBefore(r, n, oct - 1, |NoteNames[n]|)
    else if n > 0 then HasBefore(r, n - 1, 9, 0)
    else true
  }

  /** k is the key of an entry added before point (n, oct, m). */
  ghost predicate Listed(k: string, n: nat, oct: nat, m: nat)
    requires Point(n, oct, m)
    decreases n, oct, m
  {
    if m > 0 then k == Key(n, m - 1, oct) || Listed(k, n, oct, m - 1)
    else if oct > 0 then Listed(k, n, oct - 1, |NoteNames[n]|)
    else if n > 0 then Listed(k, n - 1, 9, 0)
    else false
  }

  /** The table holds nothing else. */
  ghost predicate OnlyBefore(r: map<string, int>, n: nat, oct: nat, m: nat)
    requires Point(n, oct, m)
  {
    forall k :: k in r ==> Listed(k, n, oct, m)
  }

  /** The whole table: every name in every octave 0..8 maps to its note number, and
      nothing else is a key. */
  ghost predicate IsNoteMap(r: map<string, int>)
  {
    && (forall n, m, oct :: ValidName(n, m, oct) ==> Key(n, m, oct) in r && r[Key(n, m, oct)] == NoteNumber(n, oct))
    && (forall k :: k in r ==> exists n, m, oct :: ValidName(n, m, oct) && k == Key(n, m, oct))
  }

  /** How many names the rows before row n hold. */
  function NamesBefore(n: nat): nat
    requires n <= |NoteNames|
  {
    if n == 0 then 0 else NamesBefore(n - 1) + |NoteNames[n - 1]|
  }

  lemma NamesInTable()
    ensures NamesBefore(|NoteNames|) == 17
  {
    assert NamesBefore(4) == 6;
    assert NamesBefore(8) == 11;
    assert NamesBefore(12) == 17;
  }

  /** A key listed before a point belongs to a name and octave that come before it. */
  lemma {:induction false} ListedBefore(k: string, n: nat, oct: nat, m: nat)
    requires Point(n, oct, m) && Listed(k, n, oct, m)
    ensures exists n', oct', m' :: ValidName(n', m', oct') && Before(n', oct', m', n, oct, m) && k == Key(n', m', oct')
    decreases n, oct, m
  {
    if m > 0 {
      if k == Key(n, m - 1, oct) {
        assert Before(n, oct, m - 1, n, oct, m);
      } else {
        ListedBefore(k, n, oct, m - 1);
        var n', oct', m' :| ValidName(n', m', oct') && Before(n', oct', m', n, oct, m - 1) && k == Key(n', m', oct');
        assert Before(n', oct', m', n, oct, m);
      }
    } else if oct > 0 {
      ListedBefore(k, n, oct - 1, |NoteNames[n]|);
      var n', oct', m' :| ValidName(n', m', oct') && Before(n', oct', m', n, oct - 1, |NoteNames[n]|) && k == Key(n', m', oct');
      assert Before(n', oct', m', n, oct, m);
    } else {
      ListedBefore(k, n - 1, 9, 0);
      var n', oct', m' :| ValidName(n', m', oct') && Before(n', oct', m', n - 1, 9, 0) && k == Key(n', m', oct');
      assert Before(n', oct', m', n, oct, m);
    }
  }

  /** The next entry to add is not yet a key. */
  lemma NotYet(r: map<string, int>, n: nat, oct: nat, m: nat)
    requires ValidName(n, m, oct) && OnlyBefore(r, n, oct, m)
    ensures Key(n, m, oct) !in r
  {
    if Key(n, m, oct) in r {
      ListedBefore(Key(n, m, oct), n, oct, m);
      var n', oct', m' :| ValidName(n', m', oct') && Before(n', oct', m', n, oct, m) && Key(n, m, oct) == Key(n', m', oct');
      KeyInjective(n, m, oct, n', m', oct');
    }
  }

  /** Adding a key that is not yet in the table keeps every entry already there. */
  lemma {:induction false} HasBeforeKept(r: map<string, int>, k: string, v: int, n: nat, oct: nat, m: nat)
    requires Point(n, oct, m) && HasBefore(r, n, oct, m) && k !in r
    ensures HasBefore(r[k := v], n, oct, m)
    decreases n, oct, m
  {
    if m > 0 {
      HasBeforeKept(r, k, v, n, oct, m - 1);
    } else if oct > 0 {
      HasBeforeKept(r, k, v, n, oct - 1, |NoteNames[n]|);
    } else if n > 0 {
      HasBeforeKept(r, k, v, n - 1, 9, 0);
    }
  }

  /** Adding the next entry keeps the table exactly the entries so far. */
  lemma AddEntry(r: map<string, int>, n: nat, oct: nat, m: nat)
    requires ValidName(n, m, oct)
    requires HasBefore(r, n, oct, m) && OnlyBefore(r, n, oct, m)
    ensures Key(n, m, oct) !in r
    ensures var r' := r[Key(n, m, oct) := NoteNumber(n, oct)];
            HasBefore(r', n, oct, m + 1) && OnlyBefore(r', n, oct, m + 1)
  {
    NotYet(r, n, oct, m);
    HasBeforeKept(r, Key(n, m, oct), NoteNumber(n, oct), n, oct, m);
  }

  /** Every entry before a point is in a table that has the entries before it. */
  lemma {:induction false} HasEntry(r: map<string, int>, n: nat, oct: nat, m: nat, n': nat, oct': nat, m': nat)
    requires Point(n, oct, m) && HasBefore(r, n, oct, m)
    requires ValidName(n', m', oct') && Before(n', oct', m', n, oct, m)
    ensures Key(n', m', oct') in r && r[Key(n', m', oct')] == NoteNumber(n', oct')
    decreases n, oct, m
  {
    if m > 0 {
      if (n', oct', m') != (n, oct, m - 1) {
        HasEntry(r, n, oct, m - 1, n', oct', m');
      }
    } else if oct > 0 {
      HasEntry(r, n, oct - 1, |NoteNames[n]|, n', oct', m');
    } else {
      HasEntry(r, n - 1, 9, 0, n', oct', m');
    }
  }

  /** Past the last pitch class the table is complete. */
  lemma TableDone(r: map<string, int>)
    requires HasBefore(r, |NoteNames|, 0, 0) && OnlyBefore(r, |NoteNames|, 0, 0)
    ensures IsNoteMap(r)
  {
    forall n, m, oct | ValidName(n, m, oct)
      ensures Key(n, m, oct) in r && r[Key(n, m, oct)] == NoteNumber(n, oct)
    {
      HasEntry(r, |NoteNames|, 0, 0, n, oct, m);
    }
    forall k | k in r
      ensures exists n, m, oct :: ValidName(n, m, oct) && k == Key(n, m, oct)
    {
      ListedBefore(k, |NoteNames|, 0, 0);
    }
  }

  /** The innermost loop (line 26): every spelling of pitch class n in octave oct. */
  method AddSpellings(r0: map<string, int>, n: nat, oct: nat) returns (r: map<string, int>)
    requires n < |NoteNames| && oct < 9
    requires HasBefore(r0, n, oct, 0) && OnlyBefore(r0, n, oct, 0)
    ensures HasBefore(r, n, oct + 1, 0) && OnlyBefore(r, n, oct + 1, 0)
    ensures |r| == |r0| + |NoteNames[n]|
  {
    r := r0;
    var m := 0;
    while m < |NoteNames[n]|
      invariant 0 <= m <= |NoteNames[n]|
      invariant HasBefore(r, n, oct, m) && OnlyBefore(r, n, oct, m)
      invariant |r| == |r0| + m
    {
      AddEntry(r, n, oct, m);
      r := r[Key(n, m, oct) := NoteNumber(n, oct)];
      m := m + 1;
    }
  }

  /** The middle loop (line 25): octaves 0..8 of pitch class n. */
  method AddOctaves(r0: map<string, int>, n: nat) returns (r: map<string, int>)
    requires n < |NoteNames|
    requires HasBefore(r0, n, 0, 0) && OnlyBefore(r0, n, 0, 0)
    ensures HasBefore(r, n + 1, 0, 0) && OnlyBefore(r, n + 1, 0, 0)
    ensures |r| == |r0| + 9 * |NoteNames[n]|
  {
    r := r0;
    var oct := 0;
    while oct < 9
      invariant 0 <= oct <= 9
      invariant HasBefore(r, n, oct, 0) && OnlyBefore(r, n, oct, 0)
      invariant |r| == |r0| + oct * |NoteNames[n]|
    {
      ghost var len := |NoteNames[n]|;
      r := AddSpellings(r, n, oct);
      assert (oct + 1) * len == oct * len + len;
      oct := oct + 1;
    }
  }

  /** The table loops (lines 23-28): for each pitch class, each octave 0..8 and each
      spelling, `name + octave` maps to `(octave + 1) * 12 + pitch class`. The result
      has one key per spelling and octave: 17 names in 9 octaves. */
  method BuildNoteMap() returns (r: map<string, int>)
    ensures IsNoteMap(r)
    ensures |r| == 153
  {
    r := map[];
    var n := 0;
    while n < |NoteNames|
      invariant 0 <= n <= |NoteNames|
      invariant HasBefore(r, n, 0, 0) && OnlyBefore(r, n, 0, 0)
      invariant |r| == 9 * NamesBefore(n)
    {
      r := AddOctaves(r, n);
      n := n + 1;
    }
    NamesInTable();
    TableDone(r);
  }

  /** A note identifier: a name, or a number. */
  datatype NoteId = Name(name: string) | Number(number: real)

  /** `noteMap[noteId] || noteId` (line 36): the table's number for a known name,
      the identifier itself otherwise. The table is a plain object, so a name such as
      "constructor" or "toString" would find an inherited member there; the model
      returns the name itself, and either way the frequency computed from it is NaN. */
  function Lookup(noteMap: map<string, int>, id: NoteId): NoteId
  {
    if id.Name? && id.name in noteMap && noteMap[id.name] != 0 then Number(noteMap[id.name] as real)
    else id
  }

  /** Every number in the table lies in 12..119, so none is the falsy 0. */
  lemma NumbersInRange(r: map<string, int>, k: string)
    requires IsNoteMap(r) && k in r
    ensures 12 <= r[k] <= 119
  {
    var n, m, oct :| ValidName(n, m, oct) && k == Key(n, m, oct);
  }

  /** The fallback is taken exactly for names the table does not hold, and numbers. */
  lemma LookupFallsBack(r: map<string, int>, id: NoteId)
    requires IsNoteMap(r)
    ensures Lookup(r, id) == id <==> !(id.Name? && id.name in r)
    ensures id.Name? && id.name in r ==> Lookup(r, id) == Number(r[id.name] as real)
  {
    if id.Name? && id.name in r {
      NumbersInRange(r, id.name);
    }
  }

  /** A spelling in an octave looks up its note number. */
  lemma LookupName(r: map<string, int>, n: nat, m: nat, oct: nat)
    requires IsNoteMap(r) && ValidName(n, m, oct)
    ensures Lookup(r, Name(Key(n, m, oct))) == Number(NoteNumber(n, oct) as real)
  {
  }

  /** Two pitch classes in two octaves share a note number only when they are the
      same pair. */
  lemma NoteNumberInjective(n: nat, oct: nat, n': nat, oct': nat)
    requires n < 12 && n' < 12
    requires NoteNumber(n, oct) == NoteNumber(n', oct')
    ensures n == n' && oct == oct'
  {
  }

  /** The keys of a few known spellings. */
  lemma KnownKeys()
    ensures Key(9, 0, 4) == "A4" && Key(0, 0, 4) == "C4" && Key(0, 0, 0) == "C0"
    ensures Key(1, 0, 4) == "C#4" && Key(1, 1, 4) == "Db4"
    ensures Key(10, 0, 4) == "A#4" && Key(10, 1, 4) == "Bb4"
  {
  }

  /** Known values: A4 is 69, C4 is 60, C0 is 12; the two spellings of a black key
      share their number. */
  lemma KnownNotes(r: map<string, int>)
    requires IsNoteMap(r)
    ensures "A4" in r && r["A4"] == 69
    ensures "C4" in r && r["C4"] == 60
    ensures "C0" in r && r["C0"] == 12
    ensures "C#4" in r && "Db4" in r && r["C#4"] == r["Db4"] == 61
    ensures "A#4" in r && "Bb4" in r && r["A#4"] == r["Bb4"] == 70
  {
    KnownKeys();
    assert ValidName(9, 0, 4) && ValidName(0, 0, 4) && ValidName(0, 0, 0);
    assert ValidName(1, 1, 4) && ValidName(10, 1, 4);
  }

  /** Enharmonic spellings look up the same number in every octave. */
  lemma Enharmonic(r: map<string, int>, n: nat, oct: nat)
    requires IsNoteMap(r) && n < |NoteNames| && |NoteNames[n]| == 2 && oct < 9
    ensures Lookup(r, Name(Key(n, 0, oct))) == Lookup(r, Name(Key(n, 1, oct)))
  {
    LookupName(r, n, 0, oct);
    LookupName(r, n, 1, oct);
  }
}

=== FILE: Core.dfy ===
/**
 * The engine of the library: the factory wrapper that splits off a settings object
 * and applies it (createObjectFromFactoryFunction, setValue), the node enhancer
 * (enhanceNode) and the composite node (createComposite).
 *
 * Members that the library replaces at run time (start, stop, connect, disconnect)
 * are values describing the chain of wrappers; invoking one is a method whose calls
 * on the host are given by a function of that chain.
 */
module Core {
  import opened Envelope
  import opened Host
  import opened Settings

  /** What a node's `start(when)` does. */
  datatype StartFn =
    | NoStart                                                 // the node has no start
    | HostStart                                               // the host node's own start
    | EnvelopeStart(param: ParamRef, steps: Steps, prev: StartFn) // setValue's envelope wrapper
    | FluentStart(orig: StartFn)                              // enhanceNode's wrapper

  /** What a node's `stop(when)` does. */
  datatype StopFn = NoStop | HostStop | FluentStop(orig: StopFn)

  /** What a node's `connect(dst)` does. */
  datatype ConnectFn =
    | NoConnect
    | HostConnect
    | WeldedConnect(via: nat)       // forwards to the welded gain node
    | FluentConnect(orig: ConnectFn) // enhanceNode's wrapper, returning the node

  /** What a node's `disconnect(dst)` does. */
  datatype DisconnectFn = NoDisconnect | HostDisconnect | WeldedDisconnect(via: nat)

  /** Calls made by invoking start chain f of node `id` at `when`; `hook` says whether
      the node carries an onStart hook. */
  function StartCalls(id: nat, f: StartFn, hook: bool, when: real): seq<Call>
  {
    match f
    case NoStart => []
    case HostStart => [Started(id, when)]
    case EnvelopeStart(p, steps, prev) => Tagged(p, EnvelopeOps(when, steps)) + StartCalls(id, prev, hook, when)
    case FluentStart(orig) => StartCalls(id, orig, hook, when) + (if hook then [StartHook(id, when)] else [])
  }

  function StopCalls(id: nat, f: StopFn, hook: bool, when: real): seq<Call>
  {
    match f
    case NoStop => []
    case HostStop => [Stopped(id, when)]
    case FluentStop(orig) => StopCalls(id, orig, hook, when) + (if hook then [StopHook(id, when)] else [])
  }

  function ConnectCalls(id: nat, f: ConnectFn, dst: Endpoint): (r: seq<Call>)
    ensures |r| <= 1
    ensures forall c :: c in r ==> c.Connected? && c.dst == dst
  {
    match f
    case NoConnect => []
    case HostConnect => [Connected(id, dst)]
    case WeldedConnect(g) => [Connected(g, dst)]
    case FluentConnect(orig) => ConnectCalls(id, orig, dst)
  }

  function DisconnectCalls(id: nat, f: DisconnectFn, dst: Endpoint): seq<Call>
  {
    match f
    case NoDisconnect => []
    case HostDisconnect => [Disconnected(id, dst)]
    case WeldedDisconnect(g) => [Disconnected(g, dst)]
  }

  /** A node: a host object, or the proxy object that stands for a composite. */
  class Node {
    const id: nat
    const kind: Kind
    /** AudioParam members, by name. */
    var params: map<string, ParamRef>
    /** Members assigned plainly by settings. */
    var members: map<string, SettingValue>
    var start: StartFn
    var stop: StopFn
    var connect: ConnectFn
    var disconnect: DisconnectFn
    /** Whether the node has a `play` member. */
    var play: bool
    /** Whether the caller attached onStart / onStop hooks. */
    var onStart: bool
    var onStop: bool
    /** Whether "onended" is a member of the node (scheduled sources). */
    const hasOnended: bool

    /** The host object as the factory returns it. */
    constructor (id: nat, kind: Kind)
      ensures this.id == id && this.kind == kind
      ensures params == (map m | m in HostParams(kind) :: ParamRef(id, m)) && members == map[]
      ensures start == (if IsSource(kind) then HostStart else NoStart)
      ensures stop == (if IsSource(kind) then HostStop else NoStop)
      ensures connect == (if HasOutput(kind) then HostConnect else NoConnect)
      ensures disconnect == (if HasOutput(kind) then HostDisconnect else NoDisconnect)
      ensures !play && !onStart && !onStop && hasOnended == IsSource(kind)
    {
      this.id := id;
      this.kind := kind;
      params := map m | m in HostParams(kind) :: ParamRef(id, m);
      members := map[];
      start := if IsSource(kind) then HostStart else NoStart;
      stop := if IsSource(kind) then HostStop else NoStop;
      connect := if HasOutput(kind) then HostConnect else NoConnect;
      disconnect := if HasOutput(kind) then HostDisconnect else NoDisconnect;
      play := false;
      onStart := false;
      onStop := false;
      hasOnended := IsSource(kind);
    }
  }

  // ---------------------------------------------------------------------------
  // Invoking node members

  /** Runs start chain f of node `id`: an envelope wrapper applies its envelope at
      `when` and then the start it replaced; the fluent wrapper runs the original first
      and the onStart hook after it, with the same time. */
  method RunStart(host: Host, id: nat, f: StartFn, hook: bool, when: real)
    modifies host`calls
    ensures host.calls == old(host.calls) + StartCalls(id, f, hook, when)
    decreases f
  {
    match f
    case NoStart =>
    case HostStart =>
      host.Log(Started(id, when));
    case EnvelopeStart(p, steps, prev) =>
      host.ApplyEnvelope(p, when, steps);
      RunStart(host, id, prev, hook, when);
      AppendAssoc(old(host.calls), Tagged(p, EnvelopeOps(when, steps)), StartCalls(id, prev, hook, when));
    case FluentStart(orig) =>
      RunStart(host, id, orig, hook, when);
      if hook {
        host.Log(StartHook(id, when));
      }
      AppendAssoc(old(host.calls), StartCalls(id, orig, hook, when), if hook then [StartHook(id, when)] else []);
  }

  method RunStop(host: Host, id: nat, f: StopFn, hook: bool, when: real)
    modifies host`calls
    ensures host.calls == old(host.calls) + StopCalls(id, f, hook, when)
    decreases f
  {
    match f
    case NoStop =>
    case HostStop =>
      host.Log(Stopped(id, when));
    case FluentStop(orig) =>
      RunStop(host, id, orig, hook, when);
      if hook {
        host.Log(StopHook(id, when));
      }
      AppendAssoc(old(host.calls), StopCalls(id, orig, hook, when), if hook then [StopHook(id, when)] else []);
  }

  /** `node.start(when)`; the enhanced start returns the node. */
  method InvokeStart(host: Host, n: Node, when: real) returns (ret: Node?)
    requires n.start != NoStart
    modifies host`calls
    ensures host.calls == old(host.calls) + StartCalls(n.id, n.start, n.onStart, when)
    ensures ret == (if n.start.FluentStart? then n else null)
  {
    RunStart(host, n.id, n.start, n.onStart, when);
    ret := if n.start.FluentStart? then n else null;
  }

  /** `node.stop(when)`; the enhanced stop returns the node. */
  method InvokeStop(host: Host, n: Node, when: real) returns (ret: Node?)
    requires n.stop != NoStop
    modifies host`calls
    ensures host.calls == old(host.calls) + StopCalls(n.id, n.stop, n.onStop, when)
    ensures ret == (if n.stop.FluentStop? then n else null)
  {
    RunStop(host, n.id, n.stop, n.onStop, when);
    ret := if n.stop.FluentStop? then n else null;
  }

  /** `node.connect(dst)`; the enhanced connect returns the node. */
  method InvokeConnect(host: Host, n: Node, dst: Endpoint) returns (ret: Node?)
    requires n.connect != NoConnect
    modifies host`calls
    ensures host.calls == old(host.calls) + ConnectCalls(n.id, n.connect, dst)
    ensures ret == (if n.connect.FluentConnect? then n else null)
  {
    var f := n.connect;
    while f.FluentConnect?
      invariant ConnectCalls(n.id, f, dst) == ConnectCalls(n.id, n.connect, dst)
      decreases f
    {
      f := f.orig;
    }
    match f {
      case NoConnect =>
      case HostConnect =>
        host.Log(Connected(n.id, dst));
      case WeldedConnect(g) =>
        host.Log(Connected(g, dst));
    }
    ret := if n.connect.FluentConnect? then n else null;
  }

  /** The `play(duration, when)` that enhanceNode adds: start at `when`, or now when it
      is 0, and stop `duration` later, 0.25 seconds when duration is 0. */
  method InvokePlay(host: Host, n: Node, duration: real, when: real) returns (ret: Node)
    requires n.play && n.start.FluentStart? && n.stop.FluentStop?
    modifies host`calls
    ensures var t := if when != 0.0 then when else old(host.currentTime);
            host.calls == old(host.calls) + StartCalls(n.id, n.start, n.onStart, t)
                          + StopCalls(n.id, n.stop, n.onStop, t + (if duration != 0.0 then duration else 0.25))
    ensures ret == n
  {
    var startTime := if when != 0.0 then when else host.currentTime;
    var started := InvokeStart(host, n, startTime);
    var stopped := InvokeStop(host, started, startTime + (if duration != 0.0 then duration else 0.25));
    ret := n;
  }

  // ---------------------------------------------------------------------------
  // Factory arguments

  /** Arguments of a factory call, by their JavaScript type. */
  datatype Arg =
    | ANum(n: real)
    | AText(t: string)
    | AObject(settings: Settings)  // a plain object
    | ATyped(data: seq<real>)      // a typed array
    | AElement                      // another host object, such as a media element
    | ANull
    | AFunction

  /** `typeof a == "object"`. */
  predicate TypeofObject(a: Arg) { a.AObject? || a.ATyped? || a.AElement? || a.ANull? }

  /** How the factory wrapper splits off its settings as written: any last argument
      whose typeof is "object" is popped, whatever kind of object it is. */
  function SplitArgsAsWritten(args: seq<Arg>): (r: (seq<Arg>, Option<Arg>))
    ensures r.1.Some? <==> |args| > 0 && TypeofObject(args[|args| - 1])
    ensures r.1.Some? ==> r.0 + [r.1.value] == args
    ensures r.1.None? ==> r.0 == args
  {
    if |args| > 0 && TypeofObject(args[|args| - 1]) then (args[..|args| - 1], Some(args[|args| - 1]))
    else (args, None)
  }

  /** As written, a factory that takes typed arrays, such as createPeriodicWave(real,
      imag), loses its last array to the settings and receives one argument. */
  lemma PeriodicWaveLosesImag(re: seq<real>, im: seq<real>)
    ensures SplitArgsAsWritten([ATyped(re), ATyped(im)]) == ([ATyped(re)], Some(ATyped(im)))
  {
    assert [ATyped(re), ATyped(im)][..1] == [ATyped(re)];
  }

  /** The settings split as the wrapper's comment intends: only a plain object in
      last position is settings; every other argument reaches the factory. */
  function SplitArgs(args: seq<Arg>): (r: (seq<Arg>, Option<Settings>))
    ensures r.1.Some? <==> |args| > 0 && args[|args| - 1].AObject?
    ensures r.1.Some? ==> r.0 + [AObject(r.1.value)] == args
    ensures r.1.None? ==> r.0 == args
    ensures forall a :: a in args && !a.AObject? ==> a in r.0
  {
    if |args| > 0 && args[|args| - 1].AObject? then
      assert args == args[..|args| - 1] + [args[|args| - 1]];
      (args[..|args| - 1], Some(args[|args| - 1].settings))
    else (args, None)
  }

  /** The intended split keeps every typed array for the factory. */
  lemma PeriodicWaveKeepsImag(re: seq<real>, im: seq<real>)
    ensures SplitArgs([ATyped(re), ATyped(im)]) == ([ATyped(re), ATyped(im)], None)
  {
  }

  // ---------------------------------------------------------------------------
  // setValue

  /** The number setValue assigns straight to an AudioParam: a value that is not
      array-like and is truthy or exactly 0 (`true` converts to 1), or an array-like
      of length 0 (it converts to 0). */
  function DirectValue(value: SettingValue): (r: Option<real>)
    ensures value.Num? ==> r == Some(value.v)
    ensures value.Text? ==> r == None
  {
    match value
    case Num(v) => Some(v)
    case Flag(b) => if b then Some(1.0) else None
    case Steps(s) => if |s| == 0 then Some(0.0) else None
    case Samples(d) => if |d| == 0 then Some(0.0) else None
    case Text(_) => None
  }

  /** The envelope applyEnvelope reads from a non-empty array-like: a step array as
      it is, a typed array as bare values. */
  function EnvelopeOf(value: SettingValue): (r: Option<Steps>)
    ensures r.Some? <==> (value.Steps? && |value.steps| > 0) || (value.Samples? && |value.data| > 0)
    ensures r.Some? && value.Steps? ==> r.value == value.steps
    ensures r.Some? && value.Samples? ==>
              |r.value| == |value.data| && forall i :: 0 <= i < |value.data| ==> r.value[i] == Scalar(value.data[i])
  {
    match value
    case Steps(s) =>
      if |s| > 0 then var steps: Steps := s; Some(steps) else None
    case Samples(d) =>
      if |d| > 0 then var steps: Steps := seq(|d|, i requires 0 <= i < |d| => Scalar(d[i])); Some(steps) else None
    case _ => None
  }

  /** The AudioParam values the model follows: a number, or a non-empty envelope of
      numbers that, inside a composite, opens with a bare value. Outside this set the
      library still does something, which the model does not follow: text is walked
      as an envelope of one-character steps (so "5" ramps to 5, and "440" ends in an
      exponential ramp to 0, which the host rejects with a RangeError); `false` fails
      in applyEnvelope when it reads the first step's length, after the cancel has
      been issued; and inside a composite an envelope opening with a pair assigns that
      pair, an array, to `.value`. */
  predicate ParamAccepts(value: SettingValue, deferred: bool)
  {
    DirectValue(value).Some? || (EnvelopeOf(value).Some? && (!deferred || EnvelopeOf(value).value[0].Scalar?))
  }

  /** Parameter values after setting `value` on p; `deferred` says whether the call is
      made inside a composite, where an envelope waits for start. */
  function ParamValuesAfter(values: map<ParamRef, real>, p: ParamRef, value: SettingValue, deferred: bool): map<ParamRef, real>
    requires ParamAccepts(value, deferred)
  {
    if DirectValue(value).Some? then values[p := DirectValue(value).value]
    else if deferred then values[p := EnvelopeOf(value).value[0].v]
    else values
  }

  /** Calls made at once by setting `value` on p. */
  function ParamCallsAfter(p: ParamRef, value: SettingValue, deferred: bool, now: real): seq<Call>
    requires ParamAccepts(value, deferred)
  {
    if DirectValue(value).None? && !deferred then Tagged(p, EnvelopeOps(now, EnvelopeOf(value).value)) else []
  }

  /** The node's start after setting `value` on p. */
  function StartAfter(start: StartFn, p: ParamRef, value: SettingValue, deferred: bool): StartFn
    requires ParamAccepts(value, deferred)
  {
    if DirectValue(value).None? && deferred then EnvelopeStart(p, EnvelopeOf(value).value, start) else start
  }

  /** The three outcomes of setting an AudioParam: a single value is assigned and
      nothing is scheduled; an envelope inside a composite shows its first value and
      is applied by start, anchored at the time start is given, before the start it
      replaced; elsewhere it is scheduled now. */
  lemma SetParamOutcomes(values: map<ParamRef, real>, start: StartFn, p: ParamRef, value: SettingValue,
                         deferred: bool, now: real, id: nat, hook: bool, when: real)
    requires ParamAccepts(value, deferred)
    ensures DirectValue(value).Some? ==>
              ParamValuesAfter(values, p, value, deferred)[p] == DirectValue(value).value
              && ParamCallsAfter(p, value, deferred, now) == []
              && StartAfter(start, p, value, deferred) == start
    ensures DirectValue(value).None? && deferred ==>
              var steps := EnvelopeOf(value).value;
              && ParamValuesAfter(values, p, value, deferred)[p] == steps[0].v
              && ParamCallsAfter(p, value, deferred, now) == []
              && StartCalls(id, StartAfter(start, p, value, deferred), hook, when)
                 == Tagged(p, EnvelopeOps(when, steps)) + StartCalls(id, start, hook, when)
    ensures DirectValue(value).None? && !deferred ==>
              ParamCallsAfter(p, value, deferred, now) == Tagged(p, EnvelopeOps(now, EnvelopeOf(value).value))
              && ParamValuesAfter(values, p, value, deferred) == values
              && StartAfter(start, p, value, deferred) == start
  {
  }

  /** setValue on an AudioParam member (lines 188-204). */
  method SetParam(host: Host, deferred: bool, node: Node, p: ParamRef, value: SettingValue)
    requires ParamAccepts(value, deferred)
    modifies host`values, host`calls, node`start
    ensures host.values == ParamValuesAfter(old(host.values), p, value, deferred)
    ensures host.calls == old(host.calls) + ParamCallsAfter(p, value, deferred, host.currentTime)
    ensures node.start == StartAfter(old(node.start), p, value, deferred)
  {
    var direct := DirectValue(value);
    if direct.Some? {
      host.SetParamValue(p, direct.value);
    } else {
      var steps := EnvelopeOf(value).value;
      if deferred {
        host.SetParamValue(p, steps[0].v);
        node.start := EnvelopeStart(p, steps, node.start);
      } else {
        host.ApplyEnvelope(p, host.currentTime, steps);
      }
    }
  }

  /** Whether setting `member` on the node welds a gain node on (line 205): "gain" is
      not an AudioParam of the node, its plain member of that name is missing or
      falsy, and the node can connect. */
  predicate WeldsGain(node: Node, member: string)
    reads node
  {
    && member == "gain" && member !in node.params
    && (member !in node.members || !Truthy(node.members[member]))
    && node.connect != NoConnect
  }

  /** The weld (lines 205-211): a new gain node is made, with the value set on its gain
      as a setting and enhanced like any created node; the node is connected into it,
      its "gain" member becomes the new node's gain, and connect and disconnect now
      act on the new node. */
  method Weld(host: Host, comp: Composite?, node: Node, value: SettingValue) returns (gn: Node)
    requires comp != null ==> comp.Valid() && comp.host == host && !comp.sealed
    requires node.connect != NoConnect && ParamAccepts(value, comp != null)
    modifies host, node`params, node`members, node`connect, node`disconnect, comp
    ensures fresh(gn) && gn.kind == Gain && gn.id == old(host.nextId) && host.nextId == gn.id + 1
    ensures host.currentTime == old(host.currentTime)
    ensures var p := ParamRef(gn.id, "gain");
            && host.values == ParamValuesAfter(old(host.values), p, value, comp != null)
            && host.calls == old(host.calls) + [Created(gn.id, Gain)]
                             + ParamCallsAfter(p, value, comp != null, host.currentTime)
                             + ConnectCalls(node.id, old(node.connect), ToNode(gn.id))
            && node.params == old(node.params)["gain" := p]
            && node.members == old(node.members) - {"gain"}
            && gn.start == (if DirectValue(value).None? && comp != null then FluentStart(EnvelopeStart(p, EnvelopeOf(value).value, NoStart)) else NoStart)
    ensures node.connect == WeldedConnect(gn.id) && node.disconnect == WeldedDisconnect(gn.id)
    ensures comp != null ==>
              && comp.Valid() && !comp.sealed && comp.Kept()
              && comp.startQ == old(comp.startQ) + (if gn.start != NoStart then [gn] else [])
              && comp.stopQ == old(comp.stopQ) && comp.tracked == old(comp.tracked)
  {
    gn := NewWeldGain(host, comp, value);
    var p := ParamRef(gn.id, "gain");
    var _ := InvokeConnect(host, node, ToNode(gn.id));
    node.params := node.params["gain" := p];
    node.members := node.members - {"gain"};
    node.connect := WeldedConnect(gn.id);
    node.disconnect := WeldedDisconnect(gn.id);
  }

  /** Lines 207-208: the gain node of a weld, with the value set on its gain and
      enhanced like any created node. */
  method NewWeldGain(host: Host, comp: Composite?, value: SettingValue) returns (gn: Node)
    requires comp != null ==> comp.Valid() && comp.host == host && !comp.sealed
    requires ParamAccepts(value, comp != null)
    modifies host, comp
    ensures fresh(gn) && gn.kind == Gain && gn.id == old(host.nextId) && host.nextId == gn.id + 1
    ensures host.currentTime == old(host.currentTime)
    ensures var p := ParamRef(gn.id, "gain");
            && host.values == ParamValuesAfter(old(host.values), p, value, comp != null)
            && host.calls == old(host.calls) + [Created(gn.id, Gain)]
                             + ParamCallsAfter(p, value, comp != null, host.currentTime)
            && gn.start == (if DirectValue(value).None? && comp != null then FluentStart(EnvelopeStart(p, EnvelopeOf(value).value, NoStart)) else NoStart)
    ensures comp != null ==>
              && comp.Valid() && !comp.sealed && comp.Kept()
              && comp.startQ == old(comp.startQ) + (if gn.start != NoStart then [gn] else [])
              && comp.stopQ == old(comp.stopQ) && comp.tracked == old(comp.tracked)
  {
    gn := NewNode(host, Gain);
    var p := ParamRef(gn.id, "gain");
    SetParam(host, comp != null, gn, p, value);
    Enhance(comp, gn);
  }

  /** setValue's effect on the node's AudioParam members. */
  function ParamsAfter(params: map<string, ParamRef>, welds: bool, next: nat): map<string, ParamRef>
  {
    if welds then params["gain" := ParamRef(next, "gain")] else params
  }

  /** setValue's effect on the node's plain members. */
  function MembersAfter(members: map<string, SettingValue>, params: map<string, ParamRef>, member: string,
                        welds: bool, value: SettingValue): map<string, SettingValue>
  {
    if member in params then members else if welds then members - {"gain"} else members[member := value]
  }

  /** setValue's effect on parameter values. */
  function ValuesAfter(values: map<ParamRef, real>, params: map<string, ParamRef>, member: string, welds: bool,
                       next: nat, value: SettingValue, deferred: bool): map<ParamRef, real>
    requires member in params || welds ==> ParamAccepts(value, deferred)
  {
    if member in params then ParamValuesAfter(values, params[member], value, deferred)
    else if welds then ParamValuesAfter(values, ParamRef(next, "gain"), value, deferred)
    else values
  }

  /** What setValue can change: one node's AudioParam members, plain members, start,
      connect and disconnect, and the host's parameter values, call log and next
      identity. */
  datatype SetState = SetState(params: map<string, ParamRef>, members: map<string, SettingValue>,
                               start: StartFn, connect: ConnectFn, disconnect: DisconnectFn,
                               values: map<ParamRef, real>, calls: seq<Call>, next: nat)

  function StateOf(host: Host, node: Node): SetState
    reads host, node
  {
    SetState(node.params, node.members, node.start, node.connect, node.disconnect,
             host.values, host.calls, host.nextId)
  }

  /** WeldsGain, on that state. */
  predicate Welds(s: SetState, member: string)
  {
    && member == "gain" && member !in s.params
    && (member !in s.members || !Truthy(s.members[member]))
    && s.connect != NoConnect
  }

  /** setValue (lines 186-216) on that state, for node `id`; `deferred` says whether
      the call is made inside a composite and `now` is the clock. */
  function SetValueState(id: nat, s: SetState, member: string, value: SettingValue, deferred: bool, now: real): SetState
    requires member in s.params || Welds(s, member) ==> ParamAccepts(value, deferred)
  {
    var welds := Welds(s, member);
    var calls :=
      if member in s.params then ParamCallsAfter(s.params[member], value, deferred, now)
      else if welds then
        [Created(s.next, Gain)] + ParamCallsAfter(ParamRef(s.next, "gain"), value, deferred, now)
        + ConnectCalls(id, s.connect, ToNode(s.next))
      else [];
    SetState(ParamsAfter(s.params, welds, s.next),
             MembersAfter(s.members, s.params, member, welds, value),
             if member in s.params then StartAfter(s.start, s.params[member], value, deferred) else s.start,
             if welds then WeldedConnect(s.next) else s.connect,
             if welds then WeldedDisconnect(s.next) else s.disconnect,
             ValuesAfter(s.values, s.params, member, welds, s.next, value, deferred),
             s.calls + calls,
             if welds then s.next + 1 else s.next)
  }

  /** The three outcomes of setValue: an AudioParam member is set as SetParamOutcomes
      says and nothing else changes; "gain" on a connectable node without one makes a
      gain node (the next identity), sets the value on its gain, connects the node
      into it, makes it the node's gain and redirects connect and disconnect to it;
      any other member is assigned as it is and nothing else changes. In every case
      the log only grows and a start or a connect is never taken away. */
  lemma SetValueOutcomes(id: nat, s: SetState, member: string, value: SettingValue, deferred: bool, now: real)
    requires member in s.params || Welds(s, member) ==> ParamAccepts(value, deferred)
    ensures var r := SetValueState(id, s, member, value, deferred, now);
            && s.calls <= r.calls && s.next <= r.next
            && (s.start != NoStart ==> r.start != NoStart)
            && (s.connect != NoConnect ==> r.connect != NoConnect)
    ensures member in s.params ==>
              var p := s.params[member];
              SetValueState(id, s, member, value, deferred, now)
              == s.(start := StartAfter(s.start, p, value, deferred),
                    values := ParamValuesAfter(s.values, p, value, deferred),
                    calls := s.calls + ParamCallsAfter(p, value, deferred, now))
    ensures Welds(s, member) ==>
              var p := ParamRef(s.next, "gain");
              SetValueState(id, s, member, value, deferred, now)
              == s.(params := s.params["gain" := p], members := s.members - {"gain"},
                    connect := WeldedConnect(s.next), disconnect := WeldedDisconnect(s.next),
                    values := ParamValuesAfter(s.values, p, value, deferred),
                    calls := s.calls + [Created(s.next, Gain)] + ParamCallsAfter(p, value, deferred, now)
                             + ConnectCalls(id, s.connect, ToNode(s.next)),
                    next := s.next + 1)
    ensures member !in s.params && !Welds(s, member) ==>
              SetValueState(id, s, member, value, deferred, now) == s.(members := s.members[member := value])
  {
    var r := SetValueState(id, s, member, value, deferred, now);
    if member in s.params {
      assert r.calls == s.calls + ParamCallsAfter(s.params[member], value, deferred, now);
    } else if Welds(s, member) {
      var p := ParamRef(s.next, "gain");
      assert r.calls == s.calls + ([Created(s.next, Gain)] + ParamCallsAfter(p, value, deferred, now)
                                   + ConnectCalls(id, s.connect, ToNode(s.next)));
    } else {
      assert r.calls == s.calls + [];
    }
  }

  /** setValue (lines 186-216): an AudioParam member is set as above; "gain" on a
      connectable node without one welds a new gain node on; any other member is
      assigned as it is. Returns the welded gain node, if any. */
  method SetValue(host: Host, comp: Composite?, node: Node, member: string, value: SettingValue)
    returns (welded: Node?)
    requires comp != null ==> comp.Valid() && comp.host == host && !comp.sealed
    requires member in node.params || WeldsGain(node, member) ==> ParamAccepts(value, comp != null)
    modifies host, node`params, node`members, node`start, node`connect, node`disconnect, comp
    ensures comp != null ==> comp.Valid() && !comp.sealed && comp.Kept() && comp.tracked == old(comp.tracked)
    ensures host.currentTime == old(host.currentTime)
    ensures StateOf(host, node) == SetValueState(node.id, old(StateOf(host, node)), member, value, comp != null, host.currentTime)
    ensures old(WeldsGain(node, member)) <==> welded != null
    ensures welded != null ==>
              && fresh(welded) && welded.id == old(host.nextId) && welded.kind == Gain
              && (comp != null ==> comp.startQ == old(comp.startQ) + (if welded.start != NoStart then [welded] else [])
                                   && comp.stopQ == old(comp.stopQ))
    ensures welded == null && comp != null ==> comp.QueuesUnchanged(old(comp.startQ), old(comp.stopQ))
  {
    ghost var s := StateOf(host, node);
    SetValueOutcomes(node.id, s, member, value, comp != null, host.currentTime);
    welded := null;
    if member in node.params {
      SetParam(host, comp != null, node, node.params[member], value);
    } else if WeldsGain(node, member) {
      welded := Weld(host, comp, node, value);
    } else {
      node.members := node.members[member := value];
    }
  }

  /** The host factory call itself: a fresh host object of the given kind. */
  method NewNode(host: Host, kind: Kind) returns (n: Node)
    requires kind != CompositeProxy
    modifies host
    ensures fresh(n) && n.kind == kind && n.id == old(host.nextId) && host.nextId == n.id + 1
    ensures host.calls == old(host.calls) + [Created(n.id, kind)]
    ensures host.values == old(host.values) && host.currentTime == old(host.currentTime)
    ensures n.params == (map m | m in HostParams(kind) :: ParamRef(n.id, m)) && n.members == map[]
    ensures n.start == (if IsSource(kind) then HostStart else NoStart)
    ensures n.stop == (if IsSource(kind) then HostStop else NoStop)
    ensures IsSource(kind) ==> n.start != NoStart
    ensures HasOutput(kind) ==> n.connect != NoConnect
    ensures n.connect == (if HasOutput(kind) then HostConnect else NoConnect)
    ensures n.disconnect == (if HasOutput(kind) then HostDisconnect else NoDisconnect)
    ensures !n.play && !n.onStart && !n.onStop && n.hasOnended == IsSource(kind)
  {
    var id := host.Create(kind);
    n := new Node(id, kind);
  }

  // ---------------------------------------------------------------------------
  // enhanceNode

  /** enhanceNode (lines 140-178): connect, start and stop run the original and then
      the hook, and return the node; play is added when start and stop exist and play
      does not; then the enclosing composite, if any, registers the node. */
  method Enhance(comp: Composite?, node: Node)
    requires comp != null ==> comp.Valid() && !comp.sealed
    modifies node`connect, node`start, node`stop, node`play, comp
    ensures node.connect == (if old(node.connect) != NoConnect then FluentConnect(old(node.connect)) else NoConnect)
    ensures node.start == (if old(node.start) != NoStart || node.onStart then FluentStart(old(node.start)) else NoStart)
    ensures node.stop == (if old(node.stop) != NoStop || node.onStop then FluentStop(old(node.stop)) else NoStop)
    ensures node.play == (old(node.play) || (node.start != NoStart && node.stop != NoStop))
    ensures comp != null ==>
              && comp.Valid() && !comp.sealed && comp.Kept()
              && comp.Registered(node, old(comp.startQ), old(comp.stopQ), old(comp.tracked), old(comp.endedCount))
  {
    if node.connect != NoConnect {
      node.connect := FluentConnect(node.connect);
    }
    if node.start != NoStart || node.onStart {
      node.start := FluentStart(node.start);
    }
    if node.stop != NoStop || node.onStop {
      node.stop := FluentStop(node.stop);
    }
    if node.start != NoStart && node.stop != NoStop && !node.play {
      node.play := true;
    }
    if comp != null {
      comp.Register(node);
    }
  }

  // ---------------------------------------------------------------------------
  // createObjectFromFactoryFunction and the reflected factories

  /** Distinct members name distinct AudioParams. */
  predicate ParamsDistinct(params: map<string, ParamRef>)
  {
    forall a, b :: a in params && b in params && a != b ==> params[a] != params[b]
  }

  /** Every setting that will reach an AudioParam holds a value ParamAccepts allows
      there. Such a setting names one of `params`, or is "gain" on a node that can
      weld a gain node on, that is one that can connect (line 205). */
  predicate SettingsAccepted(settings: Settings, params: set<string>, canWeld: bool, deferred: bool)
  {
    forall i :: 0 <= i < |settings| && (settings[i].0 in params || (settings[i].0 == "gain" && canWeld)) ==>
      ParamAccepts(settings[i].1, deferred)
  }

  /** On a kind with no output, "gain" is a plain member (line 214), so any value is
      accepted for it, `false` included; on a node that can connect it is welded on
      (line 205) and must be a value an AudioParam takes. */
  lemma GainOnOutputless()
    ensures SettingsAccepted([("gain", Flag(false))], HostParams(AudioBuffer), HasOutput(AudioBuffer), false)
    ensures !SettingsAccepted([("gain", Flag(false))], HostParams(Oscillator), HasOutput(Oscillator), false)
  {
    var settings: Settings := [("gain", Flag(false))];
    assert settings[0].0 == "gain";
  }

  /** The settings loop (lines 126-130) on the state setValue changes: the first i own
      keys of the settings object, in order, each through setValue. Only a welded
      "gain" is ever added to the node's AudioParams, and only a node that could
      connect still can. */
  function SettingsState(id: nat, s0: SetState, settings: Settings, i: nat, deferred: bool, now: real): (r: SetState)
    requires i <= |settings|
    requires SettingsAccepted(settings, s0.params.Keys, s0.connect != NoConnect, deferred)
    ensures forall k :: k in r.params && k !in s0.params ==> k == "gain" && s0.connect != NoConnect
    ensures r.connect == NoConnect <==> s0.connect == NoConnect
    decreases i
  {
    if i == 0 then s0
    else
      var prev := SettingsState(id, s0, settings, i - 1, deferred, now);
      SetValueState(id, prev, settings[i - 1].0, settings[i - 1].1, deferred, now)
  }

  /** The settings loop (lines 126-130): each own key, in order, through setValue. */
  method ApplySettings(host: Host, comp: Composite?, node: Node, settings: Settings)
    requires comp != null ==> comp.Valid() && comp.host == host && !comp.sealed
    requires forall k :: k in node.params ==> node.params[k].node < host.nextId
    requires SettingsAccepted(settings, node.params.Keys, node.connect != NoConnect, comp != null)
    modifies host, node`params, node`members, node`start, node`connect, node`disconnect, comp
    ensures comp != null ==>
              && comp.Valid() && !comp.sealed && comp.Kept() && comp.tracked == old(comp.tracked)
              && old(comp.startQ) <= comp.startQ && comp.stopQ == old(comp.stopQ)
    ensures host.currentTime == old(host.currentTime)
    ensures StateOf(host, node) ==
              SettingsState(node.id, old(StateOf(host, node)), settings, |settings|, comp != null, host.currentTime)
    ensures old(host.calls) <= host.calls && host.nextId >= old(host.nextId)
    ensures forall k :: k in node.params ==> node.params[k].node < host.nextId
    ensures old(node.start) != NoStart ==> node.start != NoStart
    ensures old(node.connect) != NoConnect ==> node.connect != NoConnect
    ensures ParamsDistinct(old(node.params)) ==> ParamsRead(host.values, old(node.params), settings, |settings|)
    ensures MembersRead(node.members, old(node.params), settings, |settings|)
    ensures PlainOnly(settings, old(node.params).Keys) ==> host.values == old(host.values)
    ensures NoGainKey(settings) ==> node.connect == old(node.connect)
    ensures KeepsOthers(host.values, old(host.values), old(node.params), old(host.nextId))
    ensures ParamsDistinct(old(node.params)) ==>
              UnnamedKept(host.values, old(host.values), old(node.params), settings, |settings|)
    ensures "gain" in old(node.params) ==> node.params == old(node.params)
  {
    ghost var s0 := StateOf(host, node);
    RunSettings(host, comp, node, settings);
    ghost var r := StateOf(host, node);
    SettingsRead(node.id, s0, settings, |settings|, comp != null, host.currentTime);
    if ParamsDistinct(s0.params) {
      SettingsKeepUnnamed(node.id, s0, settings, |settings|, comp != null, host.currentTime);
    }
    assert SettingsLeave(s0, r, settings, |settings|);
    if "gain" in s0.params {
      assert r.params.Keys == s0.params.Keys;
    }
  }

  /** The loop itself: each setting through setValue, in order. */
  method RunSettings(host: Host, comp: Composite?, node: Node, settings: Settings)
    requires comp != null ==> comp.Valid() && comp.host == host && !comp.sealed
    requires SettingsAccepted(settings, node.params.Keys, node.connect != NoConnect, comp != null)
    modifies host, node`params, node`members, node`start, node`connect, node`disconnect, comp
    ensures comp != null ==>
              && comp.Valid() && !comp.sealed && comp.Kept() && comp.tracked == old(comp.tracked)
              && old(comp.startQ) <= comp.startQ && comp.stopQ == old(comp.stopQ)
    ensures host.currentTime == old(host.currentTime)
    ensures StateOf(host, node) ==
              SettingsState(node.id, old(StateOf(host, node)), settings, |settings|, comp != null, host.currentTime)
  {
    ghost var s0 := StateOf(host, node);
    var i := 0;
    while i < |settings|
      invariant 0 <= i <= |settings|
      invariant comp != null ==>
                  && comp.Valid() && !comp.sealed && comp.Kept() && comp.tracked == old(comp.tracked)
                  && old(comp.startQ) <= comp.startQ && comp.stopQ == old(comp.stopQ)
      invariant host.currentTime == old(host.currentTime)
      invariant StateOf(host, node) == SettingsState(node.id, s0, settings, i, comp != null, host.currentTime)
    {
      var _ := SetValue(host, comp, node, settings[i].0, settings[i].1);
      i := i + 1;
    }
  }


  /** The node's AudioParams: those it had, and "gain" once that key has been set. */
  ghost predicate ParamsGrown(params: map<string, ParamRef>, params0: map<string, ParamRef>, next0: nat, settings: Settings, i: nat)
    requires i <= |settings|
  {
    && (forall k :: k in params0 ==> k in params && params[k] == params0[k])
    && (forall k :: k in params && k !in params0 ==> k == "gain" && params[k].node >= next0 && k in Keys(settings[..i]))
  }

  /** The first i settings that give an AudioParam a direct value are its value. */
  ghost predicate ParamsRead(values: map<ParamRef, real>, params0: map<string, ParamRef>, settings: Settings, i: nat)
    requires i <= |settings|
  {
    forall j :: 0 <= j < i && settings[j].0 in params0 && DirectValue(settings[j].1).Some? ==>
      params0[settings[j].0] in values && values[params0[settings[j].0]] == DirectValue(settings[j].1).value
  }

  /** The first i settings that are plain members hold their values. */
  ghost predicate MembersRead(members: map<string, SettingValue>, params0: map<string, ParamRef>, settings: Settings, i: nat)
    requires i <= |settings|
  {
    forall j :: 0 <= j < i && settings[j].0 !in params0 && settings[j].0 != "gain" ==>
      settings[j].0 in members && members[settings[j].0] == settings[j].1
  }

  /** Every parameter value other than those of the node's own AudioParams and of
      objects made since is as it was. */
  ghost predicate KeepsOthers(values: map<ParamRef, real>, values0: map<ParamRef, real>,
                              params0: map<string, ParamRef>, next0: nat)
  {
    forall p :: p in values0 && p.node < next0 && p !in params0.Values ==> p in values && values[p] == values0[p]
  }

  /** No setting is named "gain", so none welds a gain node on. */
  predicate NoGainKey(settings: Settings)
  {
    forall j :: 0 <= j < |settings| ==> settings[j].0 != "gain"
  }

  /** No setting names an AudioParam or "gain". */
  predicate PlainOnly(settings: Settings, params: set<string>)
  {
    forall j :: 0 <= j < |settings| ==> settings[j].0 !in params && settings[j].0 != "gain"
  }

  /** A key of a settings object is not among the keys before it. */
  lemma KeyOnce(settings: Settings, i: nat)
    requires i < |settings|
    ensures settings[i].0 !in Keys(settings[..i])
    ensures Keys(settings[..i + 1]) == Keys(settings[..i]) + {settings[i].0}
  {
    assert forall j :: 0 <= j < i ==> settings[j].0 != settings[i].0;
    assert settings[..i + 1] == settings[..i] + [settings[i]];
  }

  /** What the settings loop leaves after its first i settings: each direct value
      given for one of the node's AudioParams is that parameter's value, each plain
      key is a member holding its value, the only AudioParam added is a welded
      "gain", and no other object's parameter value changes. */
  ghost predicate SettingsLeave(s0: SetState, r: SetState, settings: Settings, i: nat)
    requires i <= |settings|
  {
    LeaveValues(s0, r, settings, i) && LeaveShape(s0, r, settings, i)
  }

  /** The AudioParam values part of SettingsLeave. */
  ghost predicate LeaveValues(s0: SetState, r: SetState, settings: Settings, i: nat)
    requires i <= |settings|
  {
    && (ParamsDistinct(s0.params) ==> ParamsRead(r.values, s0.params, settings, i))
    && (PlainOnly(settings, s0.params.Keys) ==> r.values == s0.values)
    && KeepsOthers(r.values, s0.values, s0.params, s0.next)
  }

  /** The rest of SettingsLeave: the node's AudioParams, members and functions, and
      the log. */
  ghost predicate LeaveShape(s0: SetState, r: SetState, settings: Settings, i: nat)
    requires i <= |settings|
  {
    && ParamsGrown(r.params, s0.params, s0.next, settings, i)
    && MembersRead(r.members, s0.params, settings, i)
    && (NoGainKey(settings) ==> r.connect == s0.connect)
    && (s0.start != NoStart ==> r.start != NoStart)
    && s0.calls <= r.calls && s0.next <= r.next
    && (forall k :: k in r.params ==> r.params[k].node < r.next)
  }

  /** One more setting, the n-th, keeps SettingsLeave. */
  lemma SettingsLeaveStep(id: nat, s0: SetState, prev: SetState, next: SetState, settings: Settings, n: nat,
                          deferred: bool, now: real)
    requires 0 < n <= |settings|
    requires forall k :: k in s0.params ==> s0.params[k].node < s0.next
    requires settings[n - 1].0 in prev.params || Welds(prev, settings[n - 1].0) ==> ParamAccepts(settings[n - 1].1, deferred)
    requires next == SetValueState(id, prev, settings[n - 1].0, settings[n - 1].1, deferred, now)
    requires SettingsLeave(s0, prev, settings, n - 1)
    ensures SettingsLeave(s0, next, settings, n)
  {
    LeaveValuesStep(id, s0, prev, next, settings, n, deferred, now);
    LeaveShapeStep(id, s0, prev, next, settings, n, deferred, now);
  }

  lemma LeaveValuesStep(id: nat, s0: SetState, prev: SetState, next: SetState, settings: Settings, n: nat,
                        deferred: bool, now: real)
    requires 0 < n <= |settings|
    requires forall k :: k in s0.params ==> s0.params[k].node < s0.next
    requires settings[n - 1].0 in prev.params || Welds(prev, settings[n - 1].0) ==> ParamAccepts(settings[n - 1].1, deferred)
    requires next == SetValueState(id, prev, settings[n - 1].0, settings[n - 1].1, deferred, now)
    requires LeaveValues(s0, prev, settings, n - 1) && LeaveShape(s0, prev, settings, n - 1)
    ensures LeaveValues(s0, next, settings, n)
  {
    var i := n - 1;
    var (m, v) := settings[i];
    var welds := Welds(prev, m);
    assert next.values == ValuesAfter(prev.values, prev.params, m, welds, prev.next, v, deferred);
    SettingValueStep(prev.values, prev.params, s0.params, s0.next, prev.next, settings, i, welds, deferred, s0.values);
  }

  lemma LeaveShapeStep(id: nat, s0: SetState, prev: SetState, next: SetState, settings: Settings, n: nat,
                       deferred: bool, now: real)
    requires 0 < n <= |settings|
    requires settings[n - 1].0 in prev.params || Welds(prev, settings[n - 1].0) ==> ParamAccepts(settings[n - 1].1, deferred)
    requires next == SetValueState(id, prev, settings[n - 1].0, settings[n - 1].1, deferred, now)
    requires LeaveShape(s0, prev, settings, n - 1)
    ensures LeaveShape(s0, next, settings, n)
  {
    var i := n - 1;
    var (m, v) := settings[i];
    var welds := Welds(prev, m);
    assert next.params == ParamsAfter(prev.params, welds, prev.next);
    assert next.members == MembersAfter(prev.members, prev.params, m, welds, v);
    assert next.next == if welds then prev.next + 1 else prev.next;
    assert prev.calls <= next.calls;
    SettingStep(prev.params, s0.params, s0.next, prev.next, settings, i, welds);
    SettingMemberStep(prev.members, prev.params, s0.params, s0.next, settings, i, welds);
  }

  /** Before any setting, SettingsLeave holds of the first state. */
  lemma SettingsLeaveBase(s0: SetState, settings: Settings)
    requires forall k :: k in s0.params ==> s0.params[k].node < s0.next
    ensures SettingsLeave(s0, s0, settings, 0)
  {
    assert settings[..0] == [];
  }

  /** Induction over the settings loop: a property of the first state that every
      setting keeps holds after the first i settings. */
  lemma {:induction false} SettingsInduction(id: nat, s0: SetState, settings: Settings, i: nat, deferred: bool,
                                             now: real, P: (SetState, nat) -> bool)
    requires i <= |settings|
    requires SettingsAccepted(settings, s0.params.Keys, s0.connect != NoConnect, deferred)
    requires P(s0, 0)
    requires forall prev: SetState, j: nat ::
               j < |settings| && P(prev, j) &&
               (settings[j].0 in prev.params || Welds(prev, settings[j].0) ==> ParamAccepts(settings[j].1, deferred)) ==>
               P(SetValueState(id, prev, settings[j].0, settings[j].1, deferred, now), j + 1)
    ensures P(SettingsState(id, s0, settings, i, deferred, now), i)
    decreases i
  {
    if i > 0 {
      SettingsInduction(id, s0, settings, i - 1, deferred, now, P);
    }
  }

  /** The settings loop leaves what SettingsLeave says. */
  lemma {:induction false} SettingsRead(id: nat, s0: SetState, settings: Settings, i: nat, deferred: bool, now: real)
    requires i <= |settings|
    requires SettingsAccepted(settings, s0.params.Keys, s0.connect != NoConnect, deferred)
    requires forall k :: k in s0.params ==> s0.params[k].node < s0.next
    ensures SettingsLeave(s0, SettingsState(id, s0, settings, i, deferred, now), settings, i)
    decreases i
  {
    if i == 0 {
      SettingsLeaveBase(s0, settings);
    } else {
      SettingsRead(id, s0, settings, i - 1, deferred, now);
      var prev := SettingsState(id, s0, settings, i - 1, deferred, now);
      SettingsLeaveStep(id, s0, prev, SettingsState(id, s0, settings, i, deferred, now), settings, i, deferred, now);
    }
  }

  /** Each of the node's AudioParams that none of the first i settings names keeps
      the value it had. */
  ghost predicate UnnamedKept(values: map<ParamRef, real>, values0: map<ParamRef, real>,
                              params0: map<string, ParamRef>, settings: Settings, i: nat)
    requires i <= |settings|
  {
    forall k :: k in params0 && k !in Keys(settings[..i]) && params0[k] in values0 ==>
      params0[k] in values && values[params0[k]] == values0[params0[k]]
  }

  /** One more setting writes at most the parameter it names or a new welded gain. */
  lemma UnnamedStep(values: map<ParamRef, real>, params: map<string, ParamRef>, params0: map<string, ParamRef>,
                    next0: nat, next: nat, settings: Settings, i: nat, welds: bool, deferred: bool,
                    values0: map<ParamRef, real>)
    requires i < |settings| && next0 <= next
    requires ParamsDistinct(params0)
    requires forall k :: k in params0 ==> params0[k].node < next0
    requires ParamsGrown(params, params0, next0, settings, i)
    requires welds ==> settings[i].0 == "gain" && "gain" !in params
    requires settings[i].0 in params || welds ==> ParamAccepts(settings[i].1, deferred)
    requires UnnamedKept(values, values0, params0, settings, i)
    ensures UnnamedKept(ValuesAfter(values, params, settings[i].0, welds, next, settings[i].1, deferred),
                        values0, params0, settings, i + 1)
  {
    KeyOnce(settings, i);
    SettingStep(params, params0, next0, next, settings, i, welds);
  }

  /** The settings loop leaves every AudioParam it is not given a value for as it was. */
  lemma SettingsKeepUnnamed(id: nat, s0: SetState, settings: Settings, i: nat, deferred: bool, now: real)
    requires i <= |settings|
    requires SettingsAccepted(settings, s0.params.Keys, s0.connect != NoConnect, deferred)
    requires forall k :: k in s0.params ==> s0.params[k].node < s0.next
    requires ParamsDistinct(s0.params)
    ensures UnnamedKept(SettingsState(id, s0, settings, i, deferred, now).values, s0.values, s0.params, settings, i)
  {
    var P := (r: SetState, j: nat) => Grown(s0, r, settings, j) && UnnamedKept(r.values, s0.values, s0.params, settings, j);
    forall prev: SetState, j: nat | j < |settings| && P(prev, j) &&
             (settings[j].0 in prev.params || Welds(prev, settings[j].0) ==> ParamAccepts(settings[j].1, deferred))
      ensures P(SetValueState(id, prev, settings[j].0, settings[j].1, deferred, now), j + 1)
    {
      UnnamedStateStep(id, s0, prev, settings, j, deferred, now);
      GrownStep(id, s0, prev, settings, j, deferred, now);
    }
    assert Grown(s0, s0, settings, 0);
    assert settings[..0] == [];
    SettingsInduction(id, s0, settings, i, deferred, now, P);
  }

  /** One more setting keeps UnnamedKept. */
  lemma UnnamedStateStep(id: nat, s0: SetState, prev: SetState, settings: Settings, i: nat, deferred: bool, now: real)
    requires i < |settings|
    requires forall k :: k in s0.params ==> s0.params[k].node < s0.next
    requires ParamsDistinct(s0.params)
    requires settings[i].0 in prev.params || Welds(prev, settings[i].0) ==> ParamAccepts(settings[i].1, deferred)
    requires Grown(s0, prev, settings, i)
    requires UnnamedKept(prev.values, s0.values, s0.params, settings, i)
    ensures UnnamedKept(SetValueState(id, prev, settings[i].0, settings[i].1, deferred, now).values,
                        s0.values, s0.params, settings, i + 1)
  {
    var (m, v) := settings[i];
    var welds := Welds(prev, m);
    assert SetValueState(id, prev, m, v, deferred, now).values ==
           ValuesAfter(prev.values, prev.params, m, welds, prev.next, v, deferred);
    UnnamedStep(prev.values, prev.params, s0.params, s0.next, prev.next, settings, i, welds, deferred, s0.values);
  }

  /** The node's AudioParams after one more setting. */
  lemma SettingStep(params: map<string, ParamRef>, params0: map<string, ParamRef>, next0: nat, next: nat,
                    settings: Settings, i: nat, welds: bool)
    requires i < |settings| && next0 <= next
    requires ParamsGrown(params, params0, next0, settings, i)
    requires welds ==> settings[i].0 == "gain" && "gain" !in params
    ensures settings[i].0 in params ==> settings[i].0 in params0 && params[settings[i].0] == params0[settings[i].0]
    ensures ParamsGrown(ParamsAfter(params, welds, next), params0, next0, settings, i + 1)
  {
    KeyOnce(settings, i);
  }

  /** Parameter values after one more setting: the earlier readings stand. */
  lemma SettingValueStep(values: map<ParamRef, real>, params: map<string, ParamRef>, params0: map<string, ParamRef>,
                         next0: nat, next: nat, settings: Settings, i: nat, welds: bool, deferred: bool,
                         values0: map<ParamRef, real>)
    requires i < |settings| && next0 <= next
    requires forall k :: k in params0 ==> params0[k].node < next0
    requires ParamsGrown(params, params0, next0, settings, i)
    requires welds ==> settings[i].0 == "gain" && "gain" !in params
    requires settings[i].0 in params || welds ==> ParamAccepts(settings[i].1, deferred)
    requires ParamsDistinct(params0) ==> ParamsRead(values, params0, settings, i)
    requires PlainOnly(settings, params0.Keys) ==> values == values0
    requires KeepsOthers(values, values0, params0, next0)
    ensures var after := ValuesAfter(values, params, settings[i].0, welds, next, settings[i].1, deferred);
            && (ParamsDistinct(params0) ==> ParamsRead(after, params0, settings, i + 1))
            && (PlainOnly(settings, params0.Keys) ==> after == values0)
            && KeepsOthers(after, values0, params0, next0)
  {
    KeyOnce(settings, i);
  }

  /** Plain members after one more setting: the earlier readings stand. */
  lemma SettingMemberStep(members: map<string, SettingValue>, params: map<string, ParamRef>, params0: map<string, ParamRef>,
                          next0: nat, settings: Settings, i: nat, welds: bool)
    requires i < |settings|
    requires ParamsGrown(params, params0, next0, settings, i)
    requires welds ==> settings[i].0 == "gain" && "gain" !in params
    requires MembersRead(members, params0, settings, i)
    ensures MembersRead(MembersAfter(members, params, settings[i].0, welds, settings[i].1), params0, settings, i + 1)
  {
    KeyOnce(settings, i);
  }

  /** The node's AudioParams after the first j settings, as ParamsGrown says, and the
      next identity has not gone back. */
  ghost predicate Grown(s0: SetState, r: SetState, settings: Settings, j: nat)
  {
    j <= |settings| && ParamsGrown(r.params, s0.params, s0.next, settings, j) && s0.next <= r.next
  }

  /** One more setting keeps Grown. */
  lemma GrownStep(id: nat, s0: SetState, prev: SetState, settings: Settings, i: nat, deferred: bool, now: real)
    requires i < |settings|
    requires settings[i].0 in prev.params || Welds(prev, settings[i].0) ==> ParamAccepts(settings[i].1, deferred)
    requires Grown(s0, prev, settings, i)
    ensures settings[i].0 in prev.params ==>
              settings[i].0 in s0.params && prev.params[settings[i].0] == s0.params[settings[i].0]
    ensures Grown(s0, SetValueState(id, prev, settings[i].0, settings[i].1, deferred, now), settings, i + 1)
  {
    SettingStep(prev.params, s0.params, s0.next, prev.next, settings, i, Welds(prev, settings[i].0));
  }

  /** The envelope a setting `e` leaves for start inside a composite (lines 193-200):
      an envelope given for one of the node's AudioParams, applied from `when`. */
  function PendingPiece(params0: map<string, ParamRef>, e: Entry, when: real): seq<Call>
  {
    if e.0 in params0 && DirectValue(e.1).None? && EnvelopeOf(e.1).Some?
    then Tagged(params0[e.0], EnvelopeOps(when, EnvelopeOf(e.1).value)) else []
  }

  /** The envelopes that settings made inside a composite leave for start, most
      recent first: each start wrapper applies its envelope before the start it
      replaced. */
  function PendingEnvelopes(params0: map<string, ParamRef>, settings: Settings, i: nat, when: real): seq<Call>
    requires i <= |settings|
  {
    if i == 0 then []
    else PendingPiece(params0, settings[i - 1], when) + PendingEnvelopes(params0, settings, i - 1, when)
  }

  /** After the first j settings inside a composite, start applies their envelopes
      and then does what it did before. */
  ghost predicate StartsPending(id: nat, s0: SetState, settings: Settings, hook: bool, when: real, r: SetState, j: nat)
  {
    && j <= |settings|
    && StartCalls(id, r.start, hook, when) == PendingEnvelopes(s0.params, settings, j, when) + StartCalls(id, s0.start, hook, when)
  }

  /** Inside a composite, one more setting puts its envelope in front of start. */
  lemma DeferredStep(id: nat, s0: SetState, prev: SetState, settings: Settings, i: nat, now: real, hook: bool, when: real)
    requires i < |settings|
    requires forall k :: k in s0.params ==> s0.params[k].node < s0.next
    requires settings[i].0 in prev.params || Welds(prev, settings[i].0) ==> ParamAccepts(settings[i].1, true)
    requires Grown(s0, prev, settings, i)
    requires StartsPending(id, s0, settings, hook, when, prev, i)
    ensures StartsPending(id, s0, settings, hook, when, SetValueState(id, prev, settings[i].0, settings[i].1, true, now), i + 1)
  {
    GrownStep(id, s0, prev, settings, i, true, now);
    var e := settings[i];
    var r := SetValueState(id, prev, e.0, e.1, true, now);
    var piece := PendingPiece(s0.params, e, when);
    var before := StartCalls(id, s0.start, hook, when);
    SetValueOutcomes(id, prev, e.0, e.1, true, now);
    if e.0 in prev.params {
      SetParamOutcomes(prev.values, prev.start, prev.params[e.0], e.1, true, now, id, hook, when);
      if DirectValue(e.1).Some? {
        assert piece == [];
      }
    } else {
      assert r.start == prev.start && piece == [];
    }
    assert StartCalls(id, r.start, hook, when) == piece + StartCalls(id, prev.start, hook, when);
    AppendAssoc(piece, PendingEnvelopes(s0.params, settings, i, when), before);
  }

  /** Inside a composite, starting the node after its settings applies every envelope
      among them at the time start is given, the latest setting's first, and then
      does what its start did before. */
  lemma DeferredEnvelopes(id: nat, s0: SetState, settings: Settings, i: nat, now: real, hook: bool, when: real)
    requires i <= |settings|
    requires SettingsAccepted(settings, s0.params.Keys, s0.connect != NoConnect, true)
    requires forall k :: k in s0.params ==> s0.params[k].node < s0.next
    ensures StartCalls(id, SettingsState(id, s0, settings, i, true, now).start, hook, when)
            == PendingEnvelopes(s0.params, settings, i, when) + StartCalls(id, s0.start, hook, when)
  {
    var P := (r: SetState, j: nat) => Grown(s0, r, settings, j) && StartsPending(id, s0, settings, hook, when, r, j);
    forall prev: SetState, j: nat | j < |settings| && P(prev, j) &&
             (settings[j].0 in prev.params || Welds(prev, settings[j].0) ==> ParamAccepts(settings[j].1, true))
      ensures P(SetValueState(id, prev, settings[j].0, settings[j].1, true, now), j + 1)
    {
      DeferredStep(id, s0, prev, settings, j, now, hook, when);
      GrownStep(id, s0, prev, settings, j, true, now);
    }
    assert Grown(s0, s0, settings, 0);
    assert [] + StartCalls(id, s0.start, hook, when) == StartCalls(id, s0.start, hook, when);
    SettingsInduction(id, s0, settings, i, true, now, P);
  }

  /** The automation a setting `e` outside a composite schedules at once on parameter q
      (line 203). */
  function NowPiece(params0: map<string, ParamRef>, e: Entry, q: ParamRef, deferred: bool, now: real): seq<Op>
  {
    if !deferred && e.0 in params0 && params0[e.0] == q && DirectValue(e.1).None? && EnvelopeOf(e.1).Some?
    then EnvelopeOps(now, EnvelopeOf(e.1).value) else []
  }

  /** The automation the settings outside a composite schedule at once on parameter q,
      in settings order. */
  function ScheduledNow(params0: map<string, ParamRef>, settings: Settings, i: nat, q: ParamRef,
                        deferred: bool, now: real): seq<Op>
    requires i <= |settings|
  {
    if i == 0 then []
    else ScheduledNow(params0, settings, i - 1, q, deferred, now) + NowPiece(params0, settings[i - 1], q, deferred, now)
  }

  /** One more setting adds its own automation to q's schedule and nothing else. */
  lemma ScheduleStep(id: nat, s0: SetState, prev: SetState, settings: Settings, i: nat, deferred: bool, now: real,
                     q: ParamRef)
    requires i < |settings|
    requires settings[i].0 in prev.params || Welds(prev, settings[i].0) ==> ParamAccepts(settings[i].1, deferred)
    requires Grown(s0, prev, settings, i)
    requires q.node < s0.next
    ensures var r := SetValueState(id, prev, settings[i].0, settings[i].1, deferred, now);
            && ScheduleOf(r.calls, q) == ScheduleOf(prev.calls, q) + NowPiece(s0.params, settings[i], q, deferred, now)
            && (!deferred ==> r.start == prev.start)
  {
    var (k, v) := settings[i];
    GrownStep(id, s0, prev, settings, i, deferred, now);
    var r := SetValueState(id, prev, k, v, deferred, now);
    var before := ScheduleOf(prev.calls, q);
    if k in prev.params {
      var p := prev.params[k];
      if DirectValue(v).None? && !deferred {
        ScheduleOfTagged(prev.calls, p, EnvelopeOps(now, EnvelopeOf(v).value), q);
      } else {
        assert r.calls == prev.calls;
        assert NowPiece(s0.params, settings[i], q, deferred, now) == [];
        assert before + [] == before;
      }
    } else if Welds(prev, k) {
      var g := prev.next;
      var a := prev.calls + [Created(g, Gain)];
      var b := a + ParamCallsAfter(ParamRef(g, "gain"), v, deferred, now);
      var cc := ConnectCalls(id, prev.connect, ToNode(g));
      assert r.calls == b + cc;
      ScheduleOfOther(prev.calls, [Created(g, Gain)], q);
      assert ScheduleOf(a, q) == before;
      assert ParamRef(g, "gain") != q;
      if DirectValue(v).None? && !deferred {
        ScheduleOfTagged(a, ParamRef(g, "gain"), EnvelopeOps(now, EnvelopeOf(v).value), q);
        assert ScheduleOf(a, q) + [] == before;
      } else {
        assert ParamCallsAfter(ParamRef(g, "gain"), v, deferred, now) == [];
        assert b == a;
      }
      assert ScheduleOf(b, q) == before;
      ScheduleOfOther(b, cc, q);
      assert NowPiece(s0.params, settings[i], q, deferred, now) == [];
      assert before + [] == before;
    } else {
      assert r.calls == prev.calls;
      assert NowPiece(s0.params, settings[i], q, deferred, now) == [];
      assert before + [] == before;
    }
  }

  /** After the first j settings, q's schedule is what it was followed by what they
      schedule on it at once, and outside a composite start is as it was. */
  ghost predicate SchedulesNow(s0: SetState, settings: Settings, deferred: bool, now: real, q: ParamRef, r: SetState, j: nat)
  {
    && j <= |settings|
    && ScheduleOf(r.calls, q) == ScheduleOf(s0.calls, q) + ScheduledNow(s0.params, settings, j, q, deferred, now)
    && (!deferred ==> r.start == s0.start)
  }

  /** One more setting keeps SchedulesNow. */
  lemma SchedulesNowStep(id: nat, s0: SetState, prev: SetState, settings: Settings, i: nat, deferred: bool, now: real,
                         q: ParamRef)
    requires i < |settings|
    requires settings[i].0 in prev.params || Welds(prev, settings[i].0) ==> ParamAccepts(settings[i].1, deferred)
    requires q.node < s0.next
    requires Grown(s0, prev, settings, i)
    requires SchedulesNow(s0, settings, deferred, now, q, prev, i)
    ensures SchedulesNow(s0, settings, deferred, now, q, SetValueState(id, prev, settings[i].0, settings[i].1, deferred, now), i + 1)
  {
    ScheduleStep(id, s0, prev, settings, i, deferred, now, q);
    AppendAssoc(ScheduleOf(s0.calls, q), ScheduledNow(s0.params, settings, i, q, deferred, now),
                NowPiece(s0.params, settings[i], q, deferred, now));
  }


  /** Outside a composite, each parameter of the node receives exactly the envelopes
      its settings give it, at once, and nothing else; inside one, settings schedule
      nothing. No other parameter that existed before receives any automation, and
      outside a composite the node's start is left alone. */
  lemma SettingsSchedule(id: nat, s0: SetState, settings: Settings, i: nat, deferred: bool, now: real, q: ParamRef)
    requires i <= |settings|
    requires SettingsAccepted(settings, s0.params.Keys, s0.connect != NoConnect, deferred)
    requires forall k :: k in s0.params ==> s0.params[k].node < s0.next
    requires q.node < s0.next
    ensures var r := SettingsState(id, s0, settings, i, deferred, now);
            && ScheduleOf(r.calls, q) == ScheduleOf(s0.calls, q) + ScheduledNow(s0.params, settings, i, q, deferred, now)
            && (!deferred ==> r.start == s0.start)
  {
    var P := (r: SetState, j: nat) => Grown(s0, r, settings, j) && SchedulesNow(s0, settings, deferred, now, q, r, j);
    forall prev: SetState, j: nat | j < |settings| && P(prev, j) &&
             (settings[j].0 in prev.params || Welds(prev, settings[j].0) ==> ParamAccepts(settings[j].1, deferred))
      ensures P(SetValueState(id, prev, settings[j].0, settings[j].1, deferred, now), j + 1)
    {
      SchedulesNowStep(id, s0, prev, settings, j, deferred, now, q);
      GrownStep(id, s0, prev, settings, j, deferred, now);
    }
    assert Grown(s0, s0, settings, 0);
    assert ScheduleOf(s0.calls, q) + [] == ScheduleOf(s0.calls, q);
    SettingsInduction(id, s0, settings, i, deferred, now, P);
  }

  /** The weld the first i settings have made, if any (lines 205-211): once "gain" has
      been set, the node's gain is a new node's gain showing the value given, and
      connect and disconnect go to the new node; until then none of these has changed. */
  ghost predicate GainState(s0: SetState, r: SetState, settings: Settings, i: nat)
    requires i <= |settings|
  {
    if "gain" in Keys(settings[..i]) then
      && "gain" in Keys(settings)
      && "gain" in r.params && s0.next <= r.params["gain"].node
      && r.connect == WeldedConnect(r.params["gain"].node)
      && r.disconnect == WeldedDisconnect(r.params["gain"].node)
      && "gain" !in r.members
      && var v := Get(settings, "gain").value;
         DirectValue(v).Some? ==> r.params["gain"] in r.values && r.values[r.params["gain"]] == DirectValue(v).value
    else
      "gain" !in r.params && "gain" !in r.members && r.connect == s0.connect && r.disconnect == s0.disconnect
  }

  /** One more setting keeps GainState. */
  lemma GainStep(id: nat, s0: SetState, prev: SetState, settings: Settings, i: nat, deferred: bool, now: real)
    requires i < |settings|
    requires "gain" !in s0.params && "gain" !in s0.members && s0.connect != NoConnect
    requires forall k :: k in s0.params ==> s0.params[k].node < s0.next
    requires settings[i].0 in prev.params || Welds(prev, settings[i].0) ==> ParamAccepts(settings[i].1, deferred)
    requires Grown(s0, prev, settings, i)
    requires GainState(s0, prev, settings, i)
    ensures GainState(s0, SetValueState(id, prev, settings[i].0, settings[i].1, deferred, now), settings, i + 1)
  {
    var k := settings[i].0;
    KeyOnce(settings, i);
    GrownStep(id, s0, prev, settings, i, deferred, now);
    if k == "gain" {
      IndexUnique(settings, "gain", i);
    } else if "gain" in Keys(settings[..i]) {
      if k in prev.params {
        assert prev.params[k] == s0.params[k] && prev.params[k] != prev.params["gain"];
      }
    }
  }

  /** "gain" on a connectable node without one welds a gain node on (lines 205-211),
      as GainState says. */
  lemma GainWelded(id: nat, s0: SetState, settings: Settings, i: nat, deferred: bool, now: real)
    requires i <= |settings|
    requires SettingsAccepted(settings, s0.params.Keys, s0.connect != NoConnect, deferred)
    requires forall k :: k in s0.params ==> s0.params[k].node < s0.next
    requires "gain" !in s0.params && "gain" !in s0.members && s0.connect != NoConnect
    ensures GainState(s0, SettingsState(id, s0, settings, i, deferred, now), settings, i)
  {
    var P := (r: SetState, j: nat) => Grown(s0, r, settings, j) && GainState(s0, r, settings, j);
    forall prev: SetState, j: nat | j < |settings| && P(prev, j) &&
             (settings[j].0 in prev.params || Welds(prev, settings[j].0) ==> ParamAccepts(settings[j].1, deferred))
      ensures P(SetValueState(id, prev, settings[j].0, settings[j].1, deferred, now), j + 1)
    {
      GainStep(id, s0, prev, settings, j, deferred, now);
      GrownStep(id, s0, prev, settings, j, deferred, now);
    }
    assert Grown(s0, s0, settings, 0);
    assert settings[..0] == [];
    SettingsInduction(id, s0, settings, i, deferred, now, P);
  }

  /** The state a new host object of `kind` starts in (line 123), the host's values
      and log being as given. */
  function FreshState(id: nat, kind: Kind, values: map<ParamRef, real>, calls: seq<Call>): SetState
  {
    SetState(map m | m in HostParams(kind) :: ParamRef(id, m), map[],
             if IsSource(kind) then HostStart else NoStart,
             if HasOutput(kind) then HostConnect else NoConnect,
             if HasOutput(kind) then HostDisconnect else NoDisconnect,
             values, calls + [Created(id, kind)], id + 1)
  }

  /** createObjectFromFactoryFunction (lines 115-133) on that state: the new object,
      with the settings, if any, applied in order. */
  function CreatedState(id: nat, kind: Kind, values: map<ParamRef, real>, calls: seq<Call>,
                        settings: Option<Settings>, deferred: bool, now: real): SetState
    requires settings.Some? ==> SettingsAccepted(settings.value, HostParams(kind), HasOutput(kind), deferred)
  {
    var s0 := FreshState(id, kind, values, calls);
    assert s0.params.Keys == HostParams(kind);
    if settings.Some? then SettingsState(id, s0, settings.value, |settings.value|, deferred, now) else s0
  }

  /** createObjectFromFactoryFunction (lines 115-133): the settings, when the last
      argument holds them, are split off; the factory makes the object; the settings
      are then applied to it, before any enhancement. */
  method CreateObject(host: Host, comp: Composite?, kind: Kind, args: seq<Arg>) returns (n: Node)
    requires kind != CompositeProxy
    requires comp != null ==> comp.Valid() && comp.host == host && !comp.sealed
    requires SplitArgs(args).1.Some? ==>
               SettingsAccepted(SplitArgs(args).1.value, HostParams(kind), HasOutput(kind), comp != null)
    modifies host, comp
    ensures fresh(n) && n.kind == kind && n.id == old(host.nextId)
    ensures comp != null ==>
              && comp.Valid() && !comp.sealed && comp.Kept() && comp.tracked == old(comp.tracked)
              && old(comp.startQ) <= comp.startQ && comp.stopQ == old(comp.stopQ)
    ensures host.currentTime == old(host.currentTime)
    ensures StateOf(host, n) == CreatedState(n.id, kind, old(host.values), old(host.calls), SplitArgs(args).1,
                                             comp != null, host.currentTime)
    ensures old(host.calls) + [Created(n.id, kind)] <= host.calls
    ensures !n.play && !n.onStart && !n.onStop && n.hasOnended == IsSource(kind)
    ensures n.stop == (if IsSource(kind) then HostStop else NoStop)
    ensures IsSource(kind) ==> n.start != NoStart
    ensures HasOutput(kind) ==> n.connect != NoConnect
    ensures n.id < host.nextId
    ensures var settings := SplitArgs(args).1;
            HasOutput(kind) && (settings.None? || NoGainKey(settings.value)) ==> n.connect == HostConnect
    ensures forall p :: p in old(host.values) && p.node < old(host.nextId) ==>
              p in host.values && host.values[p] == old(host.values)[p]
    ensures var settings := SplitArgs(args).1;
            settings.Some? ==> Applied(host, n, settings.value)
    ensures var settings := SplitArgs(args).1;
            settings.None? || PlainOnly(settings.value, HostParams(kind)) ==> host.values == old(host.values)
  {
    // the positional arguments go to the host factory, which the model does not follow
    var (_, settings) := SplitArgs(args);
    n := NewNode(host, kind);
    assert StateOf(host, n) == FreshState(n.id, kind, old(host.values), old(host.calls));
    if settings.Some? {
      ApplySettings(host, comp, n, settings.value);
    }
  }

  /** What applying `settings` to a new node of its kind leaves behind. */
  ghost predicate Applied(host: Host, n: Node, settings: Settings)
    reads host`values, n`members
  {
    && (forall i :: 0 <= i < |settings| && settings[i].0 in HostParams(n.kind) && DirectValue(settings[i].1).Some? ==>
          ParamRef(n.id, settings[i].0) in host.values && host.values[ParamRef(n.id, settings[i].0)] == DirectValue(settings[i].1).value)
    && (forall i :: 0 <= i < |settings| && settings[i].0 !in HostParams(n.kind) && settings[i].0 != "gain" ==>
          settings[i].0 in n.members && n.members[settings[i].0] == settings[i].1)
  }

  /** A reflected factory method of the proxy (lines 94-96): create the object with its
      settings applied, then enhance it. Its start is the fluent wrapper around
      whatever the settings left (an envelope wrapper inside a composite), and its
      connect the fluent wrapper around the host's or the welded gain's. */
  method CreateNode(host: Host, comp: Composite?, kind: Kind, args: seq<Arg>) returns (n: Node)
    requires kind != CompositeProxy
    requires comp != null ==> comp.Valid() && comp.host == host && !comp.sealed
    requires SplitArgs(args).1.Some? ==>
               SettingsAccepted(SplitArgs(args).1.value, HostParams(kind), HasOutput(kind), comp != null)
    modifies host, comp
    ensures fresh(n) && n.kind == kind && n.id == old(host.nextId)
    ensures comp != null ==>
              && comp.Valid() && !comp.sealed && comp.Kept()
              && old(comp.startQ) <= comp.startQ
              && (n.start != NoStart ==> |comp.startQ| > 0 && comp.startQ[|comp.startQ| - 1] == n)
              && comp.stopQ == old(comp.stopQ) + (if n.stop != NoStop then [n] else [])
              && comp.tracked == old(comp.tracked) + (if IsSource(kind) then [n] else [])
    ensures host.currentTime == old(host.currentTime)
    ensures var r := CreatedState(n.id, kind, old(host.values), old(host.calls), SplitArgs(args).1,
                                  comp != null, host.currentTime);
            && n.params == r.params && n.members == r.members && n.disconnect == r.disconnect
            && host.values == r.values && host.calls == r.calls && host.nextId == r.next
            && n.start == (if r.start != NoStart then FluentStart(r.start) else NoStart)
            && n.connect == (if r.connect != NoConnect then FluentConnect(r.connect) else NoConnect)
    ensures old(host.calls) + [Created(n.id, kind)] <= host.calls
    ensures n.hasOnended == IsSource(kind)
    ensures IsSource(kind) ==> n.start.FluentStart? && n.stop.FluentStop? && n.play
    ensures HasOutput(kind) ==> n.connect.FluentConnect?
    ensures n.id < host.nextId
    ensures var settings := SplitArgs(args).1;
            HasOutput(kind) && (settings.None? || NoGainKey(settings.value)) ==> n.connect == FluentConnect(HostConnect)
    ensures forall p :: p in old(host.values) && p.node < old(host.nextId) ==>
              p in host.values && host.values[p] == old(host.values)[p]
    ensures var settings := SplitArgs(args).1;
            settings.Some? ==> Applied(host, n, settings.value)
    ensures var settings := SplitArgs(args).1;
            settings.None? || PlainOnly(settings.value, HostParams(kind)) ==> host.values == old(host.values)
  {
    n := CreateObject(host, comp, kind, args);
    Enhance(comp, n);
  }

  // ---------------------------------------------------------------------------
  // The composite node

  /** The calls of starting every queued child at `t`, in queue order. */
  function StartAll(q: seq<Node>, t: real): seq<Call>
    reads q
    decreases |q|
  {
    if q == [] then []
    else StartAll(q[..|q| - 1], t) + StartCalls(q[|q| - 1].id, q[|q| - 1].start, q[|q| - 1].onStart, t)
  }

  function StopAll(q: seq<Node>, t: real): seq<Call>
    reads q
    decreases |q|
  {
    if q == [] then []
    else StopAll(q[..|q| - 1], t) + StopCalls(q[|q| - 1].id, q[|q| - 1].stop, q[|q| - 1].onStop, t)
  }

  lemma StartAllSnoc(q: seq<Node>, i: nat, t: real)
    requires i < |q|
    ensures StartAll(q[..i + 1], t) == StartAll(q[..i], t) + StartCalls(q[i].id, q[i].start, q[i].onStart, t)
  {
    assert q[..i + 1][..i] == q[..i];
  }

  lemma StopAllSnoc(q: seq<Node>, i: nat, t: real)
    requires i < |q|
    ensures StopAll(q[..i + 1], t) == StopAll(q[..i], t) + StopCalls(q[i].id, q[i].stop, q[i].onStop, t)
  {
    assert q[..i + 1][..i] == q[..i];
  }

  /** `startQueue.forEach(n => n.start(when))`. */
  method StartQueue(host: Host, q: seq<Node>, t: real)
    modifies host`calls
    ensures host.calls == old(host.calls) + StartAll(q, t)
  {
    var i := 0;
    while i < |q|
      invariant 0 <= i <= |q|
      invariant host.calls == old(host.calls) + StartAll(q[..i], t)
    {
      ghost var before := host.calls;
      RunStart(host, q[i].id, q[i].start, q[i].onStart, t);
      StartAllSnoc(q, i, t);
      AppendAssoc(old(host.calls), StartAll(q[..i], t), StartCalls(q[i].id, q[i].start, q[i].onStart, t));
      i := i + 1;
    }
    assert q[..i] == q;
  }

  /** `stopQueue.forEach(n => n.stop(when))`. */
  method StopQueue(host: Host, q: seq<Node>, t: real)
    modifies host`calls
    ensures host.calls == old(host.calls) + StopAll(q, t)
  {
    var i := 0;
    while i < |q|
      invariant 0 <= i <= |q|
      invariant host.calls == old(host.calls) + StopAll(q[..i], t)
    {
      RunStop(host, q[i].id, q[i].stop, q[i].onStop, t);
      StopAllSnoc(q, i, t);
      AppendAssoc(old(host.calls), StopAll(q[..i], t), StopCalls(q[i].id, q[i].stop, q[i].onStop, t));
      i := i + 1;
    }
    assert q[..i] == q;
  }

  /** Popping the recorded connections one by one: the last made is undone first. */
  function PopAll(src: nat, connections: seq<Endpoint>): seq<Call>
    decreases |connections|
  {
    if connections == [] then []
    else [Disconnected(src, connections[|connections| - 1])] + PopAll(src, connections[..|connections| - 1])
  }

  /** Popping every connection disconnects each of them exactly once, most recent
      first. */
  lemma {:induction false} PopAllReverses(src: nat, connections: seq<Endpoint>)
    ensures |PopAll(src, connections)| == |connections|
    ensures forall i :: 0 <= i < |connections| ==>
              PopAll(src, connections)[i] == Disconnected(src, connections[|connections| - 1 - i])
    decreases |connections|
  {
    if connections != [] {
      var init := connections[..|connections| - 1];
      PopAllReverses(src, init);
      var rest := PopAll(src, init);
      var all := PopAll(src, connections);
      assert all == [Disconnected(src, connections[|connections| - 1])] + rest;
      forall i | 0 <= i < |connections|
        ensures all[i] == Disconnected(src, connections[|connections| - 1 - i])
      {
        if i > 0 {
          assert all[i] == rest[i - 1];
          assert init[|init| - 1 - (i - 1)] == connections[|connections| - 1 - i];
        }
      }
    }
  }

  /** A start chain touches nothing but automation, its own host start and its own
      hook, all at the time it was given. */
  lemma {:induction false} StartCallsShape(id: nat, f: StartFn, hook: bool, when: real, c: Call)
    requires c in StartCalls(id, f, hook, when)
    ensures c.Scheduled? || ((c.Started? || c.StartHook?) && c.id == id && c.time == when)
    decreases f
  {
    match f
    case NoStart =>
    case HostStart =>
    case EnvelopeStart(p, steps, prev) =>
      var ops := EnvelopeOps(when, steps);
      if c in Tagged(p, ops) {
        var i :| 0 <= i < |ops| && Tagged(p, ops)[i] == c;
      } else {
        StartCallsShape(id, prev, hook, when, c);
      }
    case FluentStart(orig) =>
      if c in StartCalls(id, orig, hook, when) {
        StartCallsShape(id, orig, hook, when, c);
      }
  }

  /** A stop chain makes only its own host stop and its own hook, at the time given. */
  lemma {:induction false} StopCallsShape(id: nat, f: StopFn, hook: bool, when: real, c: Call)
    requires c in StopCalls(id, f, hook, when)
    ensures (c.Stopped? || c.StopHook?) && c.id == id && c.time == when
    decreases f
  {
    match f
    case NoStop =>
    case HostStop =>
    case FluentStop(orig) =>
      if c in StopCalls(id, orig, hook, when) {
        StopCallsShape(id, orig, hook, when, c);
      }
  }

  /** Starting a queue starts only queued nodes, all at the same time: a child in
      the start queue of no composite gets no start and no start hook. */
  lemma {:induction false} StartAllOnlyQueued(q: seq<Node>, t: real, c: Call)
    requires c in StartAll(q, t)
    ensures c.Scheduled? || ((c.Started? || c.StartHook?) && c.time == t && exists n :: n in q && n.id == c.id)
    decreases |q|
  {
    if q != [] {
      var last := q[|q| - 1];
      if c in StartAll(q[..|q| - 1], t) {
        StartAllOnlyQueued(q[..|q| - 1], t, c);
        if !c.Scheduled? {
          var n :| n in q[..|q| - 1] && n.id == c.id;
          assert n in q;
        }
      } else {
        StartCallsShape(last.id, last.start, last.onStart, t, c);
        assert last in q;
      }
    }
  }

  /** Stopping a queue stops only queued nodes, all at the same time. */
  lemma {:induction false} StopAllOnlyQueued(q: seq<Node>, t: real, c: Call)
    requires c in StopAll(q, t)
    ensures (c.Stopped? || c.StopHook?) && c.time == t && exists n :: n in q && n.id == c.id
    decreases |q|
  {
    if q != [] {
      var last := q[|q| - 1];
      if c in StopAll(q[..|q| - 1], t) {
        StopAllOnlyQueued(q[..|q| - 1], t, c);
        var n :| n in q[..|q| - 1] && n.id == c.id;
        assert n in q;
      } else {
        StopCallsShape(last.id, last.stop, last.onStop, t, c);
        assert last in q;
      }
    }
  }

  /** The context proxy of a composite, with the state its closure keeps. */
  class Composite {
    const host: Host
    /** The composite node itself: its AudioParam members and plain members. */
    const node: Node
    /** The gain node every outbound connection goes through. */
    const dest: Node
    var startQ: seq<Node>
    var stopQ: seq<Node>
    var connections: seq<Endpoint>
    var startTime: Option<real>
    var incompleteCount: int
    var oneNode: Node?
    /** The parameters createParam has made; each forwards `connect` to its gain node. */
    var madeParams: set<ParamRef>
    /** Children whose onended the composite replaced, in registration order. */
    ghost var tracked: seq<Node>
    /** How many of their onended events the host has delivered. */
    ghost var endedCount: nat
    /** How many times completion has run disconnectAll. */
    ghost var teardowns: nat
    /** Whether the initializer has finished. */
    ghost var sealed: bool

    ghost predicate Valid()
      reads this
    {
      && endedCount <= |tracked|
      && incompleteCount == |tracked| - endedCount
      && (!sealed ==> endedCount == 0)
      && teardowns == (if 0 < |tracked| == endedCount then 1 else 0)
    }

    /** Building children leaves the count of ended children, the start time, the
        recorded connections and the shared constant source alone. */
    twostate predicate Kept()
      reads this
    {
      && endedCount == old(endedCount) && startTime == old(startTime) && connections == old(connections)
      && oneNode == old(oneNode) && madeParams == old(madeParams)
    }

    ghost predicate QueuesUnchanged(startQ0: seq<Node>, stopQ0: seq<Node>)
      reads this
    {
      startQ == startQ0 && stopQ == stopQ0
    }

    /** postFn's effect on the queues and the count for node n. */
    ghost predicate Registered(n: Node, startQ0: seq<Node>, stopQ0: seq<Node>, tracked0: seq<Node>, ended0: nat)
      reads this, n
    {
      && startQ == startQ0 + (if n.start != NoStart then [n] else [])
      && stopQ == stopQ0 + (if n.stop != NoStop then [n] else [])
      && tracked == tracked0 + (if n.hasOnended then [n] else [])
      && endedCount == ended0
    }

    constructor (host: Host, node: Node, dest: Node)
      ensures this.host == host && this.node == node && this.dest == dest
      ensures startQ == [] && stopQ == [] && connections == [] && startTime == None
      ensures incompleteCount == 0 && oneNode == null && madeParams == {}
      ensures Valid() && !sealed && tracked == []
    {
      this.host := host;
      this.node := node;
      this.dest := dest;
      startQ := [];
      stopQ := [];
      connections := [];
      startTime := None;
      incompleteCount := 0;
      oneNode := null;
      madeParams := {};
      tracked := [];
      endedCount := 0;
      teardowns := 0;
      sealed := false;
    }

    /** postFn (lines 399-412): queue a child with start and one with stop; count a
        child with onended and take its onended over. */
    method Register(obj: Node)
      requires Valid() && !sealed
      modifies this
      ensures Valid() && !sealed
      ensures Registered(obj, old(startQ), old(stopQ), old(tracked), old(endedCount))
      ensures incompleteCount == old(incompleteCount) + (if obj.hasOnended then 1 else 0)
      ensures connections == old(connections) && startTime == old(startTime) && oneNode == old(oneNode)
      ensures madeParams == old(madeParams)
    {
      if obj.start != NoStart {
        startQ := startQ + [obj];
      }
      if obj.stop != NoStop {
        stopQ := stopQ + [obj];
      }
      if obj.hasOnended {
        incompleteCount := incompleteCount + 1;
        tracked := tracked + [obj];
      }
    }

    /** The host delivers onended for a tracked child (line 409): one less incomplete
        child, and disconnectAll when none is left. */
    method ChildEnded()
      requires Valid() && sealed && endedCount < |tracked|
      modifies this, host`calls
      ensures Valid() && sealed && tracked == old(tracked)
      ensures endedCount == old(endedCount) + 1
      ensures incompleteCount == old(incompleteCount) - 1 && incompleteCount >= 0
      ensures teardowns == old(teardowns) + (if incompleteCount == 0 then 1 else 0)
      ensures incompleteCount == 0 ==> connections == [] && host.calls == old(host.calls) + PopAll(dest.id, old(connections))
      ensures incompleteCount != 0 ==> connections == old(connections) && host.calls == old(host.calls)
      ensures startQ == old(startQ) && stopQ == old(stopQ) && startTime == old(startTime)
    {
      incompleteCount := incompleteCount - 1;
      endedCount := endedCount + 1;
      if incompleteCount == 0 {
        teardowns := teardowns + 1;
        DisconnectAll();
      }
    }

    /** disconnectAll (lines 385-388): pop every recorded connection and disconnect it. */
    method DisconnectAll()
      modifies this`connections, host`calls
      ensures connections == []
      ensures host.calls == old(host.calls) + PopAll(dest.id, old(connections))
    {
      while |connections| > 0
        invariant host.calls + PopAll(dest.id, connections) == old(host.calls) + PopAll(dest.id, old(connections))
        decreases |connections|
      {
        var last := connections[|connections| - 1];
        connections := connections[..|connections| - 1];
        host.Log(Disconnected(dest.id, last));
      }
    }

    /** connect (lines 376-380): connect the destination gain and record the pair. */
    method Connect(dst: Endpoint)
      modifies this`connections, host`calls
      ensures connections == old(connections) + [dst]
      ensures host.calls == old(host.calls) + [Connected(dest.id, dst)]
    {
      host.Log(Connected(dest.id, dst));
      connections := connections + [dst];
    }

    /** disconnect (lines 381-384): disconnect the destination gain; the record stays. */
    method Disconnect(dst: Endpoint)
      modifies host`calls
      ensures host.calls == old(host.calls) + [Disconnected(dest.id, dst)]
    {
      host.Log(Disconnected(dest.id, dst));
    }

    /** cancel (lines 391-396): only sound that has not started yet is cut off. */
    method Cancel()
      modifies this`connections, host`calls
      ensures if old(startTime).Some? && old(startTime).value > host.currentTime
              then connections == [] && host.calls == old(host.calls) + PopAll(dest.id, old(connections))
              else connections == old(connections) && host.calls == old(host.calls)
    {
      if startTime.Some? && startTime.value > host.currentTime {
        DisconnectAll();
      }
    }

    /** start (lines 415-419): record the start time, `when` or now, and start every
        queued child at it, in queue order. Once createComposite returns, the
        composite's start and stop are enhanceNode's wrappers (lines 150-162), which
        would also call an onStart or onStop a caller attached to the composite; the
        library attaches none, and those hooks are not modelled for a composite. */
    method Start(when: real)
      modifies this`startTime, host`calls
      ensures startTime == Some(if when != 0.0 then when else host.currentTime)
      ensures host.calls == old(host.calls) + StartAll(startQ, startTime.value)
    {
      var t := if when != 0.0 then when else host.currentTime;
      startTime := Some(t);
      StartQueue(host, startQ, t);
    }

    /** stop (lines 420-423): stop every queued child at `when`, or now. */
    method Stop(when: real)
      modifies host`calls
      ensures host.calls == old(host.calls) + StopAll(stopQ, if when != 0.0 then when else host.currentTime)
    {
      var t := if when != 0.0 then when else host.currentTime;
      StopQueue(host, stopQ, t);
    }

    /** The play enhanceNode gives the composite (lines 166-171): start at `when`, or
        now, and stop `duration` later, 0.25 seconds when it is 0. */
    method Play(duration: real, when: real)
      modifies this`startTime, host`calls
      ensures var t := if when != 0.0 then when else old(host.currentTime);
              var s := if t != 0.0 then t else old(host.currentTime);
              var e := t + (if duration != 0.0 then duration else 0.25);
              && startTime == Some(s)
              && host.calls == old(host.calls) + StartAll(startQ, s)
                               + StopAll(stopQ, if e != 0.0 then e else old(host.currentTime))
    {
      var t := if when != 0.0 then when else host.currentTime;
      Start(t);
      Stop(t + (if duration != 0.0 then duration else 0.25));
    }

    /** createSingleValueSource (lines 258-263) called on the composite: a looping
        buffer source over a two-sample buffer holding the value, made and registered
        like any other child. */
    method CreateSingleValueSource(value: real) returns (src: Node)
      requires Valid() && !sealed
      modifies this, host
      ensures Valid() && !sealed && Kept()
      ensures fresh(src) && src.kind == BufferSource && src.play && src.connect == FluentConnect(HostConnect)
      ensures host.values == old(host.values) && old(host.calls) <= host.calls && old(host.nextId) <= host.nextId
      ensures "loop" in src.members && src.members["loop"] == Flag(true)
      ensures "buffer" in src.members && src.members["buffer"] == Samples([value, value])
      ensures |startQ| > 0 && startQ[|startQ| - 1] == src
      ensures stopQ == old(stopQ) + [src] && tracked == old(tracked) + [src]
      ensures oneNode == old(oneNode) && madeParams == old(madeParams)
    {
      var buffer := host.Create(AudioBuffer);
      var settings: Settings := [("loop", Flag(true)), ("buffer", Samples([value, value]))];
      assert SplitArgs([AObject(settings)]).1 == Some(settings);
      src := CreateNode(host, this, BufferSource, [AObject(settings)]);
      assert Applied(host, src, settings);
      assert settings[0].0 == "loop" && settings[0].0 !in HostParams(src.kind) && settings[0].0 != "gain";
      assert settings[1].0 == "buffer" && settings[1].0 !in HostParams(src.kind) && settings[1].0 != "gain";
      assert PlainOnly(settings, HostParams(BufferSource));
      assert NoGainKey(settings);
    }

    /** createOne (lines 431-433): the shared constant source, made at most once. */
    method CreateOne() returns (one: Node)
      requires Valid() && !sealed
      modifies this, host
      ensures Valid() && !sealed && endedCount == old(endedCount) && startTime == old(startTime)
      ensures connections == old(connections) && oneNode == one
      ensures old(oneNode) != null ==>
                one == old(oneNode) && host.calls == old(host.calls)
                && startQ == old(startQ) && stopQ == old(stopQ) && tracked == old(tracked)
      ensures old(oneNode) == null ==>
                fresh(one) && one.kind == BufferSource && one.connect == FluentConnect(HostConnect)
                && "buffer" in one.members && one.members["buffer"] == Samples([1.0, 1.0])
      ensures madeParams == old(madeParams) && host.values == old(host.values)
      ensures old(host.calls) <= host.calls && old(host.nextId) <= host.nextId
    {
      if oneNode == null {
        oneNode := CreateSingleValueSource(1.0);
      }
      one := oneNode;
    }

    /** createParam (lines 436-449): a gain node whose gain starts at the default value,
        driven by the shared constant source so that its output is the parameter's
        value; the parameter is that gain. */
    /** Line 436: the gain node whose gain is the new parameter, made with the default
        as its setting. */
    method NewGain(defaultValue: real) returns (gn: Node)
      requires Valid() && !sealed
      modifies this, host
      ensures Valid() && !sealed && endedCount == old(endedCount) && startTime == old(startTime)
      ensures connections == old(connections) && madeParams == old(madeParams) && oneNode == old(oneNode)
      ensures gn.id == old(host.nextId) && gn.id < host.nextId && gn.kind == Gain
      ensures ParamRef(gn.id, "gain") in host.values && host.values[ParamRef(gn.id, "gain")] == defaultValue
      ensures forall q :: q in old(host.values) && q.node < old(host.nextId) ==>
                q in host.values && host.values[q] == old(host.values)[q]
      ensures old(host.calls) + [Created(gn.id, Gain)] <= host.calls
    {
      var settings: Settings := [("gain", Num(defaultValue))];
      assert SplitArgs([AObject(settings)]).1 == Some(settings);
      gn := CreateNode(host, this, Gain, [AObject(settings)]);
      assert settings[0].0 in HostParams(Gain);
    }

    method CreateParam(defaultValue: real) returns (p: ParamRef)
      requires Valid() && !sealed
      requires oneNode != null ==> oneNode.connect == FluentConnect(HostConnect)
      modifies this, host
      ensures Valid() && !sealed && endedCount == old(endedCount) && startTime == old(startTime)
      ensures connections == old(connections)
      ensures p.member == "gain" && p.node == old(host.nextId) && p.node < host.nextId
      ensures p in host.values && host.values[p] == defaultValue
      ensures madeParams == old(madeParams) + {p}
      ensures oneNode != null && (old(oneNode) != null ==> oneNode == old(oneNode))
      ensures oneNode.connect == FluentConnect(HostConnect)
      ensures forall q :: q in old(host.values) && q.node < old(host.nextId) ==>
                q in host.values && host.values[q] == old(host.values)[q]
      ensures old(host.calls) + [Created(p.node, Gain)] <= host.calls
      ensures host.calls[|host.calls| - 1] == Connected(oneNode.id, ToNode(p.node))
    {
      var gn := NewGain(defaultValue);
      var one := CreateOne();
      var _ := InvokeConnect(host, one, ToNode(gn.id));
      p := ParamRef(gn.id, "gain");
      madeParams := madeParams + {p};
    }

    /** The `connect` createParam gives its parameter (lines 443-446): the
        parameter's gain node connects to the destination; the parameter is returned. */
    method ConnectParam(p: ParamRef, dst: Endpoint) returns (r: ParamRef)
      requires p in madeParams
      modifies host`calls
      ensures host.calls == old(host.calls) + [Connected(p.node, dst)]
      ensures r == p
    {
      host.Log(Connected(p.node, dst));
      r := p;
    }

    /** An initializer exposes a parameter on the composite node (`this.frequency =
        param`), so that settings and callers reach it by that name. */
    method Expose(name: string, p: ParamRef)
      requires p.node < host.nextId
      modifies node`params
      ensures node.params == old(node.params)[name := p]
    {
      node.params := node.params[name := p];
    }

    /** The end of createComposite (line 458): the settings split off the factory's
        arguments are applied to the composite node by the enclosing context, which is
        not a composite, so an envelope there is scheduled at once; then no more
        children are made. */
    method Finish(settings: Option<Settings>)
      requires Valid() && !sealed
      requires forall k :: k in node.params ==> node.params[k].node < host.nextId
      requires settings.Some? ==> SettingsAccepted(settings.value, node.params.Keys, node.connect != NoConnect, false)
      modifies this, host, node`params, node`members, node`start, node`connect, node`disconnect
      ensures Valid() && sealed
      ensures startQ == old(startQ) && stopQ == old(stopQ) && tracked == old(tracked)
      ensures connections == old(connections) && startTime == old(startTime)
      ensures host.currentTime == old(host.currentTime) && old(host.calls) <= host.calls
      ensures "gain" in old(node.params) ==> node.params == old(node.params)
      ensures settings.None? ==> host.values == old(host.values)
      ensures settings.Some? && ParamsDistinct(old(node.params)) ==>
                ParamsRead(host.values, old(node.params), settings.value, |settings.value|)
      ensures settings.Some? && ParamsDistinct(old(node.params)) ==>
                UnnamedKept(host.values, old(host.values), old(node.params), settings.value, |settings.value|)
      ensures settings.Some? ==> MembersRead(node.members, old(node.params), settings.value, |settings.value|)
      ensures settings.Some? ==>
                StateOf(host, node) ==
                SettingsState(node.id, old(StateOf(host, node)), settings.value, |settings.value|, false, host.currentTime)
    {
      if settings.Some? {
        ApplySettings(host, null, node, settings.value);
      }
      sealed := true;
    }
  }

  /** createComposite up to the initializer (lines 368-389): the proxy, the
      destination gain, the composite node's gain member, the empty closure state.
      The proxy's connect of line 376 is `Composite.Connect`, so the node's own
      `connect` field stays NoConnect. setValue's weld test (line 205) never sees
      it: "gain" is always one of the proxy's AudioParams (line 375), so a "gain"
      setting takes the AudioParam branch either way. */
  method NewComposite(host: Host) returns (c: Composite)
    modifies host
    ensures fresh(c) && fresh(c.node) && fresh(c.dest) && c.host == host
    ensures c.Valid() && !c.sealed && c.tracked == []
    ensures c.startQ == [] && c.stopQ == [] && c.connections == [] && c.startTime == None
    ensures c.incompleteCount == 0 && c.oneNode == null && c.madeParams == {}
    ensures c.dest.id < host.nextId
    ensures c.dest.kind == Gain && c.node.kind == CompositeProxy
    ensures c.node.params == map["gain" := ParamRef(c.dest.id, "gain")]
    ensures c.node.members == map[]
  {
    // `new AudioContextProxy(context)` makes one gain node to start the clock
    var _ := host.Create(Gain);
    var dest := CreateNode(host, null, Gain, []);
    var proxyId := host.Fresh();
    var proxy := new Node(proxyId, CompositeProxy);
    proxy.params := map["gain" := ParamRef(dest.id, "gain")];
    c := new Composite(host, proxy, dest);
  }
}

=== FILE: Envelope.dfy ===
/**
 * The envelope scheduler: how a list of envelope steps becomes the ordered list of
 * automation operations issued on one AudioParam (applyEnvelope).
 *
 * Times and values are reals; the scheduler only compares, adds and defaults them.
 */
module Envelope {

  /** One point of an envelope: a bare value, or a [target, duration] pair.
      A duration of 0 stands for an omitted or falsy duration. */
  datatype Step = Scalar(v: real) | Pair(target: real, duration: real)

  /** An envelope as the scheduler accepts it: reading the first step of an empty
      list fails before anything but the cancellation has been issued. */
  type Steps = s: seq<Step> | |s| > 0 witness [Scalar(0.0)]

  /** The automation calls an AudioParam receives. */
  datatype Op =
    | Cancel(time: real)
    | SetAt(value: real, time: real)
    | LinearTo(value: real, time: real)
    | ExponentialTo(value: real, time: real)

  /** Duration used for a pair whose duration is omitted or falsy. */
  const DefaultDuration: real := 0.1
  /** Near-zero floor an exponential ramp aims at instead of 0. */
  const Floor: real := 0.0001
  /** Delay after which a final zero target is reached exactly, by a linear ramp. */
  const SilenceDelay: real := 0.0001

  /** How far one step moves the time cursor. */
  function Advance(s: Step): (r: real)
    ensures s.Scalar? ==> r == 0.0
    ensures s.Pair? && s.duration != 0.0 ==> r == s.duration
    ensures s.Pair? && s.duration >= 0.0 ==> r > 0.0
  {
    if s.Pair? then (if s.duration != 0.0 then s.duration else DefaultDuration) else 0.0
  }

  /** The time elapsed after the given steps: the sum of their effective durations. */
  function Elapsed(steps: seq<Step>): real
    decreases |steps|
  {
    if steps == [] then 0.0 else Elapsed(steps[..|steps| - 1]) + Advance(steps[|steps| - 1])
  }

  /** The operations issued for step `s` when the cursor stood at `cursor` before it;
      `last` says whether `s` is the final step of the envelope. */
  function StepOps(s: Step, cursor: real, last: bool): seq<Op>
  {
    match s
    case Scalar(_) => []
    case Pair(target, _) =>
      var end := cursor + Advance(s);
      if target < 0.0 then [LinearTo(target, end)]
      else if target == 0.0 then
        [ExponentialTo(Floor, end)] + (if last then [LinearTo(0.0, end + SilenceDelay)] else [])
      else [ExponentialTo(target, end)]
  }

  /** The ramps issued for the first k steps of the envelope anchored at `anchor`. */
  function Ramps(anchor: real, steps: seq<Step>, k: nat): seq<Op>
    requires k <= |steps|
  {
    if k == 0 then []
    else Ramps(anchor, steps, k - 1) + StepOps(steps[k - 1], anchor + Elapsed(steps[..k - 1]), k == |steps|)
  }

  /** The whole envelope: cancel from the anchor on, an initial value when the first
      step is a bare value, then the ramps. */
  function EnvelopeOps(anchor: real, steps: Steps): seq<Op>
  {
    [Cancel(anchor)]
    + (if steps[0].Scalar? then [SetAt(steps[0].v, anchor)] else [])
    + Ramps(anchor, steps, |steps|)
  }

  /** Operations that ramp; the only ones the step loop issues. */
  predicate IsRamp(op: Op) { op.LinearTo? || op.ExponentialTo? }

  predicate StrictlyIncreasing(ops: seq<Op>)
  {
    forall i, j :: 0 <= i < j < |ops| ==> ops[i].time < ops[j].time
  }

  /** No pair carries a negative duration (a falsy one becomes the default). */
  predicate NonNegativeDurations(steps: seq<Step>)
  {
    forall i :: 0 <= i < |steps| && steps[i].Pair? ==> steps[i].duration >= 0.0
  }

  /** Number of pair steps. */
  function PairCount(steps: seq<Step>): nat
    decreases |steps|
  {
    if steps == [] then 0
    else PairCount(steps[..|steps| - 1]) + (if steps[|steps| - 1].Pair? then 1 else 0)
  }

  // ---------------------------------------------------------------------------
  // Lemmas about the scheduler

  lemma {:induction false} StepOpsAreRamps(s: Step, cursor: real, last: bool)
    ensures forall op :: op in StepOps(s, cursor, last) ==> IsRamp(op)
    ensures forall op :: op in StepOps(s, cursor, last) && op.ExponentialTo? ==> op.value > 0.0
  {
  }

  /** Every operation after the initial ones is a ramp, and no exponential ramp aims
      at a value that is not positive. */
  lemma {:induction false} RampsAreSafe(anchor: real, steps: seq<Step>, k: nat)
    requires k <= |steps|
    ensures forall op :: op in Ramps(anchor, steps, k) ==> IsRamp(op)
    ensures forall op :: op in Ramps(anchor, steps, k) && op.ExponentialTo? ==> op.value > 0.0
  {
    if k > 0 {
      RampsAreSafe(anchor, steps, k - 1);
      StepOpsAreRamps(steps[k - 1], anchor + Elapsed(steps[..k - 1]), k == |steps|);
    }
  }

  /** Past the cancellation and the initial value, every operation is a ramp. */
  lemma TailIsRamps(anchor: real, steps: Steps)
    ensures var h := if steps[0].Scalar? then 2 else 1;
            && |EnvelopeOps(anchor, steps)| >= h
            && forall i :: h <= i < |EnvelopeOps(anchor, steps)| ==> IsRamp(EnvelopeOps(anchor, steps)[i])
  {
    var ops := EnvelopeOps(anchor, steps);
    var head := [Cancel(anchor)] + (if steps[0].Scalar? then [SetAt(steps[0].v, anchor)] else []);
    var ramps := Ramps(anchor, steps, |steps|);
    assert ops == head + ramps;
    RampsAreSafe(anchor, steps, |steps|);
    forall i | |head| <= i < |ops| ensures IsRamp(ops[i]) {
      assert ops[i] == ramps[i - |head|];
      assert ramps[i - |head|] in ramps;
    }
  }

  /** A first step that is a pair issues a ramp right after the cancellation. */
  lemma FirstPairRamps(anchor: real, steps: Steps)
    requires steps[0].Pair?
    ensures |EnvelopeOps(anchor, steps)| > 1 && IsRamp(EnvelopeOps(anchor, steps)[1])
  {
    var ops := EnvelopeOps(anchor, steps);
    var ramps := Ramps(anchor, steps, |steps|);
    assert ops == [Cancel(anchor)] + ramps;
    assert Ramps(anchor, steps, 1) == StepOps(steps[0], anchor + Elapsed(steps[..0]), 1 == |steps|);
    RampsPrefix(anchor, steps, 1, |steps|);
    assert |ramps| >= 1;
    RampsAreSafe(anchor, steps, |steps|);
    assert ops[1] == ramps[0] && ramps[0] in ramps;
  }

  /** The envelope opens with the cancellation at the anchor; the initial value is set
      at the anchor exactly when the first step is a bare value, and never elsewhere. */
  lemma EnvelopeHead(anchor: real, steps: Steps)
    ensures |EnvelopeOps(anchor, steps)| >= 1
    ensures EnvelopeOps(anchor, steps)[0] == Cancel(anchor)
    ensures forall i :: 1 <= i < |EnvelopeOps(anchor, steps)| ==> !EnvelopeOps(anchor, steps)[i].Cancel?
    ensures steps[0].Scalar? <==> (|EnvelopeOps(anchor, steps)| > 1 && EnvelopeOps(anchor, steps)[1].SetAt?)
    ensures steps[0].Scalar? ==> EnvelopeOps(anchor, steps)[1] == SetAt(steps[0].v, anchor)
    ensures forall i :: 0 <= i < |EnvelopeOps(anchor, steps)| && i != 1 ==> !EnvelopeOps(anchor, steps)[i].SetAt?
  {
    TailIsRamps(anchor, steps);
    if steps[0].Pair? {
      FirstPairRamps(anchor, steps);
    }
  }

  /** No exponential ramp of any envelope targets a value that is zero or negative. */
  lemma NoExponentialToNonPositive(anchor: real, steps: Steps)
    ensures forall op :: op in EnvelopeOps(anchor, steps) && op.ExponentialTo? ==> op.value > 0.0
  {
    RampsAreSafe(anchor, steps, |steps|);
    var head := [Cancel(anchor)] + (if steps[0].Scalar? then [SetAt(steps[0].v, anchor)] else []);
    assert EnvelopeOps(anchor, steps) == head + Ramps(anchor, steps, |steps|);
  }

  /** The ramps of fewer steps are a prefix of the ramps of more steps. */
  lemma {:induction false} RampsPrefix(anchor: real, steps: seq<Step>, j: nat, k: nat)
    requires j <= k <= |steps|
    ensures |Ramps(anchor, steps, j)| <= |Ramps(anchor, steps, k)|
    ensures Ramps(anchor, steps, k)[..|Ramps(anchor, steps, j)|] == Ramps(anchor, steps, j)
    decreases k - j
  {
    if j < k {
      RampsPrefix(anchor, steps, j, k - 1);
      var a := Ramps(anchor, steps, k - 1);
      assert Ramps(anchor, steps, k)[..|a|] == a;
    }
  }

  /** The ramps of one more step: the earlier ramps, then that step's operations at the
      cursor the earlier steps have reached. */
  lemma RampsSnoc(anchor: real, steps: seq<Step>, i: nat, head: seq<Op>)
    requires i < |steps|
    ensures head + Ramps(anchor, steps, i) + StepOps(steps[i], anchor + Elapsed(steps[..i]), i + 1 == |steps|)
         == head + Ramps(anchor, steps, i + 1)
  {
  }

  lemma ElapsedStep(steps: seq<Step>, k: nat)
    requires k < |steps|
    ensures Elapsed(steps[..k + 1]) == Elapsed(steps[..k]) + Advance(steps[k])
  {
    assert steps[..k + 1][..k] == steps[..k];
  }

  /** With no negative durations the cursor never moves back. */
  lemma {:induction false} ElapsedNonNegative(steps: seq<Step>)
    requires NonNegativeDurations(steps)
    ensures Elapsed(steps) >= 0.0
    decreases |steps|
  {
    if steps != [] {
      var init := steps[..|steps| - 1];
      assert NonNegativeDurations(init) by {
        forall i | 0 <= i < |init| && init[i].Pair? ensures init[i].duration >= 0.0 {
          assert init[i] == steps[i];
        }
      }
      ElapsedNonNegative(init);
    }
  }

  /** The k-th step's ramp ends at the anchor plus the effective durations of the steps
      up to and including it, and sits in the envelope right after the earlier ramps. */
  lemma RampEndsAtElapsed(anchor: real, steps: Steps, k: nat)
    requires k < |steps| && steps[k].Pair?
    ensures var ops := EnvelopeOps(anchor, steps);
            var at := (if steps[0].Scalar? then 2 else 1) + |Ramps(anchor, steps, k)|;
            at < |ops|
            && IsRamp(ops[at])
            && ops[at].time == anchor + Elapsed(steps[..k + 1])
            && ops[at].value == (if steps[k].target == 0.0 then Floor else steps[k].target)
            && (ops[at].LinearTo? <==> steps[k].target < 0.0)
  {
    ElapsedStep(steps, k);
    RampsPrefix(anchor, steps, k + 1, |steps|);
    var ops := EnvelopeOps(anchor, steps);
    var head := [Cancel(anchor)] + (if steps[0].Scalar? then [SetAt(steps[0].v, anchor)] else []);
    var ramps := Ramps(anchor, steps, |steps|);
    var before := Ramps(anchor, steps, k);
    var mine := StepOps(steps[k], anchor + Elapsed(steps[..k]), k + 1 == |steps|);
    StepOpsFirst(steps[k], anchor + Elapsed(steps[..k]), k + 1 == |steps|);
    assert Ramps(anchor, steps, k + 1) == before + mine;
    assert ramps[|before|] == (before + mine)[|before|] == mine[0];
    assert ops == head + ramps;
    assert ops[|head| + |before|] == ramps[|before|];
  }

  /** A pair's first operation is its ramp, at the advanced cursor. */
  lemma StepOpsFirst(s: Step, cursor: real, last: bool)
    requires s.Pair?
    ensures |StepOps(s, cursor, last)| >= 1
    ensures var op := StepOps(s, cursor, last)[0];
            && IsRamp(op) && op.time == cursor + Advance(s)
            && op.value == (if s.target == 0.0 then Floor else s.target)
            && (op.LinearTo? <==> s.target < 0.0)
  {
  }

  /** Two runs in time order, the first wholly before the second, are in time order
      together. */
  lemma AppendIncreasing(before: seq<Op>, mine: seq<Op>)
    requires StrictlyIncreasing(before) && StrictlyIncreasing(mine)
    requires forall a, b :: a in before && b in mine ==> a.time < b.time
    ensures StrictlyIncreasing(before + mine)
  {
    var all := before + mine;
    forall i, j | 0 <= i < j < |all| ensures all[i].time < all[j].time {
      if j < |before| {
        assert all[i] == before[i] && all[j] == before[j];
      } else if i >= |before| {
        assert all[i] == mine[i - |before|] && all[j] == mine[j - |before|];
      } else {
        assert all[i] == before[i] && before[i] in before;
        assert all[j] == mine[j - |before|] && mine[j - |before|] in mine;
      }
    }
  }

  /** One step's operations are in time order, after the cursor, and, unless it is
      the last step, no later than where it moves the cursor. */
  lemma StepOpsInOrder(s: Step, cursor: real, last: bool)
    requires s.Pair? ==> s.duration >= 0.0
    ensures StrictlyIncreasing(StepOps(s, cursor, last))
    ensures forall op :: op in StepOps(s, cursor, last) ==> op.time > cursor
    ensures !last ==> forall op :: op in StepOps(s, cursor, last) ==> op.time <= cursor + Advance(s)
  {
  }

  /** A prefix of steps with no negative duration has none either. */
  lemma NonNegativePrefix(steps: seq<Step>, n: nat)
    requires n <= |steps| && NonNegativeDurations(steps)
    ensures NonNegativeDurations(steps[..n])
  {
    forall i | 0 <= i < n && steps[..n][i].Pair? ensures steps[..n][i].duration >= 0.0 {
      assert steps[..n][i] == steps[i];
    }
  }

  /** With no negative durations, every ramp lies after the anchor and the ramp times
      strictly increase; before the last step, no ramp lies past the cursor. */
  lemma {:induction false} RampsIncrease(anchor: real, steps: seq<Step>, k: nat)
    requires k <= |steps|
    requires NonNegativeDurations(steps)
    ensures StrictlyIncreasing(Ramps(anchor, steps, k))
    ensures forall op :: op in Ramps(anchor, steps, k) ==> op.time > anchor
    ensures k < |steps| ==> forall op :: op in Ramps(anchor, steps, k) ==> op.time <= anchor + Elapsed(steps[..k])
  {
    if k > 0 {
      RampsIncrease(anchor, steps, k - 1);
      RampsIncreaseStep(anchor, steps, k);
    }
  }

  /** One more step keeps the ramps in time order, after the anchor and, before the
      last step, within the elapsed time. */
  lemma RampsIncreaseStep(anchor: real, steps: seq<Step>, k: nat)
    requires 0 < k <= |steps|
    requires NonNegativeDurations(steps)
    requires StrictlyIncreasing(Ramps(anchor, steps, k - 1))
    requires forall op :: op in Ramps(anchor, steps, k - 1) ==> anchor < op.time <= anchor + Elapsed(steps[..k - 1])
    ensures StrictlyIncreasing(Ramps(anchor, steps, k))
    ensures forall op :: op in Ramps(anchor, steps, k) ==> op.time > anchor
    ensures k < |steps| ==> forall op :: op in Ramps(anchor, steps, k) ==> op.time <= anchor + Elapsed(steps[..k])
  {
    var before := Ramps(anchor, steps, k - 1);
    var cursor := anchor + Elapsed(steps[..k - 1]);
    var mine := StepOps(steps[k - 1], cursor, k == |steps|);
    assert Ramps(anchor, steps, k) == before + mine;
    NonNegativePrefix(steps, k - 1);
    ElapsedNonNegative(steps[..k - 1]);
    ElapsedStep(steps, k - 1);
    StepOpsInOrder(steps[k - 1], cursor, k == |steps|);
    JoinInOrder(before, mine, anchor, cursor, anchor + Elapsed(steps[..k]), k < |steps|);
  }

  /** The ramps so far, all within (anchor, cursor], followed by one step's ramps, all
      after the cursor: together they are in time order and after the anchor, and within
      `next` when both parts are. */
  lemma JoinInOrder(before: seq<Op>, mine: seq<Op>, anchor: real, cursor: real, next: real, bounded: bool)
    requires StrictlyIncreasing(before) && StrictlyIncreasing(mine)
    requires anchor <= cursor <= next
    requires forall op :: op in before ==> anchor < op.time <= cursor
    requires forall op :: op in mine ==> cursor < op.time
    requires bounded ==> forall op :: op in mine ==> op.time <= next
    ensures StrictlyIncreasing(before + mine)
    ensures forall op :: op in before + mine ==> op.time > anchor
    ensures bounded ==> forall op :: op in before + mine ==> op.time <= next
  {
    AppendIncreasing(before, mine);
  }

  /** With no negative durations the whole envelope is in time order: the cancellation
      and the initial value at the anchor, then strictly later and later ramps. */
  lemma ConsIncreasing(x: Op, ops: seq<Op>)
    requires StrictlyIncreasing(ops)
    requires forall op :: op in ops ==> op.time > x.time
    ensures StrictlyIncreasing([x] + ops)
  {
    var all := [x] + ops;
    forall i, j | 0 <= i < j < |all| ensures all[i].time < all[j].time {
      assert all[j] == ops[j - 1] && ops[j - 1] in ops;
      if i > 0 { assert all[i] == ops[i - 1]; }
    }
  }

  /** With no negative durations the whole envelope is in time order: the cancellation
      and the initial value at the anchor, then strictly later and later ramps. */
  lemma EnvelopeInTimeOrder(anchor: real, steps: Steps)
    requires NonNegativeDurations(steps)
    ensures forall op :: op in EnvelopeOps(anchor, steps) ==> op.time >= anchor
    ensures StrictlyIncreasing(EnvelopeOps(anchor, steps)[1..])
  {
    RampsIncrease(anchor, steps, |steps|);
    var ramps := Ramps(anchor, steps, |steps|);
    var ops := EnvelopeOps(anchor, steps);
    if steps[0].Scalar? {
      assert ops == [Cancel(anchor)] + ([SetAt(steps[0].v, anchor)] + ramps);
      assert ops[1..] == [SetAt(steps[0].v, anchor)] + ramps;
      ConsIncreasing(SetAt(steps[0].v, anchor), ramps);
    } else {
      assert ops == [Cancel(anchor)] + ramps;
      assert ops[1..] == ramps;
    }
  }

  /** One ramp per pair step, plus the closing linear ramp when the last step is a
      pair aiming at zero; bare values after the first add nothing. */
  lemma {:induction false} RampCount(anchor: real, steps: seq<Step>, k: nat)
    requires k <= |steps|
    ensures |Ramps(anchor, steps, k)| == PairCount(steps[..k])
      + (if k == |steps| && k > 0 && steps[k - 1].Pair? && steps[k - 1].target == 0.0 then 1 else 0)
  {
    if k > 0 {
      RampCount(anchor, steps, k - 1);
      assert steps[..k][..k - 1] == steps[..k - 1];
    }
  }

  /** Anchored at 0, [1, [0, 0.5]] holds 1, falls exponentially to the floor by 0.5 and
      reaches exactly 0 at 0.5001. */
  lemma ExampleDecayToSilence()
    ensures EnvelopeOps(0.0, [Scalar(1.0), Pair(0.0, 0.5)])
      == [Cancel(0.0), SetAt(1.0, 0.0), ExponentialTo(0.0001, 0.5), LinearTo(0.0, 0.5001)]
  {
    var steps: Steps := [Scalar(1.0), Pair(0.0, 0.5)];
    assert steps[..0] == [];
    assert steps[..1] == [Scalar(1.0)];
    assert Elapsed(steps[..1]) == 0.0 by { assert steps[..1][..0] == []; }
    assert Ramps(0.0, steps, 1) == [];
    assert Ramps(0.0, steps, 2) == StepOps(Pair(0.0, 0.5), 0.0, true);
  }

  /** A negative target is reached by a linear ramp. */
  lemma ExampleNegativeIsLinear()
    ensures EnvelopeOps(0.0, [Scalar(0.0), Pair(-1.0, 0.2)])
      == [Cancel(0.0), SetAt(0.0, 0.0), LinearTo(-1.0, 0.2)]
  {
    var steps: Steps := [Scalar(0.0), Pair(-1.0, 0.2)];
    assert steps[..0] == [];
    assert steps[..1] == [Scalar(0.0)];
    assert Elapsed(steps[..1]) == 0.0 by { assert steps[..1][..0] == []; }
    assert Ramps(0.0, steps, 1) == [];
    assert Ramps(0.0, steps, 2) == StepOps(Pair(-1.0, 0.2), 0.0, true);
  }
}

=== FILE: Host.dfy ===
/**
 * The host audio context, seen from the library: a clock, the value of every
 * AudioParam, and the ordered log of every call the library makes on host objects
 * (node creation, automation, start/stop, connect/disconnect) or on the start/stop
 * hooks a caller may attach to a node. Digital signal processing is not modelled.
 */
module Host {
  import opened Envelope

  /** An AudioParam: the member `member` of the host object numbered `node`. */
  datatype ParamRef = ParamRef(node: nat, member: string)

  /** Where an output can be connected: a node's input or an AudioParam. */
  datatype Endpoint = ToNode(id: nat) | ToParam(param: ParamRef)

  /** The host factories the library uses. CompositeProxy is the library's own
      context proxy that stands for a composite node; the host never creates it. */
  datatype Kind = Oscillator | Gain | BufferSource | WaveShaper | BiquadFilter | ChannelMerger
                | AudioBuffer | CompositeProxy

  datatype Call =
    | Created(id: nat, kind: Kind)
    | Scheduled(param: ParamRef, op: Op)
    | Started(id: nat, time: real)
    | Stopped(id: nat, time: real)
    | StartHook(id: nat, time: real)
    | StopHook(id: nat, time: real)
    | Connected(src: nat, dst: Endpoint)
    | Disconnected(src: nat, dst: Endpoint)

  /** The AudioParam members each kind of host node carries. */
  function HostParams(kind: Kind): set<string>
  {
    match kind
    case Oscillator => {"frequency", "detune"}
    case Gain => {"gain"}
    case BufferSource => {"playbackRate", "detune"}
    case BiquadFilter => {"frequency", "detune", "Q", "gain"}
    case _ => {}
  }

  /** Scheduled sources: they have start, stop and an onended event. */
  predicate IsSource(kind: Kind) { kind == Oscillator || kind == BufferSource }

  /** Kinds that have an output to connect. */
  predicate HasOutput(kind: Kind) { kind != AudioBuffer && kind != CompositeProxy }

  /** The calls made on parameter p by issuing `ops` on it. */
  function Tagged(p: ParamRef, ops: seq<Op>): (r: seq<Call>)
    ensures |r| == |ops|
  {
    seq(|ops|, i requires 0 <= i < |ops| => Scheduled(p, ops[i]))
  }

  /** The automation a parameter has received, in order: its projection of the log. */
  function ScheduleOf(calls: seq<Call>, p: ParamRef): seq<Op>
    decreases |calls|
  {
    if calls == [] then []
    else
      var c := calls[|calls| - 1];
      ScheduleOf(calls[..|calls| - 1], p) + (if c.Scheduled? && c.param == p then [c.op] else [])
  }

  /** Issuing `ops` on p extends p's schedule by exactly `ops` and leaves every other
      parameter's schedule as it was. */
  lemma {:induction false} ScheduleOfTagged(calls: seq<Call>, p: ParamRef, ops: seq<Op>, q: ParamRef)
    ensures ScheduleOf(calls + Tagged(p, ops), q) == ScheduleOf(calls, q) + (if q == p then ops else [])
    decreases |ops|
  {
    if ops == [] {
      assert calls + Tagged(p, ops) == calls;
    } else {
      var init := ops[..|ops| - 1];
      var last := ops[|ops| - 1];
      ScheduleOfTagged(calls, p, init, q);
      TaggedSnoc(p, ops);
      AppendAssoc(calls, Tagged(p, init), [Scheduled(p, last)]);
      ScheduleOfSnoc(calls + Tagged(p, init), Scheduled(p, last), q);
      if q == p {
        AppendAssoc(ScheduleOf(calls, q), init, [last]);
        assert init + [last] == ops;
      }
    }
  }

  /** The calls for `ops` are those for all but the last, then the last one's. */
  lemma TaggedSnoc(p: ParamRef, ops: seq<Op>)
    requires ops != []
    ensures Tagged(p, ops) == Tagged(p, ops[..|ops| - 1]) + [Scheduled(p, ops[|ops| - 1])]
  {
  }

  /** One more call adds its operation to the schedule of its own parameter only. */
  lemma ScheduleOfSnoc(calls: seq<Call>, c: Call, q: ParamRef)
    ensures ScheduleOf(calls + [c], q) == ScheduleOf(calls, q) + (if c.Scheduled? && c.param == q then [c.op] else [])
  {
    assert (calls + [c])[..|calls|] == calls;
  }

  /** Calls that are not automation leave every parameter's schedule unchanged. */
  lemma {:induction false} ScheduleOfOther(calls: seq<Call>, more: seq<Call>, q: ParamRef)
    requires forall c :: c in more ==> !c.Scheduled?
    ensures ScheduleOf(calls + more, q) == ScheduleOf(calls, q)
    decreases |more|
  {
    if more == [] {
      assert calls + more == calls;
    } else {
      var init := more[..|more| - 1];
      ScheduleOfOther(calls, init, q);
      var all := calls + more;
      assert all[..|all| - 1] == calls + init;
      assert all[|all| - 1] == more[|more| - 1] && more[|more| - 1] in more;
    }
  }

  lemma TaggedConcat(p: ParamRef, a: seq<Op>, b: seq<Op>)
    ensures Tagged(p, a + b) == Tagged(p, a) + Tagged(p, b)
  {
  }

  lemma AppendAssoc<T>(a: seq<T>, b: seq<T>, c: seq<T>)
    ensures a + b + c == a + (b + c)
  {
  }

  /** One pass of the step loop extends the log by the ops of step i. */
  lemma LoopStep(start: seq<Call>, prev: seq<Call>, now: seq<Call>, p: ParamRef, head: seq<Op>,
                 anchor: real, steps: seq<Step>, i: nat, cursor: real)
    requires i < |steps|
    requires cursor == anchor + Elapsed(steps[..i])
    requires prev == start + Tagged(p, head + Ramps(anchor, steps, i))
    requires now == prev + Tagged(p, StepOps(steps[i], cursor, i + 1 == |steps|))
    ensures now == start + Tagged(p, head + Ramps(anchor, steps, i + 1))
  {
    var before := head + Ramps(anchor, steps, i);
    var mine := StepOps(steps[i], cursor, i + 1 == |steps|);
    RampsSnoc(anchor, steps, i, head);
    TaggedConcat(p, before, mine);
    AppendAssoc(start, Tagged(p, before), Tagged(p, mine));
  }

  class Host {
    /** The context's clock (currentTime). */
    var currentTime: real
    /** Every call the library has made on host objects, in order. */
    var calls: seq<Call>
    /** The `value` of every AudioParam that has been assigned one. */
    var values: map<ParamRef, real>
    /** Identity of the next object the host hands out. */
    var nextId: nat

    constructor (now: real)
      ensures currentTime == now && calls == [] && values == map[] && nextId == 0
    {
      currentTime := now;
      calls := [];
      values := map[];
      nextId := 0;
    }

    /** A fresh identity for a host object, and the factory call that creates it. */
    method Create(kind: Kind) returns (id: nat)
      modifies this
      ensures id == old(nextId) && nextId == id + 1
      ensures calls == old(calls) + [Created(id, kind)]
      ensures values == old(values) && currentTime == old(currentTime)
    {
      id := nextId;
      nextId := nextId + 1;
      calls := calls + [Created(id, kind)];
    }

    /** A fresh identity for an object of the library's own, not made by the host. */
    method Fresh() returns (id: nat)
      modifies this
      ensures id == old(nextId) && nextId == id + 1
      ensures calls == old(calls) && values == old(values) && currentTime == old(currentTime)
    {
      id := nextId;
      nextId := nextId + 1;
    }

    /** `param.value = v`. */
    method SetParamValue(p: ParamRef, v: real)
      modifies this`values
      ensures values == old(values)[p := v]
    {
      values := values[p := v];
    }

    /** Appends one call to the log. */
    method Log(c: Call)
      modifies this`calls
      ensures calls == old(calls) + [c]
    {
      calls := calls + [c];
    }

    /** applyEnvelope: cancel the schedule from `anchor` on, set the first value when it
        is bare, then walk the steps with a running time cursor, choosing the ramp
        kind by the sign of each pair's target. */
    method ApplyEnvelope(p: ParamRef, anchor: real, steps: Steps)
      modifies this`calls
      ensures calls == old(calls) + Tagged(p, EnvelopeOps(anchor, steps))
    {
      ghost var head := [Cancel(anchor)] + (if steps[0].Scalar? then [SetAt(steps[0].v, anchor)] else []);
      calls := calls + [Scheduled(p, Cancel(anchor))];
      var step := steps[0];
      if step.Scalar? {
        calls := calls + [Scheduled(p, SetAt(step.v, anchor))];
        assert Tagged(p, head) == [Scheduled(p, Cancel(anchor)), Scheduled(p, SetAt(step.v, anchor))];
      } else {
        assert Tagged(p, head) == [Scheduled(p, Cancel(anchor))];
      }
      assert head + Ramps(anchor, steps, 0) == head;
      var when := anchor;
      var i := 0;
      while i < |steps|
        invariant 0 <= i <= |steps|
        invariant when == anchor + Elapsed(steps[..i])
        invariant calls == old(calls) + Tagged(p, head + Ramps(anchor, steps, i))
      {
        ghost var prev := calls;
        ElapsedStep(steps, i);
        when := IssueStep(p, steps[i], when, i + 1 == |steps|);
        LoopStep(old(calls), prev, calls, p, head, anchor, steps, i, when - Advance(steps[i]));
        i := i + 1;
      }
      assert head + Ramps(anchor, steps, |steps|) == EnvelopeOps(anchor, steps);
    }

    /** One pass of applyEnvelope's step loop: a pair advances the cursor by its duration
        (0.1 when falsy) and ramps there, linearly to a negative target, exponentially to
        a positive one, and exponentially to the floor for zero, followed, on the last
        step, by a linear ramp to zero just after; a bare value issues nothing. */
    method IssueStep(p: ParamRef, step: Step, when: real, last: bool) returns (cursor: real)
      modifies this`calls
      ensures cursor == when + Advance(step)
      ensures calls == old(calls) + Tagged(p, StepOps(step, when, last))
    {
      cursor := when;
      if step.Pair? {
        var value := step.target;
        if value < 0.0 {
          cursor := cursor + (if step.duration != 0.0 then step.duration else DefaultDuration);
          calls := calls + [Scheduled(p, LinearTo(value, cursor))];
        } else if value == 0.0 {
          cursor := cursor + (if step.duration != 0.0 then step.duration else DefaultDuration);
          calls := calls + [Scheduled(p, ExponentialTo(Floor, cursor))];
          if last {
            calls := calls + [Scheduled(p, LinearTo(0.0, cursor + SilenceDelay))];
          }
        } else {
          cursor := cursor + (if step.duration != 0.0 then step.duration else DefaultDuration);
          calls := calls + [Scheduled(p, ExponentialTo(value, cursor))];
        }
      }
    }
  }
}

=== FILE: Instrument.dfy ===
/**
 * An instrument (createInstrument): a recipe and its default settings, played by
 * merging the defaults with the performance arguments of one note into the settings
 * of a fresh composite, which is then connected and started (and stopped).
 *
 * The recipe itself is caller code: `Play` and `Start` receive the composite it
 * built. Converting a note to a frequency is a parameter of the model.
 */
module Instrument {
  import opened Host
  import opened Settings
  import opened Core

  /** The performance arguments of one note. */
  datatype PerfArgs =
    | Missing              // undefined or null
    | Bare(v: SettingValue) // a value that is not an object, such as a note name or number
    | Given(obj: Settings)  // a settings object

  /** Values whose `typeof` is not "object". */
  predicate Primitive(v: SettingValue)
  {
    v.Num? || v.Text? || v.Flag?
  }

  /** The object the merge enumerates, when the arguments are missing: reading `note`
      from undefined throws a TypeError (line 488), so there is none. */
  function PerfObjectAsWritten(perf: PerfArgs): (r: Option<Settings>)
    requires perf.Bare? ==> Primitive(perf.v)
    ensures r.None? <==> perf.Missing?
    ensures r.Some? ==> r.value == PerfObject(perf)
  {
    if perf.Missing? then None else Some(PerfObject(perf))
  }

  /** The object the merge enumerates (lines 483-486): a truthy bare value becomes
      `{note: value}`; a falsy one has no keys of its own; missing arguments are
      read as no arguments. */
  function PerfObject(perf: PerfArgs): (r: Settings)
    requires perf.Bare? ==> Primitive(perf.v)
  {
    match perf
    case Missing => []
    case Bare(v) => if Truthy(v) then [("note", v)] else []
    case Given(obj) => obj
  }

  /** Missing arguments throw as written. */
  lemma MissingArgumentsThrow()
    ensures PerfObjectAsWritten(Missing) == None
    ensures PerfObjectAsWritten(Bare(Num(0.0))).Some? && PerfObjectAsWritten(Bare(Num(0.0))).value == []
  {
  }

  /** The note defaulting (lines 487-490): a truthy note without a truthy frequency
      gets the note's frequency, or 440 when the conversion gives 0. */
  function WithFrequency(s: Settings, convert: SettingValue -> real): (r: Settings)
    ensures Keys(r) == Keys(s) || Keys(r) == Keys(s) + {"frequency"}
    ensures forall k :: k != "frequency" ==> Get(r, k) == Get(s, k)
    ensures Get(s, "frequency").Some? && Truthy(Get(s, "frequency").value) ==> r == s
    ensures !(Get(s, "note").Some? && Truthy(Get(s, "note").value)) ==> r == s
  {
    var note := Get(s, "note");
    var freq := Get(s, "frequency");
    if note.Some? && Truthy(note.value) && !(freq.Some? && Truthy(freq.value)) then
      var f := convert(note.value);
      Put(s, "frequency", Num(if f != 0.0 then f else 440.0))
    else s
  }

  /** After the note defaulting, a performance that names a note always carries a
      truthy frequency: the one given, the converted one or 440. */
  lemma NoteHasFrequency(s: Settings, convert: SettingValue -> real)
    requires Get(s, "note").Some? && Truthy(Get(s, "note").value)
    ensures var r := WithFrequency(s, convert);
            Get(r, "frequency").Some? && Truthy(Get(r, "frequency").value)
    ensures var r := WithFrequency(s, convert);
            var given := Get(s, "frequency");
            !(given.Some? && Truthy(given.value)) ==>
              var f := convert(Get(s, "note").value);
              Get(r, "frequency") == Some(Num(if f != 0.0 then f else 440.0))
  {
  }

  /** `for (m in src) { acc[m] = src[m]; }`, as a value: each key of src in turn. */
  function Merge(acc: Settings, src: Settings): Settings
    decreases |src|
  {
    if src == [] then acc
    else
      var init: Settings := src[..|src| - 1];
      Put(Merge(acc, init), src[|src| - 1].0, src[|src| - 1].1)
  }

  /** A key of distinct-keyed settings read from a prefix reads the same. */
  lemma GetPrefix(s: Settings, n: nat, k: string)
    requires n <= |s|
    ensures var p: Settings := s[..n];
            k in Keys(p) ==> k in Keys(s) && Get(p, k) == Get(s, k)
  {
    var p: Settings := s[..n];
    if k in Keys(p) {
      var j := IndexOf(p, k);
      assert s[j].0 == k;
      IndexUnique(s, k, j);
    }
  }

  /** The keys of settings are those of all but its last entry, and the last. */
  lemma KeysSnoc(src: Settings)
    requires src != []
    ensures var init: Settings := src[..|src| - 1];
            Keys(src) == Keys(init) + {src[|src| - 1].0}
  {
    var init: Settings := src[..|src| - 1];
    forall k | k in Keys(src) ensures k in Keys(init) + {src[|src| - 1].0} {
      var j :| 0 <= j < |src| && src[j].0 == k;
      if j < |src| - 1 {
        assert init[j].0 == k;
      }
    }
    forall k | k in Keys(init) ensures k in Keys(src) {
      var j :| 0 <= j < |init| && init[j].0 == k;
      assert src[j].0 == k;
    }
  }

  /** The merge has the keys of both. */
  lemma {:induction false} MergeKeys(acc: Settings, src: Settings)
    ensures Keys(Merge(acc, src)) == Keys(acc) + Keys(src)
    decreases |src|
  {
    if src != [] {
      var init: Settings := src[..|src| - 1];
      MergeKeys(acc, init);
      KeysSnoc(src);
    }
  }

  /** Each key of the merge is valued as in the source when the source has it, and
      as before otherwise. */
  lemma {:induction false} MergeGet(acc: Settings, src: Settings, k: string)
    ensures Get(Merge(acc, src), k) == if k in Keys(src) then Get(src, k) else Get(acc, k)
    decreases |src|
  {
    if src != [] {
      var init: Settings := src[..|src| - 1];
      var kl := src[|src| - 1].0;
      KeysSnoc(src);
      if k == kl {
        IndexUnique(src, kl, |src| - 1);
      } else {
        MergeGet(acc, init, k);
        GetPrefix(src, |src| - 1, k);
      }
    }
  }

  /** The keys already there keep their positions. */
  lemma {:induction false} MergeKeepsOrder(acc: Settings, src: Settings)
    ensures |acc| <= |Merge(acc, src)|
    ensures forall i :: 0 <= i < |acc| ==> Merge(acc, src)[i].0 == acc[i].0
    decreases |src|
  {
    if src != [] {
      var init: Settings := src[..|src| - 1];
      MergeKeepsOrder(acc, init);
    }
  }

  /** Every key read from the merge. */
  lemma MergeGetAll(acc: Settings, src: Settings)
    ensures forall k :: Get(Merge(acc, src), k) == if k in Keys(src) then Get(src, k) else Get(acc, k)
  {
    forall k {
      MergeGet(acc, src, k);
    }
  }

  /** The `for..in` copy loop (lines 494-495). */
  method CopyInto(acc: Settings, src: Settings) returns (r: Settings)
    ensures r == Merge(acc, src)
    ensures Keys(r) == Keys(acc) + Keys(src)
    ensures forall k :: Get(r, k) == if k in Keys(src) then Get(src, k) else Get(acc, k)
  {
    r := acc;
    var i := 0;
    while i < |src|
      invariant 0 <= i <= |src|
      invariant r == Merge(acc, src[..i])
    {
      assert src[..i + 1][..i] == src[..i];
      r := Put(r, src[i].0, src[i].1);
      i := i + 1;
    }
    assert src[..i] == src;
    MergeKeys(acc, src);
    MergeGetAll(acc, src);
  }

  /** createSettings (lines 481-498): `{startTime: when || now}`, then the defaults,
      then the performance object after the note defaulting, each later source
      winning; `args` is the performance object as the caller's object is left. */
  method CreateSettings(host: Host, perf: PerfArgs, defaults: Settings, when: real, convert: SettingValue -> real)
    returns (settings: Settings, args: Settings)
    requires perf.Bare? ==> Primitive(perf.v)
    ensures args == WithFrequency(PerfObject(perf), convert)
    ensures var start := if when != 0.0 then when else host.currentTime;
            settings == Merge(Merge([("startTime", Num(start))], defaults), args)
    ensures Keys(settings) == {"startTime"} + Keys(defaults) + Keys(args)
    ensures settings[0].0 == "startTime"
    ensures forall k :: Get(settings, k) ==
              if k in Keys(args) then Get(args, k)
              else if k in Keys(defaults) then Get(defaults, k)
              else if k == "startTime" then Some(Num(if when != 0.0 then when else host.currentTime))
              else None
  {
    var obj := PerfObject(perf);
    var note := Get(obj, "note");
    var freq := Get(obj, "frequency");
    if note.Some? && Truthy(note.value) && !(freq.Some? && Truthy(freq.value)) {
      var f := convert(note.value);
      obj := Put(obj, "frequency", Num(if f != 0.0 then f else 440.0));
    }
    args := obj;
    var base: Settings := [("startTime", Num(if when != 0.0 then when else host.currentTime))];
    assert base[0].0 == "startTime";
    assert Keys(base) == {"startTime"};
    var withDefaults := CopyInto(base, defaults);
    settings := CopyInto(withDefaults, args);
    MergeKeepsOrder(base, defaults);
    MergeKeepsOrder(withDefaults, args);
  }

  /** The merge order: a `startTime` among the defaults overrides `when`, and one
      among the performance arguments overrides both. */
  lemma StartTimeOverride(base: Settings, defaults: Settings, args: Settings, t: SettingValue)
    requires Keys(base) == {"startTime"}
    requires Get(defaults, "startTime") == Some(t) && "startTime" !in Keys(args)
    ensures Get(Merge(Merge(base, defaults), args), "startTime") == Some(t)
  {
    MergeGet(base, defaults, "startTime");
    MergeGet(Merge(base, defaults), args, "startTime");
  }

  /** With no arguments at all, the settings are the start time and the defaults. */
  lemma MissingArgumentsGiveDefaults(base: Settings, defaults: Settings, convert: SettingValue -> real)
    ensures Merge(Merge(base, defaults), WithFrequency(PerfObject(Missing), convert)) == Merge(base, defaults)
  {
  }

  /** A bare note becomes the note setting and brings its frequency along. */
  lemma BareNote(v: SettingValue, convert: SettingValue -> real)
    requires Primitive(v) && Truthy(v)
    ensures var args := WithFrequency(PerfObject(Bare(v)), convert);
            var f := convert(v);
            Get(args, "note") == Some(v)
            && Get(args, "frequency") == Some(Num(if f != 0.0 then f else 440.0))
  {
    var obj := PerfObject(Bare(v));
    assert obj[0].0 == "note";
    IndexUnique(obj, "note", 0);
    assert "frequency" !in Keys(obj);
  }

  /** The duration an instrument plays a note for (line 474): the setting, or 0.25
      when it is absent or 0. */
  function Duration(settings: Settings): (d: real)
    requires Get(settings, "duration").Some? ==> Get(settings, "duration").value.Num?
    ensures d != 0.0
    ensures NumberAt(settings, "duration").Some? && NumberAt(settings, "duration").value != 0.0 ==>
              d == NumberAt(settings, "duration").value
  {
    var g := Get(settings, "duration");
    if g.Some? && g.value.v != 0.0 then g.value.v else 0.25
  }

  /** play (lines 472-475): the composite the recipe built from the settings is
      connected to the destination, started at the settings' start time and stopped
      after the settings' duration. */
  method Play(c: Composite, settings: Settings, dst: Endpoint)
    requires NumberAt(settings, "startTime").Some?
    requires Get(settings, "duration").Some? ==> Get(settings, "duration").value.Num?
    modifies c`connections, c`startTime, c.host`calls
    ensures var t := NumberAt(settings, "startTime").value;
            var now := old(c.host.currentTime);
            var s := if t != 0.0 then t else now;
            var e := s + Duration(settings);
            && c.connections == old(c.connections) + [dst]
            && c.startTime == Some(s)
            && c.host.calls == old(c.host.calls) + [Connected(c.dest.id, dst)]
                               + StartAll(c.startQ, s) + StopAll(c.stopQ, if e != 0.0 then e else now)
  {
    c.Connect(dst);
    var t := NumberAt(settings, "startTime").value;
    c.Play(Duration(settings), t);
  }

  /** start (lines 476-480): connected to the destination and started at the
      settings' start time, or now when it is 0. */
  method Start(c: Composite, settings: Settings, dst: Endpoint)
    requires NumberAt(settings, "startTime").Some?
    modifies c`connections, c`startTime, c.host`calls
    ensures var t := NumberAt(settings, "startTime").value;
            var s := if t != 0.0 then t else old(c.host.currentTime);
            && c.connections == old(c.connections) + [dst]
            && c.startTime == Some(s)
            && c.host.calls == old(c.host.calls) + [Connected(c.dest.id, dst)] + StartAll(c.startQ, s)
  {
    c.Connect(dst);
    c.Start(NumberAt(settings, "startTime").value);
  }
}

=== FILE: Pwm.dfy ===
/**
 * The pulse-width-modulation oscillator extension (createPwmOscillator1): a
 * composite whose triangle oscillator feeds a wave shaper with a square transfer
 * curve, so that the output is a pulse wave whose mark-space ratio follows the
 * exposed `width` parameter.
 */
module Pwm {
  import opened Host
  import opened Settings
  import opened Core

  /** The shaper's transfer curve: 256 points, the low half -1 and the high half +1. */
  predicate PulseCurve(s: seq<real>)
  {
    && |s| == 256
    && (forall i :: 0 <= i < 128 ==> s[i] == -1.0)
    && (forall i :: 128 <= i < 256 ==> s[i] == 1.0)
  }

  /** The curve fill (src/tony-ext-pwm1.js lines 45-49): a zeroed 256-point buffer;
      each pass writes index i with -1 and index 255 - i with +1, two distinct
      indices, so that after 128 passes every index has been written once. */
  method FillShape() returns (shape: array<real>)
    ensures shape.Length == 256
    ensures PulseCurve(shape[..])
  {
    shape := new real[256](_ => 0.0);
    var i := 0;
    while i < 128
      invariant 0 <= i <= 128
      invariant forall j :: 0 <= j < i ==> shape[j] == -1.0
      invariant forall j :: 256 - i <= j < 256 ==> shape[j] == 1.0
      invariant forall j :: i <= j < 256 - i ==> shape[j] == 0.0
    {
      shape[i] := -1.0;
      shape[255 - i] := 1.0;
      i := i + 1;
    }
  }

  /** The curve is antisymmetric about its middle and has no zero point, so the
      shaper never outputs silence. */
  lemma PulseCurveShape(s: seq<real>)
    requires PulseCurve(s)
    ensures forall i :: 0 <= i < 128 ==> s[255 - i] == -s[i]
    ensures forall i :: 0 <= i < 256 ==> s[i] != 0.0
  {
  }

  /** Lines 29-34: a constant source, then the three exposed parameters with their
      defaults, 440 for frequency, 0 for detune and 0 for width. */
  method MakeParams(c: Composite) returns (freq: ParamRef, detune: ParamRef, width: ParamRef)
    requires c.Valid() && !c.sealed && c.oneNode == null
    requires forall k :: k in c.node.params ==> c.node.params[k].node < c.host.nextId
    modifies c, c.host, c.node`params
    ensures c.Valid() && !c.sealed && c.startTime == old(c.startTime) && c.connections == old(c.connections)
    ensures c.oneNode != null && c.oneNode.connect == FluentConnect(HostConnect)
    ensures c.node.params == old(c.node.params)["frequency" := freq]["detune" := detune]["width" := width]
    ensures forall k :: k in c.node.params ==> c.node.params[k].node < c.host.nextId
    ensures c.madeParams == old(c.madeParams) + {freq, detune, width}
    ensures old(c.host.nextId) <= freq.node < detune.node < width.node < c.host.nextId
    ensures freq in c.host.values && c.host.values[freq] == 440.0
    ensures detune in c.host.values && c.host.values[detune] == 0.0
    ensures width in c.host.values && c.host.values[width] == 0.0
    ensures old(c.host.calls) <= c.host.calls
  {
    // `one`, which createParam does not use: it makes its own shared source
    var _ := c.CreateSingleValueSource(1.0);
    freq := c.CreateParam(440.0);
    c.Expose("frequency", freq);
    detune := c.CreateParam(0.0);
    c.Expose("detune", detune);
    width := c.CreateParam(0.0);
    c.Expose("width", width);
  }

  /** Lines 37-39: the triangle oscillator at frequency 0, driven by the frequency
      and detune parameters. */
  method MakeOscillator(c: Composite, freq: ParamRef, detune: ParamRef) returns (osc: Node)
    requires c.Valid() && !c.sealed
    requires freq in c.madeParams && detune in c.madeParams
    modifies c, c.host
    ensures c.Valid() && !c.sealed
    ensures c.startTime == old(c.startTime) && c.connections == old(c.connections) && c.madeParams == old(c.madeParams)
    ensures old(c.host.nextId) <= osc.id < c.host.nextId
    ensures osc.kind == Oscillator && osc.connect == FluentConnect(HostConnect)
    ensures "type" in osc.members && osc.members["type"] == Text("triangle")
    ensures ParamRef(osc.id, "frequency") in c.host.values && c.host.values[ParamRef(osc.id, "frequency")] == 0.0
    ensures forall p :: p in old(c.host.values) && p.node < old(c.host.nextId) ==>
              p in c.host.values && c.host.values[p] == old(c.host.values)[p]
    ensures old(c.host.calls) <= c.host.calls
    ensures |c.host.calls| >= 2 && c.host.calls[|c.host.calls| - 2..] ==
              [Connected(freq.node, ToParam(ParamRef(osc.id, "frequency"))),
               Connected(detune.node, ToParam(ParamRef(osc.id, "detune")))]
  {
    osc := NewTriangle(c);
    var _ := c.ConnectParam(freq, ToParam(ParamRef(osc.id, "frequency")));
    var _ := c.ConnectParam(detune, ToParam(ParamRef(osc.id, "detune")));
  }

  /** Line 37: the oscillator made with its type and frequency settings. */
  method NewTriangle(c: Composite) returns (osc: Node)
    requires c.Valid() && !c.sealed
    modifies c, c.host
    ensures c.Valid() && !c.sealed
    ensures c.startTime == old(c.startTime) && c.connections == old(c.connections) && c.madeParams == old(c.madeParams)
    ensures old(c.host.nextId) <= osc.id < c.host.nextId
    ensures osc.kind == Oscillator && osc.connect == FluentConnect(HostConnect)
    ensures "type" in osc.members && osc.members["type"] == Text("triangle")
    ensures ParamRef(osc.id, "frequency") in c.host.values && c.host.values[ParamRef(osc.id, "frequency")] == 0.0
    ensures forall p :: p in old(c.host.values) && p.node < old(c.host.nextId) ==>
              p in c.host.values && c.host.values[p] == old(c.host.values)[p]
    ensures old(c.host.calls) <= c.host.calls
  {
    var settings: Settings := [("type", Text("triangle")), ("frequency", Num(0.0))];
    assert SplitArgs([AObject(settings)]).1 == Some(settings);
    assert NoGainKey(settings);
    osc := CreateNode(c.host, c, Oscillator, [AObject(settings)]);
    assert settings[0].0 !in HostParams(Oscillator) && settings[1].0 in HostParams(Oscillator);
  }

  /** Lines 45-58: the shaper with the pulse curve, fed by the oscillator and by the
      width parameter, and connected to the composite's output. */
  method MakeShaper(c: Composite, osc: Node, width: ParamRef) returns (shaper: Node)
    requires c.Valid() && !c.sealed
    requires width in c.madeParams && osc.connect == FluentConnect(HostConnect)
    modifies c, c.host
    ensures c.Valid() && !c.sealed
    ensures c.startTime == old(c.startTime) && c.connections == old(c.connections) && c.madeParams == old(c.madeParams)
    ensures old(c.host.nextId) <= shaper.id < c.host.nextId && shaper.kind == WaveShaper
    ensures "curve" in shaper.members && shaper.members["curve"].Samples? && PulseCurve(shaper.members["curve"].data)
    ensures forall p :: p in old(c.host.values) && p.node < old(c.host.nextId) ==>
              p in c.host.values && c.host.values[p] == old(c.host.values)[p]
    ensures old(c.host.calls) <= c.host.calls
    ensures |c.host.calls| >= 3 && c.host.calls[|c.host.calls| - 3..] ==
              [Connected(osc.id, ToNode(shaper.id)), Connected(width.node, ToNode(shaper.id)),
               Connected(shaper.id, ToNode(c.dest.id))]
  {
    shaper := NewShaper(c);
    var _ := InvokeConnect(c.host, osc, ToNode(shaper.id));
    var _ := c.ConnectParam(width, ToNode(shaper.id));
    var _ := InvokeConnect(c.host, shaper, ToNode(c.dest.id));
  }

  /** Lines 45-49: the wave shaper made with the pulse curve as its setting. */
  method NewShaper(c: Composite) returns (shaper: Node)
    requires c.Valid() && !c.sealed
    modifies c, c.host
    ensures c.Valid() && !c.sealed
    ensures c.startTime == old(c.startTime) && c.connections == old(c.connections) && c.madeParams == old(c.madeParams)
    ensures old(c.host.nextId) <= shaper.id < c.host.nextId && shaper.kind == WaveShaper
    ensures shaper.connect == FluentConnect(HostConnect)
    ensures "curve" in shaper.members && shaper.members["curve"].Samples? && PulseCurve(shaper.members["curve"].data)
    ensures forall p :: p in old(c.host.values) && p.node < old(c.host.nextId) ==>
              p in c.host.values && c.host.values[p] == old(c.host.values)[p]
    ensures old(c.host.calls) <= c.host.calls
  {
    var shape := FillShape();
    var settings: Settings := [("curve", Samples(shape[..]))];
    assert SplitArgs([AObject(settings)]).1 == Some(settings);
    assert NoGainKey(settings);
    shaper := CreateNode(c.host, c, WaveShaper, [AObject(settings)]);
    assert settings[0].0 !in HostParams(WaveShaper);
  }

  /** createPwmOscillator1 (lines 27-60): the composite built by the recipe, with
      the settings, when given, applied to it. */
  method CreatePwmOscillator(host: Host, settings: Option<Settings>)
    returns (c: Composite, freq: ParamRef, detune: ParamRef, width: ParamRef, osc: Node, shaper: Node)
    requires settings.Some? ==>
               SettingsAccepted(settings.value, {"gain", "frequency", "detune", "width"}, false, false)
    modifies host
    ensures c.host == host && c.Valid() && c.sealed
    ensures c.node.params.Keys == {"gain", "frequency", "detune", "width"}
    ensures c.node.params["frequency"] == freq && c.node.params["detune"] == detune
    ensures c.node.params["width"] == width
    ensures ParamsDistinct(c.node.params)
    ensures settings.None? || "frequency" !in Keys(settings.value) ==> freq in host.values && host.values[freq] == 440.0
    ensures settings.None? || "detune" !in Keys(settings.value) ==> detune in host.values && host.values[detune] == 0.0
    ensures settings.None? || "width" !in Keys(settings.value) ==> width in host.values && host.values[width] == 0.0
    ensures settings.Some? ==> ParamsRead(host.values, c.node.params, settings.value, |settings.value|)
    ensures osc.kind == Oscillator && "type" in osc.members && osc.members["type"] == Text("triangle")
    ensures "curve" in shaper.members && shaper.members["curve"].Samples? && PulseCurve(shaper.members["curve"].data)
    ensures Connected(freq.node, ToParam(ParamRef(osc.id, "frequency"))) in host.calls
    ensures Connected(osc.id, ToNode(shaper.id)) in host.calls
    ensures Connected(width.node, ToNode(shaper.id)) in host.calls
    ensures Connected(shaper.id, ToNode(c.dest.id)) in host.calls
  {
    c, freq, detune, width, osc, shaper := Build(host);
    c.Finish(settings);
    if settings.Some? {
      assert settings.value[..|settings.value|] == settings.value;
    }
  }

  /** Lines 27-59: the composite with its parameters and nodes made and wired, before
      the settings are applied. */
  method Build(host: Host) returns (c: Composite, freq: ParamRef, detune: ParamRef, width: ParamRef, osc: Node, shaper: Node)
    modifies host
    ensures c.host == host && c.Valid() && !c.sealed
    ensures forall k :: k in c.node.params ==> c.node.params[k].node < host.nextId
    ensures c.node.params.Keys == {"gain", "frequency", "detune", "width"}
    ensures c.node.params["frequency"] == freq && c.node.params["detune"] == detune
    ensures c.node.params["width"] == width
    ensures ParamsDistinct(c.node.params)
    ensures fresh(c) && fresh(c.node) && osc != c.node && shaper != c.node
    ensures freq in host.values && host.values[freq] == 440.0
    ensures detune in host.values && host.values[detune] == 0.0
    ensures width in host.values && host.values[width] == 0.0
    ensures osc.kind == Oscillator && "type" in osc.members && osc.members["type"] == Text("triangle")
    ensures "curve" in shaper.members && shaper.members["curve"].Samples? && PulseCurve(shaper.members["curve"].data)
    ensures Connected(freq.node, ToParam(ParamRef(osc.id, "frequency"))) in host.calls
    ensures Connected(osc.id, ToNode(shaper.id)) in host.calls
    ensures Connected(width.node, ToNode(shaper.id)) in host.calls
    ensures Connected(shaper.id, ToNode(c.dest.id)) in host.calls
  {
    c := NewComposite(host);
    ghost var gain := c.node.params["gain"];
    freq, detune, width := MakeParams(c);
    ExposedDistinct(c.node.params, gain, freq, detune, width);
    osc, shaper := Wire(c, freq, detune, width);
  }

  /** The composite's gain and the three parameters made after it are four distinct
      AudioParams. */
  lemma ExposedDistinct(params: map<string, ParamRef>, gain: ParamRef, freq: ParamRef, detune: ParamRef, width: ParamRef)
    requires params == map["gain" := gain]["frequency" := freq]["detune" := detune]["width" := width]
    requires gain.node < freq.node < detune.node < width.node
    ensures ParamsDistinct(params)
  {
  }

  /** Lines 37-58: the oscillator and the shaper, made and wired. */
  method Wire(c: Composite, freq: ParamRef, detune: ParamRef, width: ParamRef) returns (osc: Node, shaper: Node)
    requires c.Valid() && !c.sealed
    requires freq in c.madeParams && detune in c.madeParams && width in c.madeParams
    modifies c, c.host
    ensures c.Valid() && !c.sealed
    ensures c.startTime == old(c.startTime) && c.connections == old(c.connections) && c.madeParams == old(c.madeParams)
    ensures old(c.host.nextId) <= osc.id < c.host.nextId && old(c.host.nextId) <= shaper.id < c.host.nextId
    ensures forall p :: p in old(c.host.values) && p.node < old(c.host.nextId) ==>
              p in c.host.values && c.host.values[p] == old(c.host.values)[p]
    ensures osc.kind == Oscillator && "type" in osc.members && osc.members["type"] == Text("triangle")
    ensures "curve" in shaper.members && shaper.members["curve"].Samples? && PulseCurve(shaper.members["curve"].data)
    ensures Connected(freq.node, ToParam(ParamRef(osc.id, "frequency"))) in c.host.calls
    ensures Connected(osc.id, ToNode(shaper.id)) in c.host.calls
    ensures Connected(width.node, ToNode(shaper.id)) in c.host.calls
    ensures Connected(shaper.id, ToNode(c.dest.id)) in c.host.calls
  {
    osc := MakeOscillator(c, freq, detune);
    ghost var wired := c.host.calls;
    assert wired[|wired| - 2..][0] == Connected(freq.node, ToParam(ParamRef(osc.id, "frequency")));
    shaper := MakeShaper(c, osc, width);
    ghost var made := c.host.calls;
    assert made[|made| - 3..][0] == Connected(osc.id, ToNode(shaper.id));
    assert made[|made| - 3..][1] == Connected(width.node, ToNode(shaper.id));
    assert made[|made| - 3..][2] == Connected(shaper.id, ToNode(c.dest.id));
  }

  /** `createPwmOscillator1({frequency: 220, width: 0.5})`: the two named parameters
      take the given values and detune keeps its default. */
  method ExampleFrequencyAndWidth(host: Host) returns (c: Composite, freq: ParamRef, detune: ParamRef, width: ParamRef)
    modifies host
    ensures freq in host.values && host.values[freq] == 220.0
    ensures detune in host.values && host.values[detune] == 0.0
    ensures width in host.values && host.values[width] == 0.5
  {
    var settings: Settings := [("frequency", Num(220.0)), ("width", Num(0.5))];
    assert "detune" !in Keys(settings);
    var osc, shaper;
    c, freq, detune, width, osc, shaper := CreatePwmOscillator(host, Some(settings));
    assert settings[0].0 in c.node.params && settings[1].0 in c.node.params;
  }
}

=== FILE: Settings.dfy ===
/**
 * Settings objects: the plain objects passed as the last argument of a node factory,
 * as the defaults of an instrument and as performance arguments. A JavaScript object
 * keeps its own keys distinct and in insertion order; assigning an existing key keeps
 * its place, assigning a new key appends it. JavaScript enumerates integer-like keys
 * first, in ascending order; the model assumes setting names are not integer-like,
 * as every name the library and its extensions read is.
 */
module Settings {
  import opened Envelope

  datatype Option<T> = None | Some(value: T)

  /** The values a setting can take. */
  datatype SettingValue =
    | Num(v: real)
    | Steps(steps: seq<Step>)   // an envelope: an array of bare values and [target, duration] pairs
    | Text(s: string)
    | Flag(b: bool)
    | Samples(data: seq<real>)  // a typed array, such as a wave-shaper curve or sample buffer

  /** JavaScript truthiness; arrays are objects and always truthy. */
  predicate Truthy(x: SettingValue)
  {
    match x
    case Num(v) => v != 0.0
    case Text(s) => s != ""
    case Flag(b) => b
    case Steps(_) => true
    case Samples(_) => true
  }

  type Entry = (string, SettingValue)

  predicate DistinctKeys(s: seq<Entry>)
  {
    forall i, j :: 0 <= i < j < |s| ==> s[i].0 != s[j].0
  }

  /** An object's own properties, in enumeration order. */
  type Settings = s: seq<Entry> | DistinctKeys(s) witness []

  function Keys(s: seq<Entry>): set<string>
  {
    set i | 0 <= i < |s| :: s[i].0
  }

  /** Where key k sits. */
  function IndexOf(s: seq<Entry>, k: string): (i: nat)
    requires k in Keys(s)
    ensures i < |s| && s[i].0 == k
    decreases |s|
  {
    if s[0].0 == k then 0
    else
      assert k in Keys(s[1..]) by {
        var j :| 0 <= j < |s| && s[j].0 == k;
        assert s[1..][j - 1].0 == k;
      }
      1 + IndexOf(s[1..], k)
  }

  /** With distinct keys, a key's position is the only one holding it. */
  lemma IndexUnique(s: Settings, k: string, j: nat)
    requires j < |s| && s[j].0 == k
    ensures k in Keys(s) && IndexOf(s, k) == j
  {
  }

  /** `obj[k]`, or None when k is not a key. */
  function Get(s: seq<Entry>, k: string): (r: Option<SettingValue>)
    ensures r.Some? <==> k in Keys(s)
    ensures r.Some? ==> (k, r.value) in s
  {
    if k in Keys(s) then Some(s[IndexOf(s, k)].1) else None
  }

  /** `obj[k] = v`: an existing key keeps its position, a new key goes last. */
  function Put(s: Settings, k: string, v: SettingValue): (r: Settings)
    ensures Keys(r) == Keys(s) + {k}
    ensures |r| == |s| + (if k in Keys(s) then 0 else 1)
    ensures forall i :: 0 <= i < |s| ==> r[i].0 == s[i].0
    ensures k !in Keys(s) ==> r[|s|] == (k, v)
    ensures Get(r, k) == Some(v)
    ensures forall k' :: k' != k ==> Get(r, k') == Get(s, k')
  {
    if k in Keys(s) then
      var i := IndexOf(s, k);
      var r := s[i := (k, v)];
      assert Keys(r) == Keys(s) by {
        forall k' | k' in Keys(s) ensures k' in Keys(r) {
          var j :| 0 <= j < |s| && s[j].0 == k';
          assert r[j].0 == k';
        }
      }
      assert DistinctKeys(r);
      IndexUnique(r, k, i);
      forall k' | k' != k ensures Get(r, k') == Get(s, k') {
        if k' in Keys(s) {
          var j := IndexOf(s, k');
          IndexUnique(r, k', j);
        }
      }
      r
    else
      var r := s + [(k, v)];
      assert Keys(r) == Keys(s) + {k} by {
        forall k' | k' in Keys(s) ensures k' in Keys(r) {
          var j :| 0 <= j < |s| && s[j].0 == k';
          assert r[j].0 == k';
        }
        assert r[|s|].0 == k;
      }
      assert DistinctKeys(r);
      IndexUnique(r, k, |s|);
      forall k' | k' != k ensures Get(r, k') == Get(s, k') {
        if k' in Keys(s) {
          var j := IndexOf(s, k');
          IndexUnique(r, k', j);
        }
      }
      r
  }

  /** The value of a key in a settings object, if it is numeric. */
  function NumberAt(s: seq<Entry>, k: string): Option<real>
  {
    var g := Get(s, k);
    if g.Some? && g.value.Num? then Some(g.value.v) else None
  }
}
